=== FILE: README.md ===
# upkern kernel naming and GRUB configuration, modelled in Dafny

upkern updates the kernel of a Gentoo system. It resolves a user-given kernel name to a Portage
package, finds the package's source directory under `/usr/src`, configures and builds it, installs
the image into `/boot`, and adds an entry for it to the GRUB configuration. The repository keeps
several snapshots of the program side by side. This project models the pure logic of each one:

- **Version keys and the sources resolvers.**
  - `upkern/sources.py` is modelled by `Sources`, with `VersionKey` for `kernel_index`.
  - `upkern/kernel/sources.py` is modelled by `KernelSources`. Its `_keyify` key is also in `VersionKey`.
    Its `configure` builds the same command as `upkern/sources.py` for the same arguments, so `Sources.ConfigureCommand` serves both. The configurator is an explicit argument there. The two defaults differ: `menuconfig` in `upkern/sources.py`, and the empty string in `upkern/kernel/sources.py`, which gives `make <opts> ` with a trailing blank.
  - `upkern/kernel/kernel.py` is modelled by `KernelKernel`.
  - `kernel/__init__.py` is modelled by `KernelPackage`.
  - `kernel.py` is modelled by `LegacyKernel`.
  - `AtomGrammar` holds the package expression the first three snapshots share.
  - `NameGrammar` holds the name and `emerge -s` grammars of the last two.
- **The GRUB legacy configuration patchers.**
  - `upkern/bootloader/bootloaders/grub.py` is modelled by `Grub`.
  - The older `upkern/bootloader/grub.py` is modelled by `GrubLegacy`.
- **Small helpers.**
  - `Binary`: the kernel binary names of `upkern/kernel/binary.py`.
  - `Fstab`: the fstab table of `upkern/system/fstab.py`.
  - `GenKernel`: the genkernel preparer of `upkern/initramfs/genkernel.py`.

Shared modules hold the library behaviour the code leans on:

- `Results`: `Option` and `Result`.
- `Text`: characters, substrings, `str.split` and `join`, shell words, Python's string order.
- `Numbers`: decimal numerals and Python's `int()`.
- `Lines`: `readlines`.
- `Listing`: the directory filters.
- `Sorting`: Python's stable `sorted`.
- `Dedupe` and `Survivors`: the last-write-wins of a dict built from a list.

Each regular expression is a hand-written matcher. Each matcher keeps Python's backtracking order:

- a greedy run is tried from the longest, a lazy one from the shortest;
- `re.match` anchors only at the start;
- `$` also matches before one final newline.

Whatever the program asks of the system is a parameter of the model:

- directory listings are `seq<string>`;
- the owner of a file, per gentoolkit, is a function `owner: string -> string`;
- file contents and presence are inputs;
- the output of `emerge -s` and `fgrep` is an input;
- exit statuses, the machine name and the current time are inputs.

A file system, where one is needed, is a map from path to contents.

## Model

| member | source | states |
|---|---|---|
| VersionKey.IndexFormula | upkern/sources.py:44-54 | when minor, patch and revision are below 1000, the key is major·10⁹ + minor·10⁶ + patch·10³ + revision |
| VersionKey.IndexOrder | upkern/sources.py:27-33 | for such versions, the key order is exactly the (major, minor, patch, revision) order, and equal keys mean equal versions |
| VersionKey.KernelIndexOrdersVersions | upkern/sources.py:26-54 | `kernel_index` orders two names as the versions they are read as, provided the components fit in three digits |
| VersionKey.IndexOrderNeedsBound | upkern/sources.py:27-33 | the documented "greater for a newer kernel" fails without that bound: 3.0.0-r1000 gets a larger key than the newer 3.0.1 |
| VersionKey.FirstMatch | upkern/sources.py:19-24 | a match of the lazy prefix `.*?` is the rest of the expression matched at some position, and no match means no position works |
| VersionKey.FirstMatchFinds | upkern/sources.py:19-24 | the lazy prefix stops at the first position where the rest of the expression matches: when no earlier position matches, that position's match is the result |
| VersionKey.ParseKernelName | upkern/sources.py:19-24 | `<prefix><major>.<minor>[.<patch>]-<flavor>[-r<rev>]` is read as those components, with missing ones as 0 |
| VersionKey.KernelIndexOfName | upkern/sources.py:44-54 | the key of such a name is the weighted sum of its components |
| VersionKey.KernelIndexDocExample | upkern/sources.py:34-36 | `linux-3.10.7-gentoo-r1` has key 3010007001 |
| VersionKey.KernelIndexNoRevision | upkern/sources.py:37-38 | `linux-3.12.6-gentoo` has key 3012006000 |
| VersionKey.KernelIndexTwoDigitPatch | upkern/sources.py:44-54 | `linux-3.9.11-gentoo-r1` has key 3009011001 |
| VersionKey.KernelIndexHardened | upkern/sources.py:44-54 | the flavor does not enter the key: `linux-3.11.7-hardened-r1` has key 3011007001 |
| VersionKey.NoDigitsNoVersion | upkern/sources.py:44-47 | a name without digits does not match, so it has key 0 |
| VersionKey.Pad3 | upkern/kernel/sources.py:537 | `{:03d}` spells the number, using exactly three digits below 1000 |
| VersionKey.KeyOrder | upkern/kernel/sources.py:507-544 | when every component is below 1000, the `_keyify` string order is the version order, and equal strings mean equal versions |
| VersionKey.KeyTextNeedsBound | upkern/kernel/sources.py:537 | without that bound two different versions (1.100.1000 and 1.1001.0) get the same key |
| Sources.SourceDirectories | upkern/sources.py:212-217 | `source_directories` holds exactly the `linux-?…` entries of the listing, with their multiplicities |
| Sources.ConfigurationFiles | upkern/sources.py:72-82 | `configuration_files` holds exactly the `config-?…` entries of `/boot`, with their multiplicities |
| Sources.ListingsNewestFirst | upkern/sources.py:213-215 | both listings are in non-increasing `kernel_index` order, and entries with equal keys keep the listing's order (the sort is stable) |
| Sources.NamedPackage | upkern/sources.py:163-177 | a given name gives `=sys-kernel/…`; it is the bare `=sys-kernel/` exactly when the expression rejects the name |
| Sources.PackageName | upkern/sources.py:140-179 | a cached value is returned as is; a named object gives its atom; an unnamed one fails exactly when `/usr/src` has no `linux-` directory |
| Sources.Scan | upkern/sources.py:102-120 | the loop stops at a directory that is in the listing, and caches it as the directory name |
| Sources.DirectoryName | upkern/sources.py:97-122 | a cached directory is returned as is; otherwise the answer is one of `source_directories` |
| Sources.FirstOwned | upkern/sources.py:102-120 | the first directory whose owner is the package, or none when no directory is owned by it |
| Sources.PackageNameCorrect | upkern/sources.py:140-179 | with the corrected cache, `package_name` is the package the object denotes, and the cache stays consistent with the owner lookup |
| Sources.ScanCorrect | upkern/sources.py:102-120 | with the corrected cache, the loop finds the first directory whose owner is the package without its `=` |
| Sources.DirectoryNameCorrect | upkern/sources.py:97-122 | with the corrected cache, `directory_name` is the first directory of `source_directories` owned by the target package |
| Sources.PackageThenDirectory | upkern/sources.py:97-179 | with the corrected cache, asking for the package first does not change the directory |
| Sources.UnnamedTakesNewest | upkern/sources.py:147-162 | without a name, the newest directory is chosen when its owner has no leading `=` |
| Sources.NamedVariantsAgree | upkern/sources.py:163-177 | with a name, the written and the corrected `package_name` agree |
| Sources.ScanAgrees | upkern/sources.py:102-120 | from caches the two variants can reach, the written and the corrected loop choose the same directory or fail alike: the `=<owner>` the written code caches is only read back at a directory that already failed to match |
| Sources.DirectoryVariantsAgree | upkern/sources.py:97-122 | read first on any object, named or not (a fresh unnamed one included), `directory_name` chooses the same directory as written and corrected; on a named object `package_name` then `directory_name` also agree |
| Sources.CacheBugAsWritten | upkern/sources.py:147-162 | as written, the unnamed `package_name` caches `=<owner>`, and a later `directory_name` then finds nothing |
| Sources.CacheBugCorrected | upkern/sources.py:147-162 | corrected, the same object finds its directory in either order of the calls |
| Sources.ConfigurationPath | upkern/sources.py:338-346 | the file to copy is the one given, else the newest `/boot/config-*`, else there is none exactly when `/boot` has no such file |
| Sources.CopyConfiguration | upkern/sources.py:329-367 | no file means no change; success replaces `.config` and removes the backup; failure restores `.config` from the backup, or leaves the files alone when there is no backup |
| Sources.CopyReplacesConfig | upkern/sources.py:350-365 | copying an existing file replaces `.config` with it, drops the backup, and changes nothing else |
| Sources.NoConfigurationNoChange | upkern/sources.py:340-346 | with no file given and no `config-` file in `/boot`, nothing is touched |
| Sources.ConfigureCommandWords | upkern/sources.py:264-270 | the blank-separated words are `make`, the make options and the configurator, after `yes "" \|` exactly when defaults are accepted |
| KernelSources.Newest | upkern/kernel/sources.py:213-226 | the survivors pass the filter and come from the listing; none survive exactly when nothing passes |
| KernelSources.NewestDescending | upkern/kernel/sources.py:219-224 | the survivors are in strictly descending `_keyify` order |
| KernelSources.NewestLast | upkern/kernel/sources.py:219-220 | each survivor is the last entry of the filtered listing with its key, and each such last entry survives |
| KernelSources.NewestCovers | upkern/kernel/sources.py:219-220 | every key of the filtered listing keeps one survivor |
| KernelSources.SourceDirectories | upkern/kernel/sources.py:213-226 | every directory comes from the listing and is a `linux-` entry; the list is empty exactly when the listing has none |
| KernelSources.SourceDirectoriesByVersion | upkern/kernel/sources.py:213-226 | when the components fit, the directories are in strictly descending version order |
| KernelSources.PackageName | upkern/kernel/sources.py:160-195 | an accepted name gives `=<atom>`; otherwise the owner of the newest directory, verbatim; it fails exactly when neither exists |
| KernelSources.DirectoryName | upkern/kernel/sources.py:95-122 | the answer is owned by the package without its `=`, and no earlier directory has that owner |
| KernelSources.DirectoryNameFails | upkern/kernel/sources.py:95-122 | no directory comes back exactly when none is owned by the package |
| KernelSources.UnparsedNameTakesNewest | upkern/kernel/sources.py:172-193 | a rejected name picks the newest directory, provided its owner has no leading `=` |
| KernelSources.ConfigChoice | upkern/kernel/sources.py:455-473 | the file given, else some `config-` file of `/boot`, else none exactly when there is none |
| KernelSources.ConfigChoiceNewest | upkern/kernel/sources.py:455-473 | with no file given, the choice has the greatest key of all `config-` files |
| KernelSources.CopyConfig | upkern/kernel/sources.py:443-505 | no choice means no change; otherwise the backup is always gone; it fails exactly when the file is missing; success puts the file's contents into `.config` |
| KernelSources.FailedCopyKeepsConfig | upkern/kernel/sources.py:480-505 | a failed copy leaves `.config` as it was |
| AtomGrammar.ParseAtom | upkern/sources.py:141-145 | the expression matches exactly when the name starts with `[A-Za-z0-9+_]`; the groups are well-formed and read from the start, after any `sys-kernel/` |
| AtomGrammar.LastSplit | upkern/sources.py:141-145 | the greedy flavor gives characters back until `-sources-` and a version follow: the largest such end |
| AtomGrammar.PackageOf | upkern/sources.py:172-177 | the atom is `sys-kernel/<flavor or gentoo>-sources-<version>` |
| AtomGrammar.ParseAtomText | upkern/sources.py:141-145 | a well-formed atom reads back from its text, with or without the category |
| AtomGrammar.CategoryAlone | upkern/sources.py:141-145 | a bare `sys-kernel/` is read as the version `sys-kernel` |
| AtomGrammar.ParseBareVersion | upkern/sources.py:141-145 | `3.12.6` has no flavor group |
| AtomGrammar.ParseFlavoredPackage | upkern/sources.py:141-145 | `hardened-sources-3.11.7-r1` has flavor `hardened`, and its version keeps the revision |
| AtomGrammar.ParseFullAtom | upkern/sources.py:141-145 | `sys-kernel/gentoo-sources-3.12.6` has flavor `gentoo` and version `3.12.6` |
| KernelKernel.KernelDirectories | upkern/kernel/kernel.py:319-328 | raises exactly when `/usr/src/` cannot be accessed; otherwise exactly the `linux-` entries, with their multiplicities, in ascending string order |
| KernelKernel.LastOwned | upkern/kernel/kernel.py:294-307 | the reversed scan finds the last directory owned by the package, or none when none is |
| KernelKernel.KernelNames | upkern/kernel/kernel.py:231-328 | an accepted name fails exactly when the package is not installed (checked first) or `/usr/src/` is missing, and otherwise emerges the atom; any other name fails exactly when `/usr/src/` is missing or has no `linux-` directory, and emerges the directory's owner |
| KernelKernel.NamedDirectoryIsGreatestOwned | upkern/kernel/kernel.py:294-307 | the directory is the greatest one by name that the package owns, and `""` exactly when it owns none |
| KernelKernel.UnnamedDirectoryIsGreatest | upkern/kernel/kernel.py:308-312 | without an accepted name, the directory is the greatest `linux-` entry by name |
| KernelKernel.PackageUnstripped | upkern/kernel/kernel.py:256-262 | stripping the emerge name changes nothing |
| KernelKernel.KernelSuffix | upkern/kernel/kernel.py:86 | a dash and the text after the first dash; the directory is its head plus the suffix |
| KernelKernel.KernelInstallImage | upkern/kernel/kernel.py:217-229 | `bzImage` exactly for `x86_64` and `i686`, an exception otherwise |
| KernelKernel.ConfigToCopy | upkern/kernel/kernel.py:142-148 | the greatest `config-` file by name, or none exactly when there is none |
| KernelPackage.SetKernelName | kernel/__init__.py:159-199 | without `/usr/src/` nothing is set and no name is refused; otherwise a name that fits neither grammar is `BadKernelError`; a parsed type must be stable, is refused as masked when only in the full list, and as bogus when in neither; the directory starts with `linux-` |
| KernelPackage.OfferedPackageAccepted | kernel/__init__.py:178-196 | `<type>-sources-<version>[-rN]` with a stable type gives the download and directory names the source writes out |
| KernelPackage.MaskedPackageRefused | kernel/__init__.py:186-189 | a type listed only with more text after `-sources` is `BadSourceTypeError` |
| KernelPackage.BareVersionAccepted | kernel/__init__.py:195-196 | a bare version takes the constructor's sources as its flavor |
| KernelPackage.AreSourcesDownloaded | kernel/__init__.py:206-219 | a given name is downloaded exactly when it is a non-hidden entry; an empty one adopts a non-hidden entry when there is one |
| KernelPackage.AdoptsGreatest | kernel/__init__.py:209-216 | the adopted entry is the greatest non-hidden one by name |
| NameGrammar.ParseName | kernel/__init__.py:178-181 | the kernel form, then the package form; a parsed type is never empty |
| NameGrammar.KernelStyle | kernel/__init__.py:178 | `<a.b.c>-<type>[-rN]` is read as version, type and release |
| NameGrammar.BareVersion | kernel/__init__.py:178 | `<a.b.c>` alone has no type and no release |
| NameGrammar.ReleaseReadAsType | kernel/__init__.py:178 | `<a.b.c>-rN` is read with type `rN`, since the lazy type group comes first |
| NameGrammar.PackageStyle | kernel/__init__.py:179 | `<type>-sources-<a.b.c>[-rN]` is read as type, version and release |
| NameGrammar.DownloadNameReadsBack | kernel/__init__.py:195 | the download name of such a spec is the text it was parsed from |
| NameGrammar.Flavor | kernel/__init__.py:195-196 | the parsed type, else the constructor's sources, else `gentoo` |
| NameGrammar.CollectMembers | kernel/__init__.py:166-176 | the stable list holds exactly the types of lines whose stable match succeeds; the full list adds the types of the other matching lines |
| NameGrammar.StableLine | kernel/__init__.py:166 | `…sys-kernel/<t>-sources\n` is a stable line of type `t` |
| NameGrammar.MaskedLine | kernel/__init__.py:166-167 | with more text after `-sources`, a line is in the full list only |
| NameGrammar.OfferOf | kernel/__init__.py:182-191 | a type is stable exactly when in the stable list, and masked exactly when only in the full list |
| LegacyKernel.KernelNames | kernel.py:102-164 | without `/usr/src/` the result is `None`; otherwise a rejected name raises the no-match exception; the accepted ones are those with no type or a stable one; a masked type is in the full list only; the unlisted type hits the undefined `match` |
| LegacyKernel.SnapshotsAgree | kernel.py:102-164 | `kernel.py` and `kernel/__init__.py` accept the same names, give the same two names, and refuse the rest for corresponding reasons; both set nothing without `/usr/src/` |
| LegacyKernel.DownloadedIff | kernel.py:186-194 | the sources are downloaded exactly when the name is an entry and is not ignored |
| LegacyKernel.IgnoredNeverDownloaded | kernel.py:186-194 | a hidden name or `snort_dynamicsrc` is never downloaded |
| LegacyKernel.Configure | kernel.py:272-314 | an empty configurator is `menuconfig`; one outside the ten-name list is refused; the command is built with `-s` and a redirection chosen by verbosity |
| LegacyKernel.DefaultConfigurator | kernel.py:272-273 | with no configurator and verbosity at most 2, the command runs `make -s` |
| LegacyKernel.MakeOpts | kernel.py:325-332 | empty grep output gives `""`; otherwise the result is the text between `MAKEOPTS="` and the final quote, or an error |
| LegacyKernel.MakeOptsReadsBack | kernel.py:325-332 | a `MAKEOPTS="<v>"` line reads back as `v` |
| LegacyKernel.Redirect | kernel.py:352-357 | nothing above verbosity 2; stdout at 1 and 2; both streams at or below 0 |
| LegacyKernel.RedirectMonotone | kernel.py:352-357 | a louder setting's redirection is a prefix of a quieter one's |
| Grub.GrubRoot | upkern/bootloader/bootloaders/grub.py:53-69 | a root exists exactly when the partition starts `/dev/` and a digit follows in its word run; otherwise the error names the partition |
| Grub.GrubRootOfWord | upkern/bootloader/bootloaders/grub.py:57-68 | backtracking makes the number the last digit of the word and the letter the character before it |
| Grub.FirstDisk | upkern/bootloader/bootloaders/grub.py:57-68 | `/dev/sda1` gives `(hd0,0)` |
| Grub.TenthPartition | upkern/bootloader/bootloaders/grub.py:57-68 | `/dev/sda10` gives `(hd-1,-1)` |
| Grub.Configuration | upkern/bootloader/bootloaders/grub.py:71-81 | one entry per file line, without its newline; each line but the last is the entry plus a newline |
| Grub.InstallReadsBack | upkern/bootloader/bootloaders/grub.py:173-211 | lines without newlines, whose last is not empty, are read back after being written out |
| Grub.EntryLines | upkern/bootloader/bootloaders/grub.py:144-164 | the entry is five lines, or six with the initrd, starting with a blank line and holding `title=<name>`; its root line holds the grub root it is given |
| Grub.BumpDefault | upkern/bootloader/bootloaders/grub.py:101-105 | a default line becomes `default <n+1>` exactly when `int()` accepts the text after its first space |
| Grub.Rewrite | upkern/bootloader/bootloaders/grub.py:101-129 | the result has one line per input line, each rewritten on its own (a default line bumped, any other kept), and the rewrite fails exactly when some line's rewrite does |
| Grub.Prepare | upkern/bootloader/bootloaders/grub.py:53-171 | a present kernel leaves the lines as they are; otherwise it succeeds exactly when every default line can be bumped and the boot partition has a grub root. A bad default line fails first; then a boot partition `grub_root` cannot match raises. On success the rewritten lines are followed by the entry with that root, and non-default lines are kept in place |
| Grub.OtherBootHasNoRoot | upkern/bootloader/bootloaders/grub.py:53-67 | a boot partition that is not a `/dev/` path, such as `LABEL=boot`, makes `prepare` raise where it would add an entry |
| Grub.RewriteFailsOnDefault | upkern/bootloader/bootloaders/grub.py:100-106 | the loop over the lines fails only on a default line `int()` rejects |
| Grub.PrepareIdempotent | upkern/bootloader/bootloaders/grub.py:213-217 | a second `prepare` for the same kernel changes nothing |
| Grub.DefaultBumped | upkern/bootloader/bootloaders/grub.py:101-105 | `default 0` becomes `default 1` |
| Grub.PreparedReadsBack | upkern/bootloader/bootloaders/grub.py:166-196 | a prepared configuration, written out, reads back as the same lines |
| GrubLegacy.GrubRoot | upkern/bootloader/grub.py:95-120 | the `sd` form and the `cciss` form each give a root; any other partition raises with the partition |
| GrubLegacy.SdForm | upkern/bootloader/grub.py:103-109 | `/dev/<c>d<letter><digits>` gives `(hd<letter index>,<digits−1>)` |
| GrubLegacy.CcissAsWritten | upkern/bootloader/grub.py:111-117 | as written, a `cciss` device gives `(hd-1,<part>)` with the partition unchanged |
| GrubLegacy.FirstCcissDisk | upkern/bootloader/grub.py:95-117 | `/dev/cciss/c0d0p1` gives `(hd-1,1)` as written and `(hd0,0)` corrected, the `(hd0,0)` style the doc comment names for the first partition of the first disk |
| GrubLegacy.GrubRootIntended | upkern/bootloader/grub.py:95-120 | the corrected root exists exactly when the written one does, agrees with it on the `sd` form, and raises with the partition otherwise; its `cciss` roots count disk and partition from zero (GrubLegacy.CcissIntended) |
| GrubLegacy.CcissIntended | upkern/bootloader/grub.py:95-117 | corrected, a `cciss` device gives `(hd<drive number>,<part−1>)`: the drive number is the disk index, and the partition counts from zero as in the `sd` branch |
| GrubLegacy.DefaultMatch | upkern/bootloader/grub.py:69-70 | a match splits the line into `default` with at least one blank, a non-empty run of digits, and only blanks after them (with GrubLegacy.DefaultOf, exactly the lines `^(default\s+)(\d+)\s*$` matches) |
| GrubLegacy.DefaultOf | upkern/bootloader/grub.py:69-70 | every line `default`, blanks, digits, blanks matches, with the keyword and its blanks as the first group and the digits as the number |
| GrubLegacy.OtherLineKept | upkern/bootloader/grub.py:72-79 | a line that does not start with `default` never matches and is copied unchanged |
| GrubLegacy.Bump | upkern/bootloader/grub.py:72-79 | a non-matching line is kept as is; a matching one ends in a newline; a line stays a line |
| GrubLegacy.BumpDefault | upkern/bootloader/grub.py:75-77 | `default<ws><n><blanks>` becomes `default<ws><n+1>\n` |
| GrubLegacy.BumpAll | upkern/bootloader/grub.py:72-79 | the lines are rewritten one by one, in order |
| GrubLegacy.CreateConfiguration | upkern/bootloader/grub.py:53-93 | a present kernel copies the file, or fails without one; an absent one with no file writes nothing; otherwise the output ends with the entry |
| GrubLegacy.CreatedLines | upkern/bootloader/grub.py:72-81 | the output is the bumped lines followed by the entry, written once |
| GrubLegacy.NoDefaultCopied | upkern/bootloader/grub.py:72-81 | a file without default lines is copied and the entry is appended |
| GrubLegacy.InstallConfiguration | upkern/bootloader/grub.py:122-137 | the `.tmp` file replaces the configuration only when it exists |
| Binary.Name | upkern/kernel/binary.py:64-67 | the name is the directory the binary was made from |
| Binary.Suffix | upkern/kernel/binary.py:121-135 | a dash and the text after the first dash of the directory |
| Binary.SuffixSplitsNameWhenDashed | upkern/kernel/binary.py:133-134 | a dashed directory is its head followed by the suffix |
| Binary.InstallImage | upkern/kernel/binary.py:98-104 | `bzImage` exactly for `x86_64` and `i686`; any other machine is a lookup failure |
| Binary.Image | upkern/kernel/binary.py:69-72 | `bzImage-<suffix text>` whenever the machine is known |
| Binary.Initrd | upkern/kernel/binary.py:74-77 | `initramfs-<suffix text>.img` |
| Binary.NamesDetermineEachOther | upkern/kernel/binary.py:69-77 | two binaries get the same image, and the same initramfs, exactly when their suffixes agree |
| Binary.ReplaceI86 | upkern/kernel/binary.py:116-117 | a machine name without `i<digit>86` is unchanged |
| Binary.ReplaceClean | upkern/kernel/binary.py:116-117 | no `i<digit>86` is left after the substitution |
| Binary.ReplaceIdempotent | upkern/kernel/binary.py:116-117 | substituting twice is substituting once |
| Binary.ImageDirectory | upkern/kernel/binary.py:115-118 | `arch/<machine with i<digit>86 replaced>/boot/` |
| Binary.X86Directories | upkern/kernel/binary.py:115-118 | every `i<digit>86` machine maps to `arch/x86/boot/`, and `x86_64` keeps its own |
| Binary.DracutCommandWords | upkern/kernel/binary.py:226-230 | the blank-separated words are `dracut -H --force`, the options, the initramfs path and the suffix without its dash |
| Fstab.ExpandTabs | upkern/system/fstab.py:28 | every tab becomes exactly one space |
| Fstab.FieldsPlain | upkern/system/fstab.py:28 | no field holds a space or a tab |
| Fstab.Entry | upkern/system/fstab.py:27-29 | a line with two fields or more maps its second field to its first |
| Fstab.EntryOf | upkern/system/fstab.py:27-29 | `<device> <mount point> …`, separated by spaces or tabs, maps the mount point to the device |
| Fstab.CommentSkipped | upkern/system/fstab.py:30 | an indented comment line is skipped |
| Fstab.Parse | upkern/system/fstab.py:25-31 | the table is built exactly when every line that is not skipped has two fields; the error names an offending line |
| Fstab.ParseLookup | upkern/system/fstab.py:27-31 | the table holds exactly the mount points of its lines, each with the device of the last line that names it |
| Fstab.Lookup | upkern/system/fstab.py:34-37 | the device, or none exactly when the mount point is absent |
| Fstab.LookupAgreesWithHas | upkern/system/fstab.py:34-40 | `fstab[name]` is not None exactly when `name in fstab` |
| GenKernel.Configure | upkern/initramfs/genkernel.py:52-60 | the options are set; they are empty with no arguments; with blank-free arguments they split into `--<arg>` words |
| GenKernel.Options | upkern/initramfs/genkernel.py:15-29 | the options once configured; `AttributeError` before that |
| GenKernel.Command | upkern/initramfs/genkernel.py:40-41 | the blank-separated words are `genkernel --no-ramdisk-modules`, the options and `initramfs`, joined by single blanks |
| GenKernel.Build | upkern/initramfs/genkernel.py:31-50 | it succeeds exactly when configured and the status is 0; otherwise it fails with the matching error |
| GenKernel.BareCommand | upkern/initramfs/genkernel.py:40-41 | with no options the command is `genkernel --no-ramdisk-modules initramfs` |
| GenKernel.ConfiguredCommand | upkern/initramfs/genkernel.py:40-60 | configured flags appear in the command in order, between the fixed words |
| Lines.ReadLines | upkern/bootloader/bootloaders/grub.py:76-79 | the lines concatenate back to the text; each holds one newline at most, at its end; all but the last end in one |
| Sorting.SortStable | upkern/sources.py:215 | sorting keeps the relative order of equally ranked entries |
| Sorting.SortSorted | upkern/sources.py:215 | the result is sorted by the comparator |
| Dedupe.LastPerKeySpec | upkern/kernel/sources.py:219-220 | the dict keeps exactly the last entry of each key, one per key |
| Numbers.PyIntIntToString | upkern/bootloader/bootloaders/grub.py:103-104 | `int(str(i)) == i` for every integer |

## Left out

- Subprocesses, mounting and file I/O: `make`, `emerge`, `mount`, `dracut`, `genkernel`, `grub-install` and the `/boot` mount decorator. Their results are parameters or are not modelled, because they act on the system, not on values.
- `os.access` and `os.path.lexists` checks. Those that decide a modelled value become parameters: the `/usr/src/` checks of `setKernelName`, `__get_kernel_names` and `_get_kernel_directories` are `haveUsrSrc`, and the backup and copy checks of `_copy_configuration` and `_copy_config` are membership in the file maps of `Sources.CopyConfiguration` and `KernelSources.CopyConfig`. The checks of `upkern/bootloader/grub.py` on `grub.conf` and `grub.conf.tmp` are the `Option` arguments of `GrubLegacy.CreateConfiguration` and `GrubLegacy.InstallConfiguration`. The following checks are left out with the file I/O: the backup checks around `Grub.Install`, the image checks of `upkern/kernel/binary.py`, and the checks on `/etc/fstab`.
- Logging, debug output, dry-run listings, colours and the spinner. They have no effect on any value.
- Character classes are ASCII. Python 3 reads `\w`, `\d` and `\s` as Unicode classes, and `re.I` folds case beyond ASCII. `int()` also accepts underscores and non-ASCII digits. The model covers ASCII text only.
- Grub.Prepare: the kernel options are an opaque parameter, to which `lstrip(" ")` is applied. Merging the given options with those of the last kernel line (upkern/bootloader/bootloaders/grub.py:116-135) is left out. With non-empty options it crashes, since `list.extend` returns None. Otherwise it goes through a `set`, whose order Python does not define.
- Grub.HasKernel: `_has_kernel` searches with the kernel name as a regular expression. It is modelled as substring containment, which agrees for names without metacharacters.
- Grub.Install: the backup and restore around the write (upkern/bootloader/bootloaders/grub.py:191-208) is left out. Only the text written is modelled.
- The current time in the entry comment is the `time` parameter of `Grub.Setup`. The boot and root partitions are its `bootPartition` and `rootPartition` fields, since reading them from `/etc/fstab` is file I/O.
- GrubLegacy.CreateConfiguration: the kernel string is an opaque `entry` parameter. Its construction (upkern/bootloader/grub.py:42-51) raises as written: `%` binds tighter than `+`, and `datetime.date.now` does not exist.
- GrubLegacy.GrubRoot: modelled as if the module imported `re` and `ascii_lowercase`. It imports neither (upkern/bootloader/grub.py:21), so `__determine_grub_root` as written raises NameError on its first statement. Nothing reaches it anyway. The constructor calls the unbound `BootLoader.__init__` (grub.py:37) and a `_get_grub_root` that does not exist (grub.py:50).
- GrubLegacy.CreateConfiguration: whether the kernel is present is a boolean parameter. The base class's `_has_kernel` (upkern/bootloader/basebootloader.py:99-103) raises. The name-mangled `__config_location` is also never set. And the module imports neither `os`, `re`, `shutil` nor `is_boot_mounted`.
- The recursive mount-then-retry branches of `create_configuration` and `install_configuration` are left out. They repeat the mounted branch after a side effect.
- KernelSources: `_packages` is never initialised in upkern/kernel/sources.py. It only memoises the owner lookup, so the model calls `owner` directly.
- VersionKey.Keyify: `_keyify` returns `float(...)` of the padded string (upkern/kernel/sources.py:537-544). The key is modelled as that string, ordered as a string. The string order and the float order agree only while every component is below 1000 (`VersionKey.Fits`, under which `VersionKey.KeyOrder` holds). Beyond that bound the model departs from the code in two ways:
  - a four-digit major reverses the order: `linux-1000.0` sorts below `linux-999.0` as a string but above it as a float;
  - revisions such as `-r100` and `-r1000` give the same float `X.1`, so `dict(zip(keys, directories))` (sources.py:217-218) keeps one directory where the model keeps both.
- KernelKernel.KernelNames: the privilege check compares the function `os.getuid` with 0, so it is always true. An accepted name whose package is not installed therefore always raises. Installation is the `installed` parameter.
- `kernel.py` builds and installs the kernel with commands chosen by architecture and version (kernel.py:334-420). Only the redirection is modelled.
- `kernel.py` `__copy_config` (kernel.py:229-255) is left out.
- `kernel/__init__.py` `getMakeOpts` has a syntax error at line 326, so it is left out.
- `kernel/__init__.py` `configure`, `build` and `install` only run commands, so they are left out.
- `upkern/sources.py` `build`, `emerge`, `prepare`, `portage_configuration` and `_setup_symlink` only run commands or read Portage settings, so they are left out.
- `upkern/kernel/binary.py` `install` copies files, so it is left out. The dracut call is modelled only as the command string.
- LegacyKernel.KernelNames: an unlisted source type reads `match.group` on an undefined name. That NameError is modelled as the `UndefinedName` failure.
- Fstab.Parse: the table is built from the lines `readlines` gives. Opening `/etc/fstab` is left out.
- Fstab.Parse: a line `dict()` cannot take is reported as the first such line. Python raises a `ValueError`.

## Findings

| source | as written | input that shows it | evidently intended | confidence | as-written member | corrected member |
|---|---|---|---|---|---|---|
| upkern/sources.py:154-160 | without a name, `package_name` stores `=` + owner in the owner cache, and `directory_name` compares that cached value with `package_name` stripped of `=` | an unnamed `Sources` with one directory `linux-3.12.6-gentoo`, asked for `package_name` and then `directory_name` | the cache holds the owner itself, so the newest directory is found whichever property is read first | high, not executed | Sources.CacheBugAsWritten | Sources.CacheBugCorrected |
| upkern/bootloader/grub.py:111-117 | if the module's missing imports of `re` and `ascii_lowercase` were present, the `cciss` root would look up the drive's digits with `ascii_lowercase.find`, which gives -1 for any string of digits, and would pass the partition through uncounted | `/dev/cciss/c0d0p1` would give `(hd-1,1)` | `(hd0,0)`: the `(hd0,0)` style of the doc comment (grub.py:97-99) and the `- 1` of the `sd` branch (grub.py:109); the drive number, already counted from zero, is the disk index | high for the drive, medium for the partition; not executed | GrubLegacy.FirstCcissDisk | GrubLegacy.CcissIntended |

=== FILE: atom_grammar.dfy ===
/**
 * The package expression of the sources resolvers: an optional
 * `sys-kernel/` category, an optional `<flavor>-sources-` group and a
 * version, matched at the start of the user's kernel name (`re.match`
 * anchors only there, so text after the version is ignored).
 *
 * Two snapshots differ in one character class: after its first character
 * the flavor may contain a space in upkern/sources.py and an underscore in
 * upkern/kernel/sources.py and upkern/kernel/kernel.py.
 */
module AtomGrammar {
  import opened Results
  import opened Text

  datatype Dialect = Spaced | Underscored

  /** `[A-Za-z0-9+_]`: the first character of a flavor and of a version. */
  predicate HeadChar(c: char) { IsAlnum(c) || c == '+' || c == '_' }

  /** The class of the flavor's remaining characters. */
  predicate FlavorChar(d: Dialect, c: char)
  {
    IsAlnum(c) || c == '+' || c == '-' || (if d == Spaced then c == ' ' else c == '_')
  }

  /** `[A-Za-z0-9+_.-]`: the remaining characters of a version. */
  predicate VersionChar(c: char) { IsAlnum(c) || c == '+' || c == '_' || c == '.' || c == '-' }

  /** What the expression captures: the `sources` group, if any, and the version. */
  datatype Atom = Atom(sources: Option<string>, version: string)

  const Category := "sys-kernel/"
  const Marker := "-sources-"

  /** Length of the leading run of flavor characters. */
  function FlavorRun(d: Dialect, t: string): (n: nat)
    ensures n <= |t|
    ensures forall i :: 0 <= i < n ==> FlavorChar(d, t[i])
    ensures n < |t| ==> !FlavorChar(d, t[n])
  {
    if |t| > 0 && FlavorChar(d, t[0]) then 1 + FlavorRun(d, t[1..]) else 0
  }

  /** Length of the leading run of version characters. */
  function VersionRun(t: string): (n: nat)
    ensures n <= |t|
    ensures forall i :: 0 <= i < n ==> VersionChar(t[i])
    ensures n < |t| ==> !VersionChar(t[n])
  {
    if |t| > 0 && VersionChar(t[0]) then 1 + VersionRun(t[1..]) else 0
  }

  /** The flavor may end at `e`: the marker follows and a version can start after it. */
  predicate SplitAt(t: string, e: nat)
  {
    e + |Marker| < |t| && t[e..e + |Marker|] == Marker && HeadChar(t[e + |Marker|])
  }

  /**
   * The greedy flavor run gives back characters one at a time until the
   * marker and a version follow: the largest end at most `e`, and at least 1.
   */
  function LastSplit(t: string, e: nat): (r: Option<nat>)
    ensures r.Some? ==> 1 <= r.value <= e && SplitAt(t, r.value)
    ensures r.Some? ==> forall k :: r.value < k <= e ==> !SplitAt(t, k)
    ensures r.None? ==> forall k :: 1 <= k <= e ==> !SplitAt(t, k)
  {
    if e == 0 then None else if SplitAt(t, e) then Some(e) else LastSplit(t, e - 1)
  }

  /** The captured groups are shaped as the expression demands. */
  predicate WellFormed(d: Dialect, a: Atom)
  {
    (a.sources.Some? ==>
       |a.sources.value| > 0 && HeadChar(a.sources.value[0]) &&
       forall i :: 1 <= i < |a.sources.value| ==> FlavorChar(d, a.sources.value[i])) &&
    |a.version| > 0 && HeadChar(a.version[0]) &&
    forall i :: 0 <= i < |a.version| ==> VersionChar(a.version[i])
  }

  /** The text an atom's groups cover. */
  function AtomText(a: Atom): string
  {
    if a.sources.Some? then a.sources.value + (Marker + a.version) else a.version
  }

  /** The expression without its category, matched at the start of `t`. */
  function MatchFrom(d: Dialect, t: string): (r: Option<Atom>)
    ensures r.None? <==> |t| == 0 || !HeadChar(t[0])
    ensures r.Some? ==> WellFormed(d, r.value) && AtomText(r.value) <= t
  {
    if |t| == 0 || !HeadChar(t[0]) then None
    else
      match LastSplit(t, 1 + FlavorRun(d, t[1..]))
      case Some(e) =>
        SplitShape(d, t, e);
        Some(SplitAtom(t, e))
      case None =>
        Some(Atom(None, t[..VersionRun(t)]))
  }

  /** The groups when the flavor ends at `e`. */
  function SplitAtom(t: string, e: nat): Atom
    requires SplitAt(t, e)
  {
    var rest := t[e + |Marker|..];
    Atom(Some(t[..e]), rest[..VersionRun(rest)])
  }

  lemma SplitShape(d: Dialect, t: string, e: nat)
    requires |t| > 0 && HeadChar(t[0])
    requires 1 <= e <= 1 + FlavorRun(d, t[1..]) && SplitAt(t, e)
    ensures WellFormed(d, SplitAtom(t, e)) && AtomText(SplitAtom(t, e)) <= t
  {
    var a := SplitAtom(t, e);
    var f := t[..e];
    forall i | 1 <= i < e ensures FlavorChar(d, f[i]) {
      assert f[i] == t[1..][i - 1];
    }
    var rest := t[e + |Marker|..];
    assert t == f + (t[e..e + |Marker|] + rest);
  }

  /**
   * `package_expression.match(name)`.  The optional category is tried first;
   * when the rest does not match the expression is retried without it.
   */
  function ParseAtom(d: Dialect, s: string): (r: Option<Atom>)
    ensures r.None? <==> |s| == 0 || !HeadChar(s[0])
    ensures r.Some? ==> WellFormed(d, r.value)
    ensures r.Some? ==> AtomText(r.value) <= s || (Category <= s && AtomText(r.value) <= s[|Category|..])
  {
    if Category <= s && MatchFrom(d, s[|Category|..]).Some? then MatchFrom(d, s[|Category|..])
    else MatchFrom(d, s)
  }

  /** The Portage package the atom names: the flavor defaults to gentoo. */
  function PackageOf(a: Atom): (r: string)
    ensures Category <= r
    ensures a.sources.Some? ==> r == Category + a.sources.value + Marker + a.version
    ensures a.sources.None? ==> r == Category + "gentoo" + Marker + a.version
  {
    Category + a.sources.GetOr("gentoo") + Marker + a.version
  }

  // Reading back an atom's own text

  /** No character of a well-formed atom is a slash. */
  lemma AtomTextNoSlash(d: Dialect, a: Atom)
    requires WellFormed(d, a)
    ensures Lacks(AtomText(a), '/')
  {
    if a.sources.Some? {
      var f := a.sources.value;
      var t := AtomText(a);
      forall i | 0 <= i < |t| ensures t[i] != '/' {
        if i < |f| {
          assert t[i] == f[i];
        } else if i < |f| + |Marker| {
          assert t[i] == Marker[i - |f|];
        } else {
          assert t[i] == a.version[i - |f| - |Marker|];
        }
      }
    }
  }

  /** A split past the flavor puts the marker inside `"-" + version`. */
  lemma NoLaterSplit(f: string, v: string, k: nat)
    requires !Contains("-" + v, Marker)
    requires |f| < k
    ensures !SplitAt(f + (Marker + v), k)
  {
    var t := f + (Marker + v);
    if k < |f| + 8 {
      assert t[k] == Marker[k - |f|];
      MarkerInner(k - |f|);
      if k + |Marker| <= |t| {
        assert t[k..k + |Marker|][0] == t[k] != Marker[0];
      }
    } else if SplitAt(t, k) {
      var u := "-" + v;
      var j := k - |f| - 8;
      assert t[|f| + 8..] == u;
      assert t[k..k + |Marker|] == u[j..j + |Marker|];
      ContainsAt(u, Marker, j);
    }
  }

  /** Inside the marker there is no dash. */
  lemma MarkerInner(i: nat)
    requires 1 <= i < 8
    ensures Marker[i] != '-'
  {
  }

  /** A version alone has no split at all. */
  lemma NoSplitInVersion(v: string, k: nat)
    requires !Contains("-" + v, Marker)
    requires 1 <= k
    ensures !SplitAt(v, k)
  {
    if SplitAt(v, k) {
      var u := "-" + v;
      assert u[k + 1..] == v[k..];
      ContainsAt(u, Marker, k + 1);
    }
  }

  /** The flavor run of the text after the first character reaches past the marker. */
  lemma FlavorRunCovers(d: Dialect, f: string, v: string)
    requires |f| > 0 && forall i :: 1 <= i < |f| ==> FlavorChar(d, f[i])
    ensures 1 + FlavorRun(d, (f + (Marker + v))[1..]) >= |f|
  {
  }

  /** The groups of a well-formed atom are read back from its text. */
  lemma MatchAtomText(d: Dialect, a: Atom)
    requires WellFormed(d, a)
    requires !Contains("-" + a.version, Marker)
    ensures MatchFrom(d, AtomText(a)) == Some(a)
  {
    var t := AtomText(a);
    var v := a.version;
    if a.sources.Some? {
      var f := a.sources.value;
      var e := 1 + FlavorRun(d, t[1..]);
      FlavorRunCovers(d, f, v);
      assert t[0] == f[0];
      assert t[|f|..|f| + |Marker|] == Marker;
      assert t[|f| + |Marker|..] == v;
      assert SplitAt(t, |f|);
      forall k | |f| < k <= e ensures !SplitAt(t, k) {
        NoLaterSplit(f, v, k);
      }
      assert LastSplit(t, e) == Some(|f|) by {
        LastSplitFinds(t, e, |f|);
      }
      assert t[..|f|] == f;
      assert v[..VersionRun(v)] == v;
    } else {
      forall k | 1 <= k <= 1 + FlavorRun(d, t[1..]) ensures !SplitAt(t, k) {
        NoSplitInVersion(v, k);
      }
      assert t[..VersionRun(t)] == v;
    }
  }

  lemma {:induction false} LastSplitFinds(t: string, e: nat, m: nat)
    requires 1 <= m <= e && SplitAt(t, m)
    requires forall k :: m < k <= e ==> !SplitAt(t, k)
    ensures LastSplit(t, e) == Some(m)
    decreases e
  {
    if e > m {
      LastSplitFinds(t, e - 1, m);
    }
  }

  /** A well-formed atom is read back from its text, with or without the category. */
  lemma ParseAtomText(d: Dialect, a: Atom)
    requires WellFormed(d, a)
    requires !Contains("-" + a.version, Marker)
    ensures ParseAtom(d, AtomText(a)) == Some(a)
    ensures ParseAtom(d, Category + AtomText(a)) == Some(a)
  {
    var t := AtomText(a);
    MatchAtomText(d, a);
    AtomTextNoSlash(d, a);
    if |t| > 10 {
      assert t[10] != '/';
    }
    assert (Category + t)[|Category|..] == t;
  }

  /** A category with nothing after it is read as the version `sys-kernel`. */
  lemma CategoryAlone(d: Dialect)
    ensures ParseAtom(d, Category) == Some(Atom(None, "sys-kernel"))
  {
    NothingAfterCategory(d);
    CategoryAsVersion(d);
  }

  lemma NothingAfterCategory(d: Dialect)
    ensures ParseAtom(d, Category) == MatchFrom(d, Category)
  {
    assert MatchFrom(d, Category[|Category|..]).None?;
  }

  lemma CategoryAsVersion(d: Dialect)
    ensures MatchFrom(d, Category) == Some(Atom(None, "sys-kernel"))
  {
    CategoryRun(d);
    CategoryRunLength();
    CategoryHead();
  }

  lemma CategoryRun(d: Dialect)
    ensures MatchFrom(d, Category) == Some(Atom(None, Category[..VersionRun(Category)]))
  {
    CategoryHasNoSplit(Category);
    NoSplitVersionOnly(d, Category);
  }

  lemma CategoryRunLength()
    ensures VersionRun(Category) == 10
  {
    RunEndsAt(Category, 10);
  }

  lemma CategoryHead()
    ensures Category[..10] == "sys-kernel"
  {
  }

  lemma CategoryHasNoSplit(s: string)
    requires s == Category
    ensures forall k :: 1 <= k ==> !SplitAt(s, k)
  {
    forall k | 1 <= k ensures !SplitAt(s, k) {
      if k == 1 {
        assert s[1] != Marker[0];
      }
    }
  }

  lemma RunEndsAt(t: string, n: nat)
    requires n < |t| && !VersionChar(t[n])
    requires forall i :: 0 <= i < n ==> VersionChar(t[i])
    ensures VersionRun(t) == n
  {
  }

  /** Without a split the whole leading version run is the version. */
  lemma NoSplitVersionOnly(d: Dialect, t: string)
    requires |t| > 0 && HeadChar(t[0])
    requires forall k :: 1 <= k ==> !SplitAt(t, k)
    ensures MatchFrom(d, t) == Some(Atom(None, t[..VersionRun(t)]))
  {
  }

  /** A text without the letter s holds no marker. */
  lemma {:induction false} NoMarkerWithoutS(u: string)
    requires Lacks(u, 's')
    ensures !Contains(u, Marker)
    decreases |u|
  {
    if |u| > 0 {
      NoMarkerWithoutS(u[1..]);
    }
    if |u| > 1 {
      assert u[1] != Marker[1];
    }
  }

  /** A bare version has no flavor group, so the package is gentoo's. */
  lemma ParseBareVersion(d: Dialect)
    ensures ParseAtom(d, "3.12.6") == Some(Atom(None, "3.12.6"))
  {
    var a := Atom(None, "3.12.6");
    assert WellFormed(d, a) by {}
    assert !Contains("-" + a.version, Marker) by { NoMarkerWithoutS("-3.12.6"); }
    ParseAtomText(d, a);
  }

  /** A flavored package keeps its flavor and its revision. */
  lemma ParseFlavoredPackage(d: Dialect)
    ensures ParseAtom(d, "hardened-sources-3.11.7-r1") == Some(Atom(Some("hardened"), "3.11.7-r1"))
  {
    var a := Atom(Some("hardened"), "3.11.7-r1");
    FlavoredFacts(d, a);
    ParseAtomText(d, a);
  }

  lemma FlavoredFacts(d: Dialect, a: Atom)
    requires a == Atom(Some("hardened"), "3.11.7-r1")
    ensures WellFormed(d, a) && !Contains("-" + a.version, Marker)
    ensures AtomText(a) == "hardened-sources-3.11.7-r1"
  {
    FlavoredShape(d);
    FlavoredText();
    FlavoredVersionHasNoMarker();
  }

  lemma FlavoredShape(d: Dialect)
    ensures WellFormed(d, Atom(Some("hardened"), "3.11.7-r1"))
  {
  }

  lemma FlavoredText()
    ensures AtomText(Atom(Some("hardened"), "3.11.7-r1")) == "hardened-sources-3.11.7-r1"
    ensures "-" + "3.11.7-r1" == "-3.11.7-r1"
  {
  }

  lemma FlavoredVersionHasNoMarker()
    ensures !Contains("-3.11.7-r1", Marker)
  {
    NoMarkerIn("-3.11.7-r1", "-3.11.7-r1");
  }

  /** One of the example versions holds no marker, as it lacks the letter s. */
  lemma NoMarkerIn(u: string, v: string)
    requires v == "-3.11.7-r1" || v == "-3.12.6"
    requires u == v
    ensures !Contains(u, Marker)
  {
    NoMarkerWithoutS(u);
  }

  /** A full atom as Portage prints it. */
  lemma ParseFullAtom(d: Dialect)
    ensures ParseAtom(d, "sys-kernel/gentoo-sources-3.12.6") == Some(Atom(Some("gentoo"), "3.12.6"))
  {
    var a := Atom(Some("gentoo"), "3.12.6");
    GentooFacts(d, a);
    ParseAtomText(d, a);
  }

  lemma GentooFacts(d: Dialect, a: Atom)
    requires a == Atom(Some("gentoo"), "3.12.6")
    ensures WellFormed(d, a) && !Contains("-" + a.version, Marker)
    ensures Category + AtomText(a) == "sys-kernel/gentoo-sources-3.12.6"
  {
    GentooShape(d);
    GentooText();
    NoMarkerIn("-" + a.version, "-3.12.6");
  }

  lemma GentooShape(d: Dialect)
    ensures WellFormed(d, Atom(Some("gentoo"), "3.12.6"))
  {
  }

  lemma GentooText()
    ensures Category + AtomText(Atom(Some("gentoo"), "3.12.6")) == "sys-kernel/gentoo-sources-3.12.6"
    ensures "-" + "3.12.6" == "-3.12.6"
  {
    GentooGroups();
    GentooSpelled();
    DashedVersion();
  }

  lemma GentooGroups()
    ensures Category + AtomText(Atom(Some("gentoo"), "3.12.6")) == "sys-kernel/" + ("gentoo" + ("-sources-" + "3.12.6"))
  {
  }

  lemma GentooSpelled()
    ensures "sys-kernel/" + ("gentoo" + ("-sources-" + "3.12.6")) == "sys-kernel/gentoo-sources-3.12.6"
  {
  }

  lemma DashedVersion()
    ensures "-" + "3.12.6" == "-3.12.6"
  {
  }
}

=== FILE: binary.dfy ===
/**
 * The kernel binary of upkern/kernel/binary.py: the names under which a
 * built kernel is installed into `/boot`, derived from the source directory
 * name (`linux-3.3.0-gentoo-r2`) and the machine `platform.machine()`
 * reports, which is a parameter here.
 */
module Binary {
  import opened Results
  import opened Text

  /** A binary is bound to the name of its source directory. */
  datatype Binary = Binary(directory: string)

  /** The machine has no entry in the image table: the `KeyError` of the lookup. */
  datatype LookupFailure = UnknownMachine(machine: string)

  /** `name`: the label of the kernel. */
  function Name(b: Binary): (r: string)
    ensures b == Binary(r)
  {
    b.directory
  }

  /** `suffix`: a dash and everything after the first dash of the directory. */
  function Suffix(b: Binary): (r: string)
    ensures |r| > 0 && r[0] == '-' && r[1..] == After(b.directory, '-')
  {
    "-" + After(b.directory, '-')
  }

  /** The directory is the text before its first dash followed by the suffix. */
  lemma SuffixSplitsNameWhenDashed(b: Binary)
    ensures !Lacks(b.directory, '-') ==> b.directory == Before(b.directory, '-') + Suffix(b)
  {
    var s := Suffix(b);
    assert s == ['-'] + After(b.directory, '-');
  }

  /** A directory without a dash still gets the lone `-` as its suffix. */
  lemma SuffixWithoutDash(b: Binary)
    requires Lacks(b.directory, '-')
    ensures Suffix(b) == "-"
  {
  }

  /** `install_image`: `bzImage` on the two x86 machines the table knows. */
  function InstallImage(machine: string): (r: Result<string, LookupFailure>)
    ensures r.Ok? <==> machine == "x86_64" || machine == "i686"
    ensures r.Ok? ==> r.value == "bzImage"
    ensures r.Err? ==> r.error == UnknownMachine(machine)
  {
    if machine == "x86_64" || machine == "i686" then Ok("bzImage")
    else Err(UnknownMachine(machine))
  }

  /** `image`: the install image followed by the suffix. */
  function Image(b: Binary, machine: string): (r: Result<string, LookupFailure>)
    ensures r.Ok? <==> InstallImage(machine).Ok?
    ensures r.Ok? ==> r.value == "bzImage-" + After(b.directory, '-')
    ensures r.Err? ==> r.error == UnknownMachine(machine)
  {
    match InstallImage(machine)
    case Ok(image) => Ok(image + Suffix(b))
    case Err(e) => Err(e)
  }

  /** `initrd`: `initramfs`, the suffix, `.img`. */
  function Initrd(b: Binary): (r: string)
    ensures |r| >= 14 && r[..10] == "initramfs-" && r[|r| - 4..] == ".img"
    ensures r[10..|r| - 4] == After(b.directory, '-')
  {
    "initramfs" + Suffix(b) + ".img"
  }

  /** The image and the initramfs of two binaries coincide exactly when their suffixes do. */
  lemma NamesDetermineEachOther(b: Binary, c: Binary)
    ensures Initrd(b) == Initrd(c) <==> Suffix(b) == Suffix(c)
    ensures Image(b, "x86_64") == Image(c, "x86_64") <==> Suffix(b) == Suffix(c)
  {
    if Initrd(b) == Initrd(c) {
      assert Suffix(b)[1..] == Initrd(b)[10..|Initrd(b)| - 4];
    }
    if Image(b, "x86_64") == Image(c, "x86_64") {
      var i, j := Image(b, "x86_64").value, Image(c, "x86_64").value;
      assert Suffix(b) == i[7..];
      assert Suffix(c) == j[7..];
    }
  }

  // The image directory

  /** An `i\d86` pattern starts at position `k`. */
  predicate I86At(s: string, k: nat)
  {
    k + 4 <= |s| && s[k] == 'i' && IsDigit(s[k + 1]) && s[k + 2] == '8' && s[k + 3] == '6'
  }

  /** No `i\d86` occurs anywhere. */
  predicate FreeOfI86(s: string)
  {
    forall k :: 0 <= k < |s| ==> !I86At(s, k)
  }

  /** `re.sub(r"i\d86", "x86", s)`: every occurrence, scanned from the left, becomes `x86`. */
  function ReplaceI86(s: string): (r: string)
    ensures |r| <= |s|
    ensures FreeOfI86(s) ==> r == s
    decreases |s|
  {
    if |s| == 0 then ""
    else if I86At(s, 0) then "x86" + ReplaceI86(s[4..])
    else
      var rest := ReplaceI86(s[1..]);
      assert FreeOfI86(s) ==> FreeOfI86(s[1..]) by {
        if FreeOfI86(s) {
          forall k | 0 <= k < |s[1..]| ensures !I86At(s[1..], k) {
            assert !I86At(s, k + 1);
          }
        }
      }
      assert FreeOfI86(s) ==> s == [s[0]] + s[1..];
      [s[0]] + rest
  }

  /** The `x86` replacement cannot form a new pattern with what precedes or follows it. */
  lemma {:induction false} ReplaceClean(s: string)
    ensures FreeOfI86(ReplaceI86(s))
    decreases |s|
  {
    if |s| > 0 {
      if I86At(s, 0) {
        ReplaceClean(s[4..]);
        var t := ReplaceI86(s[4..]);
        var r := "x86" + t;
        forall k | 0 <= k < |r| ensures !I86At(r, k) {
          if k >= 3 {
            assert r[k..] == t[k - 3..];
            assert !I86At(t, k - 3);
          }
        }
      } else {
        ReplaceClean(s[1..]);
        var t := ReplaceI86(s[1..]);
        var r := [s[0]] + t;
        forall k | 0 <= k < |r| ensures !I86At(r, k) {
          if k >= 1 {
            assert !I86At(t, k - 1);
          } else {
            TailCannotComplete(s);
          }
        }
      }
    }
  }

  /** A pattern in `s[0] + ReplaceI86(s[1..])` at position 0 would have been one in `s`. */
  lemma TailCannotComplete(s: string)
    requires |s| > 0 && !I86At(s, 0)
    ensures !I86At([s[0]] + ReplaceI86(s[1..]), 0)
  {
    var t := s[1..];
    var r := [s[0]] + ReplaceI86(t);
    if |t| < 3 {
    } else if I86At(t, 0) {
      assert r[1] == 'x';
    } else if I86At(t, 1) {
      ReplaceAfterCopy(t, 1);
      assert r[2] == 'x';
    } else if I86At(t, 2) {
      ReplaceAfterCopy(t, 2);
      assert r[3] == 'x';
    } else {
      ReplaceCopies(t, 3);
      assert r[1] == s[1] && r[2] == s[2] && r[3] == s[3];
    }
  }

  /** Without a pattern at the first `n` positions, those characters are copied unchanged. */
  lemma {:induction false} ReplaceCopies(s: string, n: nat)
    requires n <= |s|
    requires forall k :: 0 <= k < n ==> !I86At(s, k)
    ensures |ReplaceI86(s)| >= n
    ensures forall k :: 0 <= k < n ==> ReplaceI86(s)[k] == s[k]
    ensures ReplaceI86(s)[n..] == ReplaceI86(s[n..])
    decreases n
  {
    if n > 0 {
      forall k | 0 <= k < n - 1 ensures !I86At(s[1..], k) {
        assert !I86At(s, k + 1);
      }
      ReplaceCopies(s[1..], n - 1);
      assert s[1..][n - 1..] == s[n..];
    }
  }

  /** A pattern at position `n` after `n` copied characters is replaced there. */
  lemma ReplaceAfterCopy(s: string, n: nat)
    requires n < |s| && I86At(s, n)
    requires forall k :: 0 <= k < n ==> !I86At(s, k)
    ensures |ReplaceI86(s)| > n && ReplaceI86(s)[n] == 'x'
  {
    ReplaceCopies(s, n);
    assert ReplaceI86(s[n..])[0] == 'x' by {
      assert I86At(s[n..], 0);
    }
  }

  /** Substituting twice is substituting once. */
  lemma ReplaceIdempotent(s: string)
    ensures ReplaceI86(ReplaceI86(s)) == ReplaceI86(s)
  {
    ReplaceClean(s);
  }

  /** `image_directory`: `arch/<machine with i\d86 replaced by x86>/boot/`. */
  function ImageDirectory(machine: string): (r: string)
    ensures |r| >= 11 && r[..5] == "arch/" && r[|r| - 6..] == "/boot/"
    ensures FreeOfI86(r[5..|r| - 6])
    ensures FreeOfI86(machine) ==> r == "arch/" + machine + "/boot/"
  {
    ReplaceClean(machine);
    var r := "arch/" + ReplaceI86(machine) + "/boot/";
    assert r[5..|r| - 6] == ReplaceI86(machine);
    r
  }

  /** Every 32-bit x86 machine name maps to the `x86` tree; `x86_64` keeps its own. */
  lemma X86Directories(d: char)
    requires IsDigit(d)
    ensures ImageDirectory(['i', d, '8', '6']) == "arch/x86/boot/"
    ensures ImageDirectory("x86_64") == "arch/x86_64/boot/"
  {
    I86Directory(d);
    X8664Directory("x86_64");
  }

  lemma I86Directory(d: char)
    requires IsDigit(d)
    ensures ImageDirectory(['i', d, '8', '6']) == "arch/x86/boot/"
  {
    var m := ['i', d, '8', '6'];
    assert I86At(m, 0);
    assert m[4..] == "";
  }

  lemma X8664Directory(x: string)
    requires x == "x86_64"
    ensures ImageDirectory(x) == "arch/x86_64/boot/"
  {
    forall k | 0 <= k < |x| ensures !I86At(x, k) {
      assert x[0] == 'x' && x[1] == '8' && x[2] == '6' && x[3] == '_';
    }
  }

  // initramfs

  /** The `dracut` command line: options, the initramfs path, and the suffix without its dash. */
  function DracutCommand(b: Binary, options: string): (r: string)
  {
    "dracut -H --force " + (options + " " + ("/boot/" + Initrd(b) + " " + Suffix(b)[1..]))
  }

  /** The blank-separated words are `dracut -H --force`, the options, the initramfs path and the kernel version. */
  lemma DracutCommandWords(b: Binary, options: string)
    requires NoSpace(b.directory)
    ensures Words(DracutCommand(b, options))
         == ["dracut", "-H", "--force"] + Words(options) + ["/boot/" + Initrd(b)]
            + Words(After(b.directory, '-'))
  {
    var a := After(b.directory, '-');
    var path := "/boot/" + Initrd(b);
    var tail := options + " " + (path + " " + a);
    assert DracutCommand(b, options) == "dracut -H --force " + tail;
    AfterNoSpace(b.directory);
    PathNoSpace(b);
    SpacedWords(options, path, a);
    DracutWords(tail);
  }

  lemma SpacedWords(o: string, p: string, a: string)
    requires |p| > 0 && NoSpace(p)
    ensures Words(o + " " + (p + " " + a)) == Words(o) + [p] + Words(a)
  {
    WordsSpaced(p, a);
    SingleWord(p);
    WordsSpaced(o, p + " " + a);
  }

  lemma DracutWords(tail: string)
    ensures Words("dracut -H --force " + tail) == ["dracut", "-H", "--force"] + Words(tail)
  {
    DracutFixed();
    WordsBefore("dracut", "-H", "--force", tail);
    DracutSpelled(tail);
  }

  lemma DracutFixed()
    ensures NoSpace("dracut") && NoSpace("-H") && NoSpace("--force")
  {
  }

  lemma DracutSpelled(tail: string)
    ensures "dracut -H --force " + tail == "dracut" + " " + ("-H" + " " + ("--force" + " " + tail))
  {
    assert "dracut -H --force " == "dracut" + " " + "-H" + " " + "--force" + " ";
  }

  /** Three blank-free words in front of a string. */
  lemma WordsBefore(x: string, y: string, z: string, tail: string)
    requires |x| > 0 && NoSpace(x) && |y| > 0 && NoSpace(y) && |z| > 0 && NoSpace(z)
    ensures Words(x + " " + (y + " " + (z + " " + tail))) == [x, y, z] + Words(tail)
  {
    WordsSpaced(z, tail);
    SingleWord(z);
    WordsSpaced(y, z + " " + tail);
    SingleWord(y);
    WordsSpaced(x, y + " " + (z + " " + tail));
    SingleWord(x);
  }

  lemma AfterNoSpace(d: string)
    requires NoSpace(d)
    ensures NoSpace(After(d, '-'))
  {
    var a := After(d, '-');
    if !Lacks(d, '-') {
      var k := |Before(d, '-')| + 1;
      assert d[k..] == a;
      forall i | 0 <= i < |a| ensures !IsSpace(a[i]) {
        assert a[i] == d[k + i];
      }
    }
  }

  lemma PathNoSpace(b: Binary)
    requires NoSpace(b.directory)
    ensures NoSpace("/boot/" + Initrd(b))
  {
    AfterNoSpace(b.directory);
    PathOf(Initrd(b), After(b.directory, '-'));
  }

  /** An initramfs name around a blank-free suffix is blank-free, and so is its path. */
  lemma PathOf(r: string, a: string)
    requires |r| >= 14 && r[..10] == "initramfs-" && r[|r| - 4..] == ".img"
    requires r[10..|r| - 4] == a && NoSpace(a)
    ensures NoSpace("/boot/" + r)
  {
    assert r == r[..10] + a + r[|r| - 4..];
    PathWords();
    NoSpaceConcat(r[..10], a);
    NoSpaceConcat(r[..10] + a, r[|r| - 4..]);
    NoSpaceConcat("/boot/", r);
  }

  lemma PathWords()
    ensures NoSpace("/boot/") && NoSpace("initramfs-") && NoSpace(".img")
  {
  }
}

=== FILE: dedupe.dfy ===
/**
 * `dict(zip(keys, values))` followed by reading the values back: one value
 * per key, the one written last.  The dict's own iteration order does not
 * matter to the resolvers, which sort the survivors by a total order on
 * distinct keys.
 */
module Dedupe {

  /** No element after position `i` shares its key: the dict keeps `s[i]`. */
  predicate IsLast<T, K(==)>(s: seq<T>, key: T -> K, i: nat)
    requires i < |s|
  {
    forall j :: i < j < |s| ==> key(s[j]) != key(s[i])
  }

  /** `x` is the last element of `s` with its key. */
  predicate LastAt<T(==), K(==)>(s: seq<T>, key: T -> K, x: T)
  {
    exists i :: 0 <= i < |s| && s[i] == x && IsLast(s, key, i)
  }

  /** Some element of `s` has key `k`. */
  predicate HasKey<T, K(==)>(s: seq<T>, key: T -> K, k: K)
    decreases |s|
  {
    |s| > 0 && (key(s[0]) == k || HasKey(s[1..], key, k))
  }

  lemma {:induction false} HasKeyAt<T, K>(s: seq<T>, key: T -> K, k: K)
    ensures HasKey(s, key, k) <==> exists i :: 0 <= i < |s| && key(s[i]) == k
    decreases |s|
  {
    if |s| > 0 {
      HasKeyAt(s[1..], key, k);
      if HasKey(s[1..], key, k) {
        var i :| 0 <= i < |s[1..]| && key(s[1..][i]) == k;
        assert key(s[i + 1]) == k;
      }
      if exists i :: 0 <= i < |s| && key(s[i]) == k {
        var i :| 0 <= i < |s| && key(s[i]) == k;
        if i > 0 {
          assert key(s[1..][i - 1]) == k;
        }
      }
    }
  }

  /** Every element occurs once and no two elements share a key. */
  ghost predicate Unique<T(!new), K>(s: seq<T>, key: T -> K)
  {
    (forall x :: multiset(s)[x] <= 1) &&
    (forall x, y :: x in s && y in s && key(x) == key(y) ==> x == y)
  }

  /** The last element of each key, in the order of those last occurrences. */
  function LastPerKey<T(==), K(==)>(s: seq<T>, key: T -> K): (r: seq<T>)
    ensures |r| <= |s|
    ensures |r| == 0 ==> |s| == 0
    ensures multiset(r) <= multiset(s)
  {
    if |s| == 0 then []
    else
      assert s == [s[0]] + s[1..];
      if HasKey(s[1..], key, key(s[0])) then LastPerKey(s[1..], key)
      else [s[0]] + LastPerKey(s[1..], key)
  }

  /** Every survivor is the last occurrence of its key. */
  lemma {:induction false} SurvivorsAreLast<T(!new), K>(s: seq<T>, key: T -> K)
    ensures forall x :: x in LastPerKey(s, key) ==> LastAt(s, key, x)
    decreases |s|
  {
    if |s| > 0 {
      var t := s[1..];
      SurvivorsAreLast(t, key);
      forall x | x in LastPerKey(t, key) ensures LastAt(s, key, x) {
        var i :| 0 <= i < |t| && t[i] == x && IsLast(t, key, i);
        assert s[i + 1] == x;
        assert IsLast(s, key, i + 1) by {
          forall j | i + 1 < j < |s| ensures key(s[j]) != key(s[i + 1]) {
            assert s[j] == t[j - 1];
          }
        }
      }
      HasKeyAt(t, key, key(s[0]));
      if !HasKey(t, key, key(s[0])) {
        assert IsLast(s, key, 0) by {
          forall j | 0 < j < |s| ensures key(s[j]) != key(s[0]) {
            assert s[j] == t[j - 1];
          }
        }
      }
    }
  }

  /** Every last occurrence survives. */
  lemma {:induction false} LastSurvives<T(!new), K>(s: seq<T>, key: T -> K)
    ensures forall i :: 0 <= i < |s| && IsLast(s, key, i) ==> s[i] in LastPerKey(s, key)
    decreases |s|
  {
    if |s| > 0 {
      var t := s[1..];
      LastSurvives(t, key);
      forall i | 0 < i < |s| && IsLast(s, key, i) ensures s[i] in LastPerKey(t, key) {
        assert s[i] == t[i - 1];
        assert IsLast(t, key, i - 1) by {
          forall j | i - 1 < j < |t| ensures key(t[j]) != key(t[i - 1]) {
            assert t[j] == s[j + 1];
          }
        }
      }
      if IsLast(s, key, 0) {
        assert !HasKey(t, key, key(s[0])) by {
          HasKeyAt(t, key, key(s[0]));
          forall j | 0 <= j < |t| ensures key(t[j]) != key(s[0]) {
            assert s[j + 1] == t[j];
          }
        }
      }
    }
  }

  /** Every key of `s` has a last occurrence. */
  lemma {:induction false} KeyHasLast<T(!new), K>(s: seq<T>, key: T -> K, i: nat)
    requires i < |s|
    ensures exists m :: i <= m < |s| && key(s[m]) == key(s[i]) && IsLast(s, key, m)
    decreases |s| - i
  {
    if !IsLast(s, key, i) {
      var j :| i < j < |s| && key(s[j]) == key(s[i]);
      KeyHasLast(s, key, j);
    }
  }

  /** Only elements of `s` survive. */
  lemma {:induction false} SurvivorsMembers<T(!new), K>(s: seq<T>, key: T -> K)
    ensures forall x :: x in LastPerKey(s, key) ==> x in s
    decreases |s|
  {
    if |s| > 0 {
      SurvivorsMembers(s[1..], key);
    }
  }

  /** The survivor that carries the key of `s[i]`. */
  lemma SurvivorOfKey<T(!new), K>(s: seq<T>, key: T -> K, i: nat) returns (j: nat)
    requires i < |s|
    ensures j < |LastPerKey(s, key)| && key(LastPerKey(s, key)[j]) == key(s[i])
  {
    KeyHasLast(s, key, i);
    var m :| i <= m < |s| && key(s[m]) == key(s[i]) && IsLast(s, key, m);
    LastSurvives(s, key);
    assert s[m] in LastPerKey(s, key);
    j :| j < |LastPerKey(s, key)| && LastPerKey(s, key)[j] == s[m];
  }

  /** No element and no key survives twice. */
  lemma {:induction false} SurvivorsUnique<T(!new), K>(s: seq<T>, key: T -> K)
    ensures Unique(LastPerKey(s, key), key)
    decreases |s|
  {
    if |s| > 0 {
      var t := s[1..];
      var rest := LastPerKey(t, key);
      SurvivorsUnique(t, key);
      SurvivorsMembers(t, key);
      assert s == [s[0]] + t;
      if !HasKey(t, key, key(s[0])) {
        HasKeyAt(t, key, key(s[0]));
        assert forall x :: x in rest ==> key(x) != key(s[0]);
        assert s[0] !in rest;
        assert multiset(LastPerKey(s, key))[s[0]] == 1;
      }
    }
  }

  /**
   * The survivors are exactly the last occurrences of their keys, every key
   * keeps one, and no key keeps two.
   */
  lemma LastPerKeySpec<T(!new), K>(s: seq<T>, key: T -> K)
    ensures var r := LastPerKey(s, key);
      (forall x :: x in r ==> LastAt(s, key, x)) &&
      (forall i :: 0 <= i < |s| && IsLast(s, key, i) ==> s[i] in r) &&
      (forall i :: 0 <= i < |s| ==> exists j :: 0 <= j < |r| && key(r[j]) == key(s[i])) &&
      Unique(r, key)
  {
    var r := LastPerKey(s, key);
    SurvivorsAreLast(s, key);
    LastSurvives(s, key);
    SurvivorsUnique(s, key);
    forall i | 0 <= i < |s| ensures exists j :: 0 <= j < |r| && key(r[j]) == key(s[i]) {
      KeyHasLast(s, key, i);
      var m :| i <= m < |s| && key(s[m]) == key(s[i]) && IsLast(s, key, m);
      var j :| 0 <= j < |r| && r[j] == s[m];
    }
  }

  /** A sequence with unique elements and keys has distinct keys at distinct positions. */
  lemma UniqueKeysDistinct<T(!new), K>(s: seq<T>, key: T -> K)
    requires Unique(s, key)
    ensures forall i, j :: 0 <= i < j < |s| ==> key(s[i]) != key(s[j])
  {
    forall i, j | 0 <= i < j < |s| ensures s[i] != s[j] {
      assert s == s[..j] + [s[j]] + s[j + 1..];
      assert s[i] in s[..j];
      assert multiset(s)[s[j]] >= multiset(s[..j])[s[j]] + 1;
    }
  }

  /** Uniqueness depends only on the elements and their multiplicities. */
  lemma UniquePermuted<T(!new), K>(s: seq<T>, r: seq<T>, key: T -> K)
    requires Unique(s, key) && multiset(r) == multiset(s)
    ensures Unique(r, key)
  {
    forall x | x in r ensures x in s {
      assert x in multiset(r);
    }
  }
}

=== FILE: fstab.dfy ===
/**
 * The dictionary view of /etc/fstab in upkern/system/fstab.py: every line
 * that is neither a comment nor empty maps its mount point (second field)
 * to its device (first field).  The file's lines are the input.
 */
module Fstab {
  import opened Results
  import opened Text

  /** `dict()` refuses a line with fewer than two fields. */
  datatype Failure = MalformedLine(line: string)

  /** `expandtabs(1)`: every tab becomes one space. */
  function ExpandTabs(s: string): (r: string)
    ensures |r| == |s|
    ensures forall i :: 0 <= i < |s| ==> r[i] == if s[i] == '\t' then ' ' else s[i]
  {
    if |s| == 0 then [] else [if s[0] == '\t' then ' ' else s[0]] + ExpandTabs(s[1..])
  }

  /**
   * `re.search(r"^(?:\s*#|$)", line)`: blanks then `#`, or an empty line
   * (`$` also matches before a final newline).
   */
  predicate Skipped(line: string)
  {
    var n := SpaceRun(line);
    (n < |line| && line[n] == '#') || |line| == 0 || (|line| == 1 && line[0] == '\n')
  }

  /** The non-empty items of the line split on single spaces after tab expansion. */
  function Fields(line: string): (r: seq<string>)
    ensures forall i :: 0 <= i < |r| ==> |r[i]| > 0
  {
    NonEmpty(Split(ExpandTabs(line), ' '))
  }

  /** No field holds a blank of either kind. */
  lemma FieldsPlain(line: string)
    ensures forall x :: x in Fields(line) ==> Lacks(x, ' ') && Lacks(x, '\t')
  {
    var parts := Split(ExpandTabs(line), ' ');
    NonEmptyMembers(parts);
    forall x | x in Fields(line) ensures Lacks(x, ' ') && Lacks(x, '\t') {
      var j :| 0 <= j < |parts| && parts[j] == x;
      SplitPartIn(ExpandTabs(line), ' ', j);
    }
  }

  /** Each part of a split is a piece of the string, so it has no character the string lacks. */
  lemma {:induction false} SplitPartIn(s: string, c: char, j: nat)
    requires j < |Split(s, c)|
    ensures forall d :: Lacks(s, d) ==> Lacks(Split(s, c)[j], d)
    decreases |s|
  {
    var k := IndexFrom(s, c, 0);
    if k < |s| && j > 0 {
      SplitPartIn(s[k + 1..], c, j - 1);
    }
  }

  /** `[...][1::-1]` of a line: its mount point and its device, if it has both. */
  function Entry(line: string): (r: Option<(string, string)>)
    ensures r.Some? <==> |Fields(line)| >= 2
    ensures r.Some? ==> r.value == (Fields(line)[1], Fields(line)[0])
  {
    var f := Fields(line);
    if |f| < 2 then None else Some((f[1], f[0]))
  }

  /** The line contributes `name -> device` to the table. */
  predicate Mounts(line: string, name: string)
  {
    !Skipped(line) && Entry(line).Some? && Entry(line).value.0 == name
  }

  /** The table `dict()` builds from the first `n` lines. */
  function ParseUpTo(lines: seq<string>, n: nat): (r: Result<map<string, string>, Failure>)
    requires n <= |lines|
    ensures r.Ok? <==> forall i :: 0 <= i < n && !Skipped(lines[i]) ==> Entry(lines[i]).Some?
    ensures r.Err? ==>
      exists i :: 0 <= i < n && !Skipped(lines[i]) && Entry(lines[i]).None? && r.error == MalformedLine(lines[i])
    decreases n
  {
    if n == 0 then Ok(map[])
    else
      var last := lines[n - 1];
      match ParseUpTo(lines, n - 1)
      case Err(e) => Err(e)
      case Ok(m) =>
        if Skipped(last) then Ok(m)
        else match Entry(last)
          case None =>
            assert !Skipped(lines[n - 1]) && Entry(lines[n - 1]).None?;
            Err(MalformedLine(last))
          case Some(e) => Ok(m[e.0 := e.1])
  }

  /**
   * `FSTab.__init__`: the table, or the first line `dict()` cannot take.
   * Later lines overwrite earlier ones for the same mount point.
   */
  function Parse(lines: seq<string>): (r: Result<map<string, string>, Failure>)
    ensures r.Ok? <==> forall i :: 0 <= i < |lines| && !Skipped(lines[i]) ==> Entry(lines[i]).Some?
    ensures r.Err? ==>
      exists i :: 0 <= i < |lines| && !Skipped(lines[i]) && Entry(lines[i]).None? && r.error == MalformedLine(lines[i])
  {
    ParseUpTo(lines, |lines|)
  }

  /** The position of the last of the first `n` lines that mounts something at `name`. */
  function LastMount(lines: seq<string>, name: string, n: nat): (r: Option<nat>)
    requires n <= |lines|
    ensures r.Some? ==> r.value < n && Mounts(lines[r.value], name)
    ensures r.Some? ==> forall j :: r.value < j < n ==> !Mounts(lines[j], name)
    ensures r.None? ==> forall i :: 0 <= i < n ==> !Mounts(lines[i], name)
    decreases n
  {
    if n == 0 then None
    else if Mounts(lines[n - 1], name) then Some(n - 1)
    else
      var r := LastMount(lines, name, n - 1);
      var last := n - 1;
      assert !Mounts(lines[last], name);
      assert r.None? ==> forall i :: 0 <= i < n ==> i == last || !Mounts(lines[i], name);
      assert r.Some? ==> forall j :: r.value < j < n ==> j == last || !Mounts(lines[j], name);
      r
  }

  lemma {:induction false} ParseUpToLookup(lines: seq<string>, name: string, n: nat)
    requires n <= |lines| && ParseUpTo(lines, n).Ok?
    ensures name in ParseUpTo(lines, n).value <==> LastMount(lines, name, n).Some?
    ensures name in ParseUpTo(lines, n).value ==>
      ParseUpTo(lines, n).value[name] == Entry(lines[LastMount(lines, name, n).value]).value.1
    decreases n
  {
    if n > 0 {
      ParseUpToLookup(lines, name, n - 1);
    }
  }

  /**
   * A parsed table holds exactly the mount points of its entry lines, each
   * with the device of the last line that names it.
   */
  lemma ParseLookup(lines: seq<string>, name: string)
    requires Parse(lines).Ok?
    ensures name in Parse(lines).value <==> LastMount(lines, name, |lines|).Some?
    ensures name in Parse(lines).value ==>
      Parse(lines).value[name] == Entry(lines[LastMount(lines, name, |lines|).value]).value.1
  {
    ParseUpToLookup(lines, name, |lines|);
  }

  /** `fstab[name]`: the device, or None for a mount point the table lacks. */
  function Lookup(table: map<string, string>, name: string): (r: Option<string>)
    ensures r.Some? <==> name in table
    ensures r.Some? ==> r.value == table[name]
  {
    if name in table then Some(table[name]) else None
  }

  /** `name in fstab`. */
  predicate Has(table: map<string, string>, name: string)
  {
    name in table
  }

  /** Lookup finds a device exactly for the mount points `in` reports. */
  lemma LookupAgreesWithHas(table: map<string, string>, name: string)
    ensures Lookup(table, name).Some? <==> Has(table, name)
  {
  }

  lemma ExpandTabsAppend(a: string, b: string)
    ensures ExpandTabs(a + b) == ExpandTabs(a) + ExpandTabs(b)
  {
  }

  lemma ExpandTabsPlain(a: string)
    requires Lacks(a, '\t')
    ensures ExpandTabs(a) == a
  {
  }

  /** A field followed by a space splits off as the first part. */
  lemma SplitCons(a: string, b: string)
    requires Lacks(a, ' ')
    ensures Split(a + " " + b, ' ') == [a] + Split(b, ' ')
  {
    var s := a + " " + b;
    assert s[|a|] == ' ';
    assert forall k :: 0 <= k < |a| ==> s[k] == a[k];
    assert IndexFrom(s, ' ', 0) == |a|;
    assert s[..|a|] == a;
    assert s[|a| + 1..] == b;
  }

  lemma NonEmptyAppend(a: seq<string>, b: seq<string>)
    ensures NonEmpty(a + b) == NonEmpty(a) + NonEmpty(b)
  {
    if |a| > 0 {
      assert (a + b)[1..] == a[1..] + b;
      NonEmptyAppend(a[1..], b);
    } else {
      assert a + b == b;
    }
  }

  /** Tab expansion of a line `<device><blank><mount point><blank>...`. */
  lemma ExpandedLine(dev: string, sep: char, mp: string, sep': char, rest: string)
    requires Lacks(dev, '\t') && Lacks(mp, '\t')
    requires sep == ' ' || sep == '\t'
    requires sep' == ' ' || sep' == '\t'
    ensures ExpandTabs(dev + [sep] + mp + [sep'] + rest) == dev + " " + (mp + " " + ExpandTabs(rest))
  {
    var line := dev + [sep] + mp + [sep'] + rest;
    var want := dev + " " + (mp + " " + ExpandTabs(rest));
    var e := ExpandTabs(line);
    assert |e| == |want|;
    forall i | 0 <= i < |e| ensures e[i] == want[i] {
      if i < |dev| {
        assert line[i] == dev[i] && want[i] == dev[i];
      } else if i == |dev| {
      } else if i < |dev| + 1 + |mp| {
        assert line[i] == mp[i - |dev| - 1] && want[i] == mp[i - |dev| - 1];
      } else if i == |dev| + 1 + |mp| {
      } else {
        var k := i - |dev| - 2 - |mp|;
        assert line[i] == rest[k];
        assert want[i] == ExpandTabs(rest)[k];
      }
    }
  }

  /** The first two parts of the split are the device and the mount point. */
  lemma SplitLine(dev: string, mp: string, tail: string)
    requires Lacks(dev, ' ') && Lacks(mp, ' ')
    ensures Split(dev + " " + (mp + " " + tail), ' ') == [dev, mp] + Split(tail, ' ')
  {
    SplitCons(dev, mp + " " + tail);
    SplitCons(mp, tail);
    assert [dev] + ([mp] + Split(tail, ' ')) == [dev, mp] + Split(tail, ' ');
  }

  lemma NonEmptyPair(dev: string, mp: string, parts: seq<string>)
    requires |dev| > 0 && |mp| > 0
    ensures NonEmpty([dev, mp] + parts) == [dev, mp] + NonEmpty(parts)
  {
    var tail := [mp] + parts;
    assert [dev, mp] + parts == [dev] + tail;
    NonEmptyCons(dev, tail);
    NonEmptyCons(mp, parts);
    assert [dev] + ([mp] + NonEmpty(parts)) == [dev, mp] + NonEmpty(parts);
  }

  /** A non-empty part in front is kept. */
  lemma NonEmptyCons(x: string, parts: seq<string>)
    requires |x| > 0
    ensures NonEmpty([x] + parts) == [x] + NonEmpty(parts)
  {
    assert ([x] + parts)[1..] == parts;
  }

  /**
   * A line `<device> <mount point> ...`, blanks being spaces or tabs,
   * maps the mount point to the device.
   */
  lemma EntryOf(dev: string, sep: char, mp: string, sep': char, rest: string)
    requires |dev| > 0 && Lacks(dev, ' ') && Lacks(dev, '\t')
    requires |mp| > 0 && Lacks(mp, ' ') && Lacks(mp, '\t')
    requires sep == ' ' || sep == '\t'
    requires sep' == ' ' || sep' == '\t'
    ensures Entry(dev + [sep] + mp + [sep'] + rest) == Some((mp, dev))
  {
    var line := dev + [sep] + mp + [sep'] + rest;
    var tail := ExpandTabs(rest);
    ExpandedLine(dev, sep, mp, sep', rest);
    SplitLine(dev, mp, tail);
    NonEmptyPair(dev, mp, Split(tail, ' '));
    assert Fields(line) == [dev, mp] + NonEmpty(Split(tail, ' '));
  }

  /** A comment line, however indented, adds nothing. */
  lemma CommentSkipped(blanks: string, text: string)
    requires forall i :: 0 <= i < |blanks| ==> IsSpace(blanks[i])
    ensures Skipped(blanks + "#" + text)
  {
    var line := blanks + "#" + text;
    SpaceRunOf(blanks, "#" + text);
    assert line == blanks + ("#" + text);
  }
}

=== FILE: genkernel.dfy ===
/**
 * The genkernel preparer of upkern/initramfs/genkernel.py: `configure`
 * turns its arguments into genkernel options, and `build` runs genkernel
 * with them.  The exit status of the command is an input.
 */
module GenKernel {
  import opened Results
  import opened Text

  /** The preparer's state: no options until `configure` has run. */
  datatype Preparer = Preparer(options: Option<string>)

  datatype Failure =
    | NoOptions    // AttributeError: `options` read before `configure`
    | BuildFailed  // RuntimeError: genkernel exited with a non-zero status

  /** `['--' + _ for _ in args]`. */
  function Flags(args: seq<string>): (r: seq<string>)
    ensures |r| == |args|
    ensures forall i :: 0 <= i < |r| ==> r[i] == "--" + args[i]
  {
    if |args| == 0 then [] else ["--" + args[0]] + Flags(args[1..])
  }

  /** `configure(*args)`: the preparer with the flags joined by single spaces. */
  function Configure(args: seq<string>): (r: Preparer)
    ensures r.options.Some?
    ensures |args| == 0 ==> r.options.value == ""
    ensures (forall i :: 0 <= i < |args| ==> NoSpace(args[i])) ==> Words(r.options.value) == Flags(args)
  {
    var flags := Flags(args);
    FlagsAreWords(args);
    Preparer(Some(Join(" ", flags)))
  }

  /** A flag of a blank-free argument is one word. */
  lemma FlagWord(a: string)
    requires NoSpace(a)
    ensures |"--" + a| > 0 && NoSpace("--" + a)
  {
    var f := "--" + a;
    forall k | 0 <= k < |f| ensures !IsSpace(f[k]) {
      if k >= 2 {
        assert f[k] == a[k - 2];
      }
    }
  }

  /** Flags of blank-free arguments are words, so the joined options split back into them. */
  lemma FlagsAreWords(args: seq<string>)
    ensures (forall i :: 0 <= i < |args| ==> NoSpace(args[i])) ==> Words(Join(" ", Flags(args))) == Flags(args)
  {
    if forall i :: 0 <= i < |args| ==> NoSpace(args[i]) {
      var flags := Flags(args);
      forall i | 0 <= i < |flags| ensures |flags[i]| > 0 && NoSpace(flags[i]) {
        FlagWord(args[i]);
      }
      WordsJoin(flags);
    }
  }

  /** The `options` property. */
  function Options(p: Preparer): (r: Result<string, Failure>)
    ensures r.Ok? <==> p.options.Some?
    ensures r.Ok? ==> r.value == p.options.value
    ensures r.Err? ==> r.error == NoOptions
  {
    match p.options
    case Some(o) => Ok(o)
    case None => Err(NoOptions)
  }

  /**
   * The command `build` runs: genkernel without ramdisk modules, the
   * options, and the initramfs target, with runs of blanks collapsed.
   */
  function Command(p: Preparer): (r: Result<string, Failure>)
    ensures r.Ok? <==> p.options.Some?
    ensures r.Err? ==> r.error == NoOptions
    ensures r.Ok? ==>
      Words(r.value) == ["genkernel", "--no-ramdisk-modules"] + Words(p.options.value) + ["initramfs"] &&
      r.value == Join(" ", Words(r.value))
  {
    match Options(p)
    case Err(e) => Err(e)
    case Ok(o) =>
      var raw := "genkernel" + " " + ("--no-ramdisk-modules" + " " + (o + " " + "initramfs"));
      CommandWords(o);
      var ws := Words(raw);
      WordsJoin(ws);
      Ok(Join(" ", ws))
  }

  lemma CommandWords(o: string)
    ensures Words("genkernel" + " " + ("--no-ramdisk-modules" + " " + (o + " " + "initramfs"))) ==
      ["genkernel", "--no-ramdisk-modules"] + Words(o) + ["initramfs"]
  {
    FixedWords();
    Around("genkernel", "--no-ramdisk-modules", o, "initramfs");
  }

  /** The fixed words of the command are blank-free. */
  lemma FixedWords()
    ensures NoSpace("genkernel") && NoSpace("--no-ramdisk-modules") && NoSpace("initramfs")
  {
  }

  /** A blank-free word in front of a string. */
  lemma Prepend(w: string, t: string)
    requires |w| > 0 && NoSpace(w)
    ensures Words(w + " " + t) == [w] + Words(t)
  {
    WordsSpaced(w, t);
    SingleWord(w);
  }

  /** The words of a command made of fixed words around an argument string. */
  lemma Around(g: string, n: string, o: string, i: string)
    requires |g| > 0 && NoSpace(g) && |n| > 0 && NoSpace(n) && |i| > 0 && NoSpace(i)
    ensures Words(g + " " + (n + " " + (o + " " + i))) == [g, n] + Words(o) + [i]
  {
    var t3 := o + " " + i;
    Append(o, i);
    Prepend(n, t3);
    Prepend(g, n + " " + t3);
    Regroup(g, n, Words(o), i);
  }

  /** A blank-free word behind a string. */
  lemma Append(o: string, i: string)
    requires |i| > 0 && NoSpace(i)
    ensures Words(o + " " + i) == Words(o) + [i]
  {
    WordsSpaced(o, i);
    SingleWord(i);
  }

  lemma Regroup(g: string, n: string, ws: seq<string>, i: string)
    ensures [g] + ([n] + (ws + [i])) == [g, n] + ws + [i]
  {
  }

  /**
   * `build`: the command it runs, given the status genkernel exits with;
   * a non-zero status is an error.
   */
  function Build(p: Preparer, status: int): (r: Result<string, Failure>)
    ensures r.Ok? <==> p.options.Some? && status == 0
    ensures r.Err? ==> r.error == (if p.options.None? then NoOptions else BuildFailed)
    ensures r.Ok? ==> r == Command(p)
  {
    match Command(p)
    case Err(e) => Err(e)
    case Ok(c) => if status != 0 then Err(BuildFailed) else Ok(c)
  }

  /** Without options the command is the bare genkernel call of the unit tests. */
  lemma BareCommand()
    ensures Command(Configure([])) == Ok("genkernel --no-ramdisk-modules initramfs")
  {
    BareOf([]);
  }

  lemma BareOf(args: seq<string>)
    requires |args| == 0
    ensures Command(Configure(args)) == Ok("genkernel --no-ramdisk-modules initramfs")
  {
    var c := Command(Configure(args));
    BareWords(c.value, "genkernel", "--no-ramdisk-modules", "initramfs");
    Spelled();
  }

  lemma Spelled()
    ensures "genkernel" + " " + ("--no-ramdisk-modules" + " " + "initramfs") == "genkernel --no-ramdisk-modules initramfs"
  {
  }

  /** A command whose words are three fixed words is those words joined. */
  lemma BareWords(c: string, g: string, n: string, i: string)
    requires Words(c) == [g, n] + Words("") + [i] && c == Join(" ", Words(c))
    ensures c == g + " " + (n + " " + i)
  {
    assert Words("") == [];
    assert Words(c) == [g, n, i];
    JoinThree(g, n, i);
  }

  lemma JoinThree(a: string, b: string, c: string)
    ensures Join(" ", [a, b, c]) == a + " " + (b + " " + c)
  {
    assert [a, b, c][1..] == [b, c];
    assert [b, c][1..] == [c];
    assert Join(" ", [c]) == c;
    assert Join(" ", [b, c]) == b + " " + c;
  }

  /** Configured flags appear in the command in order, between the fixed words. */
  lemma ConfiguredCommand(args: seq<string>)
    requires forall i :: 0 <= i < |args| ==> NoSpace(args[i])
    ensures Command(Configure(args)).Ok?
    ensures Words(Command(Configure(args)).value) == ["genkernel", "--no-ramdisk-modules"] + Flags(args) + ["initramfs"]
  {
  }
}

=== FILE: grub.dfy ===
/**
 * The GRUB legacy boot loader of upkern/bootloader/bootloaders/grub.py:
 * the `(hdX,Y)` root of the boot partition, grub.conf read as lines, and
 * `prepare`, which bumps the default entry and appends an entry for a new
 * kernel unless the configuration already names it.  The boot partition,
 * the root partition, the kernel's names and the time stamp are inputs.
 */
module Grub {
  import opened Results
  import opened Text
  import opened Numbers
  import opened Lines

  datatype Failure =
    | NoRootMatch(partition: string) // `match.group` on a failed match
    | BadDefault(line: string)       // `int()` of the text after a default line's first space

  // The root device

  /** End of the run of `\w` characters that starts at `i`. */
  function WordRunEnd(s: string, i: nat): (r: nat)
    requires i <= |s|
    ensures i <= r <= |s|
    ensures forall k :: i <= k < r ==> IsWordChar(s[k])
    ensures r < |s| ==> !IsWordChar(s[r])
    decreases |s| - i
  {
    if i < |s| && IsWordChar(s[i]) then WordRunEnd(s, i + 1) else i
  }

  /** `"abcdefghijklmnopqrstuvwxyz".find(c)`. */
  function AlphabetIndex(c: char): (r: int)
    ensures -1 <= r < 26
    ensures r >= 0 <==> IsLower(c)
    ensures r >= 0 ==> c as int == 'a' as int + r
  {
    if IsLower(c) then c as int - 'a' as int else -1
  }

  /**
   * `/dev/[\w\d]+(?P<letter>\w)(?P<number>\d+)` with the number tried at
   * `q`: the greedy `[\w\d]+` gives back one character at a time, so the
   * candidates run from the end `e` of the word run down to position 7,
   * the first one that leaves `[\w\d]+` a character.
   */
  function RootMatch(s: string, e: nat, q: nat): (r: Option<(char, string)>)
    requires e <= |s| && q <= e
    ensures r.Some? ==> exists k :: 7 <= k < e && k <= q && IsDigit(s[k])
    ensures r.Some? ==> AllDigits(r.value.1)
    ensures r.None? ==> forall k :: 7 <= k < e && k <= q ==> !IsDigit(s[k])
    decreases q
  {
    if q < 7 then None
    else if q < e && IsDigit(s[q]) then
      var n := DigitRun(s[q..]);
      DigitRunDigits(s[q..]);
      assert forall i :: 0 <= i < n ==> s[q..q + n][i] == s[q..][i];
      Some((s[q - 1], s[q..q + n]))
    else RootMatch(s, e, q - 1)
  }

  /** `(hd<index of the letter>,<number - 1>)`. */
  function RootOf(letter: char, number: string): string
    requires AllDigits(number)
  {
    "(hd" + IntToString(AlphabetIndex(letter)) + "," + IntToString(-1 + DigitsValue(number)) + ")"
  }

  /** `grub_root` of a boot partition. */
  function GrubRoot(partition: string): (r: Result<string, Failure>)
    ensures r.Ok? <==>
      (|partition| >= 5 && partition[..5] == "/dev/" &&
       exists k :: 7 <= k < WordRunEnd(partition, 5) && IsDigit(partition[k]))
    ensures r.Err? ==> r.error == NoRootMatch(partition)
  {
    if |partition| < 5 || partition[..5] != "/dev/" then Err(NoRootMatch(partition))
    else
      var e := WordRunEnd(partition, 5);
      match RootMatch(partition, e, e)
      case None => Err(NoRootMatch(partition))
      case Some(m) =>
        assert AllDigits(m.1);
        Ok(RootOf(m.0, m.1))
  }

  /** The match backtracks to the last digit of the word run, when nothing after it is a digit. */
  lemma {:induction false} RootMatchLast(s: string, e: nat, q: nat, d: nat)
    requires e <= |s| && 7 <= d <= q <= e && d < e
    requires IsDigit(s[d]) && forall k :: d < k < e ==> !IsDigit(s[k])
    requires e == |s| || !IsDigit(s[e])
    ensures RootMatch(s, e, q) == Some((s[d - 1], [s[d]]))
    decreases q
  {
    if q > d {
      RootMatchLast(s, e, q - 1, d);
    } else {
      assert s[d..][1..] == s[d + 1..];
      assert DigitRun(s[d..]) == 1;
      assert s[d..d + 1] == [s[d]];
    }
  }

  /**
   * A partition `/dev/<word>` whose word ends in a digit gives the letter
   * and the digit at its end: `/dev/sda1` is `(hd0,0)`, and with more than
   * one digit the letter is the digit before the last one.
   */
  lemma GrubRootOfWord(w: string, rest: string)
    requires |w| >= 3 && forall k :: 0 <= k < |w| ==> IsWordChar(w[k])
    requires IsDigit(w[|w| - 1])
    requires |rest| == 0 || !IsWordChar(rest[0])
    ensures GrubRoot("/dev/" + w + rest) == Ok(RootOf(w[|w| - 2], [w[|w| - 1]]))
  {
    var s := "/dev/" + w + rest;
    var e := 5 + |w|;
    assert forall k :: 5 <= k < e ==> s[k] == w[k - 5];
    assert e < |s| ==> s[e] == rest[0];
    WordRunFrom(s, 5, e);
    RootMatchLast(s, e, e, e - 1);
    assert s[..5] == "/dev/";
  }

  lemma {:induction false} WordRunFrom(s: string, i: nat, e: nat)
    requires i <= e <= |s|
    requires forall k :: i <= k < e ==> IsWordChar(s[k])
    requires e == |s| || !IsWordChar(s[e])
    ensures WordRunEnd(s, i) == e
    decreases e - i
  {
    if i < e {
      WordRunFrom(s, i + 1, e);
    }
  }

  /** The usual first partition of the first disk. */
  lemma FirstDisk()
    ensures GrubRoot("/dev/sda1") == Ok("(hd0,0)")
  {
    DiskPartition("/dev/sda1", "sda1", 'a', "1", "(hd0,0)");
  }

  /** The tenth partition reads as letter `1` and number `0`: `(hd-1,-1)`. */
  lemma TenthPartition()
    ensures GrubRoot("/dev/sda10") == Ok("(hd-1,-1)")
  {
    DiskPartition("/dev/sda10", "sda10", '1', "0", "(hd-1,-1)");
  }

  /** One of the two partitions above, through its word, letter and number. */
  lemma DiskPartition(p: string, w: string, c: char, n: string, root: string)
    requires (p, w, c, n, root) in {("/dev/sda1", "sda1", 'a', "1", "(hd0,0)"), ("/dev/sda10", "sda10", '1', "0", "(hd-1,-1)")}
    ensures GrubRoot(p) == Ok(root)
  {
    DiskWord(p, w, c, n);
    GrubRootOfWord(w, "");
    DiskRoot(c, n, root);
  }

  lemma DiskWord(p: string, w: string, c: char, n: string)
    requires (p, w, c, n) in {("/dev/sda1", "sda1", 'a', "1"), ("/dev/sda10", "sda10", '1', "0")}
    ensures p == "/dev/" + w + ""
    ensures |w| >= 3 && (forall k :: 0 <= k < |w| ==> IsWordChar(w[k])) && IsDigit(w[|w| - 1])
    ensures w[|w| - 2] == c && [w[|w| - 1]] == n
  {
  }

  lemma DiskRoot(c: char, n: string, root: string)
    requires (c, n, root) in {('a', "1", "(hd0,0)"), ('1', "0", "(hd-1,-1)")}
    ensures AllDigits(n) && RootOf(c, n) == root
  {
    if c == 'a' {
      FirstRoot(c, n, root);
    } else {
      TenthRoot(c, n, root);
    }
  }

  lemma FirstRoot(c: char, n: string, root: string)
    requires c == 'a' && n == "1" && root == "(hd0,0)"
    ensures AllDigits(n) && RootOf(c, n) == root
  {
    assert n[..0] == "";
    assert DigitsValue(n) == 1;
    assert NatToString(0) == "0";
    assert RootOf(c, n) == "(hd" + "0" + "," + "0" + ")";
  }

  lemma TenthRoot(c: char, n: string, root: string)
    requires c == '1' && n == "0" && root == "(hd-1,-1)"
    ensures AllDigits(n) && RootOf(c, n) == root
  {
    assert n[..0] == "";
    assert DigitsValue(n) == 0;
    assert NatToString(1) == "1";
    assert RootOf(c, n) == "(hd" + "-1" + "," + "-1" + ")";
  }

  // The configuration file

  /**
   * `configuration`: each line of grub.conf without its newline; only the
   * last line can lack one.
   */
  function Configuration(content: string): (r: seq<string>)
    ensures |r| == |ReadLines(content)|
    ensures forall i :: 0 <= i < |r| ==> Lacks(r[i], '\n')
    ensures forall i :: 0 <= i < |r| - 1 ==> ReadLines(content)[i] == r[i] + "\n"
    ensures |r| > 0 ==> ReadLines(content)[|r| - 1] in {r[|r| - 1], r[|r| - 1] + "\n"}
  {
    var r := StrippedLines(content);
    var ls := ReadLines(content);
    forall i | 0 <= i < |r| ensures ls[i] == r[i] + "\n" || (i == |r| - 1 && ls[i] == r[i]) {
      var l := ls[i];
      if Terminated(l) {
        var body := l[..|l| - 1];
        assert l == body + "\n";
        StripTerminated(body);
      } else {
        StripUnterminated(l);
      }
    }
    r
  }

  /** What `install` writes: the lines joined by newlines, with no final newline. */
  function Install(lines: seq<string>): (r: string)
    ensures |lines| == 0 ==> |r| == 0
    ensures |lines| == 1 ==> r == lines[0]
  {
    Join("\n", lines)
  }

  /**
   * An installed configuration reads back as the same lines, provided no
   * line holds a newline and the last one is not empty.
   */
  lemma InstallReadsBack(lines: seq<string>)
    requires forall i :: 0 <= i < |lines| ==> Lacks(lines[i], '\n')
    requires |lines| == 0 || |lines[|lines| - 1]| > 0
    ensures Configuration(Install(lines)) == lines
  {
    StrippedLinesJoin(lines);
  }

  // Preparing a new entry

  /** What the new entry is made of; `initrd` is the initrd's name when one is wanted. */
  datatype Kernel = Kernel(name: string, image: string, initrd: Option<string>)

  /** The boot and root partitions as `/etc/fstab` names them, the kernel options and the time stamp. */
  datatype Setup = Setup(bootPartition: string, rootPartition: string, options: string, time: string)

  /** The lines appended for a new kernel, with `root` the grub root of the boot partition. */
  function EntryLines(k: Kernel, s: Setup, root: string): (r: seq<string>)
    ensures |r| == if k.initrd.Some? then 6 else 5
    ensures r[0] == "" && r[2] == "title=" + k.name
  {
    ["",
     "# Kernel added " + s.time + ":",
     "title=" + k.name,
     "  root " + root,
     "  kernel /boot/" + k.image + " root=" + s.rootPartition + " " + LStrip(s.options, ' ')] +
    (if k.initrd.Some? then ["  initrd /boot/" + k.initrd.value] else [])
  }

  /** `re.search("default", line, re.I)`. */
  predicate IsDefaultLine(line: string)
  {
    Contains(Lower(line), "default")
  }

  /** `"default " + str(1 + int(line.partition(" ")[2]))`. */
  function BumpDefault(line: string): (r: Result<string, Failure>)
    ensures r.Ok? <==> PyInt(After(line, ' ')).Some?
    ensures r.Ok? ==> r.value == "default " + IntToString(1 + PyInt(After(line, ' ')).value)
    ensures r.Err? ==> r.error == BadDefault(line)
  {
    match PyInt(After(line, ' '))
    case Some(n) => Ok("default " + IntToString(1 + n))
    case None => Err(BadDefault(line))
  }

  /** One pass of the loop: a default line bumped, any other line kept. */
  function RewriteLine(line: string): (r: Result<string, Failure>)
    ensures IsDefaultLine(line) ==> r == BumpDefault(line)
    ensures !IsDefaultLine(line) ==> r == Ok(line)
  {
    if IsDefaultLine(line) then BumpDefault(line) else Ok(line)
  }

  /** The loop over the configuration: every line rewritten, or the first failure. */
  function Rewrite(lines: seq<string>): (r: Result<seq<string>, Failure>)
    ensures r.Ok? <==> forall i :: 0 <= i < |lines| ==> RewriteLine(lines[i]).Ok?
    ensures r.Ok? ==> |r.value| == |lines|
    ensures r.Ok? ==> forall i :: 0 <= i < |lines| ==> r.value[i] == RewriteLine(lines[i]).value
    decreases |lines|
  {
    if |lines| == 0 then Ok([])
    else
      var rest := Rewrite(lines[1..]);
      var head := RewriteLine(lines[0]);
      assert forall j :: 0 <= j < |lines| - 1 ==> lines[1..][j] == lines[j + 1];
      if head.Err? then Err(head.error)
      else if rest.Err? then Err(rest.error)
      else
        var r := [head.value] + rest.value;
        assert forall j :: 0 <= j < |rest.value| ==> r[j + 1] == rest.value[j];
        Ok(r)
  }

  /** `_has_kernel`: some line contains the name. */
  predicate HasKernel(lines: seq<string>, name: string)
  {
    exists i :: 0 <= i < |lines| && Contains(lines[i], name)
  }

  /**
   * `prepare`: the new configuration.  The loop over the lines runs first,
   * so its `ValueError` comes before the `AttributeError` that `grub_root`
   * raises for a boot partition its expression does not match.
   */
  function Prepare(lines: seq<string>, k: Kernel, s: Setup): (r: Result<seq<string>, Failure>)
    ensures HasKernel(lines, k.name) ==> r == Ok(lines)
    ensures !HasKernel(lines, k.name) ==>
      (r.Ok? <==> Rewrite(lines).Ok? && GrubRoot(s.bootPartition).Ok?)
    ensures !HasKernel(lines, k.name) && Rewrite(lines).Err? ==> r.Err? && r.error.BadDefault?
    ensures !HasKernel(lines, k.name) && Rewrite(lines).Ok? && GrubRoot(s.bootPartition).Err? ==>
      r == Err(NoRootMatch(s.bootPartition))
    ensures !HasKernel(lines, k.name) && r.Ok? ==>
      |r.value| == |lines| + (if k.initrd.Some? then 6 else 5) &&
      r.value[|lines|..] == EntryLines(k, s, GrubRoot(s.bootPartition).value) &&
      forall i :: 0 <= i < |lines| && !IsDefaultLine(lines[i]) ==> r.value[i] == lines[i]
  {
    if HasKernel(lines, k.name) then Ok(lines)
    else match Rewrite(lines)
      case Err(e) =>
        RewriteFailsOnDefault(lines);
        Err(e)
      case Ok(body) =>
        match GrubRoot(s.bootPartition)
        case Err(e) => Err(e)
        case Ok(root) => Ok(body + EntryLines(k, s, root))
  }

  /** Only a default line the loop cannot bump stops it. */
  lemma {:induction false} RewriteFailsOnDefault(lines: seq<string>)
    ensures Rewrite(lines).Err? ==> Rewrite(lines).error.BadDefault?
    decreases |lines|
  {
    if |lines| > 0 {
      RewriteFailsOnDefault(lines[1..]);
    }
  }

  /**
   * A boot partition that is not a `/dev/` path, such as `LABEL=boot` or
   * `UUID=...`, has no grub root, so no new entry can be made.
   */
  lemma OtherBootHasNoRoot(lines: seq<string>, k: Kernel, s: Setup)
    requires !HasKernel(lines, k.name) && Rewrite(lines).Ok?
    requires |s.bootPartition| < 5 || s.bootPartition[..5] != "/dev/"
    ensures Prepare(lines, k, s) == Err(NoRootMatch(s.bootPartition))
  {
  }

  /** Once prepared, the configuration names the kernel, so preparing again changes nothing. */
  lemma PrepareIdempotent(lines: seq<string>, k: Kernel, s: Setup)
    requires Prepare(lines, k, s).Ok?
    ensures HasKernel(Prepare(lines, k, s).value, k.name)
    ensures Prepare(Prepare(lines, k, s).value, k, s) == Prepare(lines, k, s)
  {
    var r := Prepare(lines, k, s).value;
    if !HasKernel(lines, k.name) {
      var n := |lines| + 2;
      assert r[n] == "title=" + k.name by {
        assert r[|lines|..][2] == r[n];
      }
      ContainsItself(k.name);
      ContainsInConcat("title=", k.name, k.name);
      assert Contains(r[n], k.name);
    }
  }

  /** Every default line of a prepared configuration reads `default <old + 1>`. */
  lemma DefaultBumped(lines: seq<string>, k: Kernel, s: Setup, i: nat)
    requires !HasKernel(lines, k.name) && Prepare(lines, k, s).Ok?
    requires i < |lines| && IsDefaultLine(lines[i])
    ensures exists n :: (PyInt(After(lines[i], ' ')) == Some(n) &&
      Prepare(lines, k, s).value[i] == "default " + IntToString(n + 1))
  {
    var n := PyInt(After(lines[i], ' ')).value;
    assert Prepare(lines, k, s).value[i] == Rewrite(lines).value[i];
    assert 1 + n == n + 1;
  }

  /** The inputs of the new entry hold no newline. */
  predicate SingleLine(k: Kernel, s: Setup)
  {
    Lacks(k.name, '\n') && Lacks(k.image, '\n') && (k.initrd.Some? ==> Lacks(k.initrd.value, '\n')) &&
    Lacks(s.rootPartition, '\n') && Lacks(s.options, '\n') && Lacks(s.time, '\n')
  }

  lemma LacksConcat(a: string, b: string, c: char)
    requires Lacks(a, c) && Lacks(b, c)
    ensures Lacks(a + b, c)
  {
    forall i | 0 <= i < |a + b| ensures (a + b)[i] != c {
      if i >= |a| {
        assert (a + b)[i] == b[i - |a|];
      }
    }
  }

  lemma NumeralSingleLine(n: int)
    ensures Lacks(IntToString(n), '\n')
  {
    var d := NatToString(if n < 0 then -n else n);
    assert forall i :: 0 <= i < |d| ==> IsDigit(d[i]);
    LacksConcat("-", d, '\n');
  }

  /** A fixed text around a line of input is a line. */
  lemma Framed(a: string, x: string, b: string)
    requires Lacks(a, '\n') && Lacks(x, '\n') && Lacks(b, '\n')
    ensures Lacks(a + x + b, '\n')
  {
    LacksConcat(a, x, '\n');
    LacksConcat(a + x, b, '\n');
  }

  lemma KernelWordsSingle()
    ensures Lacks("  kernel /boot/", '\n') && Lacks(" root=", '\n') && Lacks(" ", '\n')
  {
  }

  lemma LStripLacks(t: string)
    requires Lacks(t, '\n')
    ensures Lacks(LStrip(t, ' '), '\n')
  {
    var o := LStrip(t, ' ');
    SuffixLacks(t, |t| - |o|, '\n');
  }

  lemma SuffixLacks(t: string, j: nat, c: char)
    requires Lacks(t, c) && j <= |t|
    ensures Lacks(t[j..], c)
  {
    forall i | 0 <= i < |t| - j ensures t[j..][i] != c {
      assert t[j..][i] == t[j + i];
    }
  }

  lemma KernelLineSingle(k: Kernel, s: Setup)
    requires SingleLine(k, s)
    ensures Lacks("  kernel /boot/" + k.image + " root=" + s.rootPartition + " " + LStrip(s.options, ' '), '\n')
  {
    var o := LStrip(s.options, ' ');
    LStripLacks(s.options);
    var a, b, c := "  kernel /boot/", " root=", " ";
    KernelWordsSingle();
    Framed(a, k.image, b);
    Framed(a + k.image + b, s.rootPartition, c);
    LacksConcat(a + k.image + b + s.rootPartition + c, o, '\n');
  }

  lemma HeaderSingle(k: Kernel, s: Setup, root: string)
    requires SingleLine(k, s) && Lacks(root, '\n')
    ensures Lacks("# Kernel added " + s.time + ":", '\n')
    ensures Lacks("title=" + k.name, '\n')
    ensures Lacks("  root " + root, '\n')
  {
    Framed("# Kernel added ", s.time, ":");
    Framed("title=", k.name, "");
    assert "title=" + k.name + "" == "title=" + k.name;
    Framed("  root ", root, "");
    assert "  root " + root + "" == "  root " + root;
  }

  /** A grub root is one line. */
  lemma RootSingleLine(partition: string)
    requires GrubRoot(partition).Ok?
    ensures Lacks(GrubRoot(partition).value, '\n')
  {
    var e := WordRunEnd(partition, 5);
    var m := RootMatch(partition, e, e).value;
    var a, b := IntToString(AlphabetIndex(m.0)), IntToString(-1 + DigitsValue(m.1));
    NumeralSingleLine(AlphabetIndex(m.0));
    NumeralSingleLine(-1 + DigitsValue(m.1));
    Framed("(hd", a, ",");
    Framed("(hd" + a + ",", b, ")");
    assert GrubRoot(partition).value == "(hd" + a + "," + b + ")";
  }

  lemma InitrdSingle(k: Kernel, s: Setup)
    requires SingleLine(k, s) && k.initrd.Some?
    ensures Lacks("  initrd /boot/" + k.initrd.value, '\n')
  {
    Framed("  initrd /boot/", k.initrd.value, "");
    assert "  initrd /boot/" + k.initrd.value + "" == "  initrd /boot/" + k.initrd.value;
  }

  /** The entry's lines hold no newline, and the last one is not empty. */
  lemma EntrySingleLine(k: Kernel, s: Setup, root: string)
    requires SingleLine(k, s) && Lacks(root, '\n')
    ensures var e := EntryLines(k, s, root);
      (forall j :: 0 <= j < |e| ==> Lacks(e[j], '\n')) && |e[|e| - 1]| > 0
  {
    HeaderSingle(k, s, root);
    KernelLineSingle(k, s);
    if k.initrd.Some? {
      InitrdSingle(k, s);
    }
  }

  /**
   * A configuration read from grub.conf and given a new entry is written
   * so that reading grub.conf again gives the prepared lines.
   */
  lemma PreparedReadsBack(lines: seq<string>, k: Kernel, s: Setup)
    requires forall i :: 0 <= i < |lines| ==> Lacks(lines[i], '\n')
    requires SingleLine(k, s) && !HasKernel(lines, k.name) && Prepare(lines, k, s).Ok?
    ensures Configuration(Install(Prepare(lines, k, s).value)) == Prepare(lines, k, s).value
  {
    PreparedSingleLine(lines, k, s);
    InstallReadsBack(Prepare(lines, k, s).value);
  }

  lemma RewrittenSingleLine(line: string)
    requires Lacks(line, '\n')
    ensures RewriteLine(line).Ok? ==> Lacks(RewriteLine(line).value, '\n')
  {
    if IsDefaultLine(line) && BumpDefault(line).Ok? {
      DefaultSingleLine(1 + PyInt(After(line, ' ')).value);
    }
  }

  lemma DefaultSingleLine(n: int)
    ensures Lacks("default " + IntToString(n), '\n')
  {
    NumeralSingleLine(n);
    LacksConcat("default ", IntToString(n), '\n');
  }

  /** A prepared configuration is made of lines, the last of them not empty. */
  lemma PreparedSingleLine(lines: seq<string>, k: Kernel, s: Setup)
    requires forall i :: 0 <= i < |lines| ==> Lacks(lines[i], '\n')
    requires SingleLine(k, s) && !HasKernel(lines, k.name) && Prepare(lines, k, s).Ok?
    ensures var r := Prepare(lines, k, s).value;
      (forall i :: 0 <= i < |r| ==> Lacks(r[i], '\n')) && |r[|r| - 1]| > 0
  {
    var r := Prepare(lines, k, s).value;
    var root := GrubRoot(s.bootPartition).value;
    RootSingleLine(s.bootPartition);
    var e := EntryLines(k, s, root);
    EntrySingleLine(k, s, root);
    forall i | 0 <= i < |r| ensures Lacks(r[i], '\n') {
      if i >= |lines| {
        assert r[i] == e[i - |lines|];
      } else {
        RewrittenSingleLine(lines[i]);
      }
    }
    assert r[|r| - 1] == e[|e| - 1];
  }
}

=== FILE: grub_legacy.dfy ===
/**
 * The GRUB boot loader of the older snapshot, upkern/bootloader/grub.py:
 * the `(hdX,Y)` root of the boot partition in its sd/hd and cciss forms,
 * `create_configuration`, which writes grub.conf.tmp with the default
 * entry bumped and the kernel's entry appended, and `install_configuration`,
 * which moves grub.conf.tmp over grub.conf.  Whether the configuration
 * already has the kernel, the files' contents and the entry text are inputs.
 */
module GrubLegacy {
  import opened Results
  import opened Text
  import opened Numbers
  import opened Lines

  datatype Failure =
    | NoGrubRoot(partition: string) // BootLoaderException("Couldn't determine the grub root string!")
    | NoConfiguration               // copying a grub.conf that does not exist

  // The root device

  /** `ascii_lowercase.find(sub)` for a non-empty `sub`. */
  function AlphabetFind(sub: string): (r: int)
    requires |sub| > 0
    ensures -1 <= r < 26
    ensures r >= 0 <==> |sub| == 1 && IsLower(sub[0])
    ensures r >= 0 ==> sub[0] as int == 'a' as int + r
  {
    if |sub| == 1 && IsLower(sub[0]) then sub[0] as int - 'a' as int else -1
  }

  /** `/dev/.d(?P<drive_letter>.)(?P<part_number>\d+)` at the start: the letter and the digits. */
  function SdMatch(s: string): (r: Option<(char, string)>)
    ensures r.Some? ==> |r.value.1| > 0 && AllDigits(r.value.1)
  {
    if |s| < 9 || s[..5] != "/dev/" || s[5] == '\n' || s[6] != 'd' || s[7] == '\n' || !IsDigit(s[8]) then None
    else
      var n := DigitRun(s[8..]);
      DigitRunDigits(s[8..]);
      assert forall i :: 0 <= i < n ==> s[8..8 + n][i] == s[8..][i];
      Some((s[7], s[8..8 + n]))
  }

  /** `/dev/cciss/c0d(?P<drive_number>\d+)p(?P<part_number>\d+)` at the start. */
  function CcissMatch(s: string): (r: Option<(string, string)>)
    ensures r.Some? ==> |r.value.0| > 0 && AllDigits(r.value.0) && |r.value.1| > 0 && AllDigits(r.value.1)
  {
    var head := "/dev/cciss/c0d";
    if |s| < 14 || s[..14] != head then None
    else
      var d := DigitEnd(s, 14);
      if d == 14 || d + 1 >= |s| || s[d] != 'p' || !IsDigit(s[d + 1]) then None
      else
        var p := DigitEnd(s, d + 1);
        DigitEndDigits(s, 14);
        DigitEndDigits(s, d + 1);
        var drive, part := s[14..d], s[d + 1..p];
        assert forall i :: 0 <= i < |drive| ==> drive[i] == s[14 + i];
        assert forall i :: 0 <= i < |part| ==> part[i] == s[d + 1 + i];
        Some((drive, part))
  }

  /** `__determine_grub_root`, as written. */
  function GrubRoot(partition: string): (r: Result<string, Failure>)
    ensures r.Ok? <==> SdMatch(partition).Some? || CcissMatch(partition).Some?
    ensures r.Err? ==> r.error == NoGrubRoot(partition)
  {
    match SdMatch(partition)
    case Some((letter, part)) =>
      Ok("(hd" + IntToString(AlphabetFind([letter])) + "," + IntToString(DigitsValue(part) - 1) + ")")
    case None =>
      match CcissMatch(partition)
      case Some((drive, part)) =>
        Ok("(hd" + IntToString(AlphabetFind(drive)) + "," + part + ")")
      case None => Err(NoGrubRoot(partition))
  }

  /**
   * `__determine_grub_root` as its cciss branch is evidently meant, in the
   * `(hd0,0)` style its doc comment names: the drive number, already
   * counted from zero, is the disk's index, and the partition number is
   * counted from zero as the sd/hd branch counts it.
   */
  function GrubRootIntended(partition: string): (r: Result<string, Failure>)
    ensures r.Ok? <==> GrubRoot(partition).Ok?
    ensures SdMatch(partition).Some? ==> r == GrubRoot(partition)
    ensures r.Err? ==> r.error == NoGrubRoot(partition)
  {
    match SdMatch(partition)
    case Some(_) => GrubRoot(partition)
    case None =>
      match CcissMatch(partition)
      case Some((drive, part)) =>
        Ok("(hd" + IntToString(DigitsValue(drive)) + "," + IntToString(DigitsValue(part) - 1) + ")")
      case None => Err(NoGrubRoot(partition))
  }

  /** `/dev/<x>d<letter><digits>` gives the letter's index and the digits less one. */
  lemma SdForm(x: char, letter: char, digits: string, rest: string)
    requires x != '\n' && letter != '\n'
    requires |digits| > 0 && AllDigits(digits)
    requires |rest| == 0 || !IsDigit(rest[0])
    ensures GrubRoot("/dev/" + [x] + "d" + [letter] + digits + rest) ==
      Ok("(hd" + IntToString(AlphabetFind([letter])) + "," + IntToString(DigitsValue(digits) - 1) + ")")
  {
    var s := "/dev/" + [x] + "d" + [letter] + digits + rest;
    SdReads(x, letter, digits, rest);
    SdRoot(s, letter, digits);
  }

  /** Once the sd/hd expression matches, the root is read from its groups. */
  lemma SdRoot(s: string, letter: char, digits: string)
    requires SdMatch(s) == Some((letter, digits))
    ensures GrubRoot(s) == Ok("(hd" + IntToString(AlphabetFind([letter])) + "," + IntToString(DigitsValue(digits) - 1) + ")")
  {
  }

  /** Once only the cciss expression matches, both roots are read from its groups. */
  lemma CcissRoot(s: string, drive: string, part: string)
    requires SdMatch(s).None? && CcissMatch(s) == Some((drive, part))
    ensures GrubRoot(s) == Ok("(hd" + IntToString(AlphabetFind(drive)) + "," + part + ")")
    ensures GrubRootIntended(s) == Ok("(hd" + IntToString(DigitsValue(drive)) + "," + IntToString(DigitsValue(part) - 1) + ")")
  {
    CcissWritten(s, drive, part);
    CcissCorrected(s, drive, part);
  }

  lemma CcissWritten(s: string, drive: string, part: string)
    requires SdMatch(s).None? && CcissMatch(s) == Some((drive, part))
    ensures GrubRoot(s) == Ok("(hd" + IntToString(AlphabetFind(drive)) + "," + part + ")")
  {
  }

  lemma CcissCorrected(s: string, drive: string, part: string)
    requires SdMatch(s).None? && CcissMatch(s) == Some((drive, part))
    ensures GrubRootIntended(s) == Ok("(hd" + IntToString(DigitsValue(drive)) + "," + IntToString(DigitsValue(part) - 1) + ")")
  {
  }

  lemma SdReads(x: char, letter: char, digits: string, rest: string)
    requires x != '\n' && letter != '\n'
    requires |digits| > 0 && AllDigits(digits)
    requires |rest| == 0 || !IsDigit(rest[0])
    ensures SdMatch("/dev/" + [x] + "d" + [letter] + digits + rest) == Some((letter, digits))
  {
    var pre := "/dev/" + [x] + "d" + [letter];
    var s := pre + (digits + rest);
    assert |pre| == 8 && pre[5] == x && pre[6] == 'd' && pre[7] == letter;
    assert pre[..5] == "/dev/";
    assert s[..5] == pre[..5];
    assert s[5] == x && s[6] == 'd' && s[7] == letter;
    assert s[8..] == digits + rest;
    assert s[8] == digits[0];
    DigitRunOf(digits, rest);
    assert s[8..8 + |digits|] == digits;
    assert s == "/dev/" + [x] + "d" + [letter] + digits + rest;
  }

  /** `/dev/cciss/c0d<drive>p<part>`, as written: never a letter, so always disk -1, and the part unchanged. */
  lemma CcissAsWritten(drive: string, part: string, rest: string)
    requires |drive| > 0 && AllDigits(drive) && |part| > 0 && AllDigits(part)
    requires |rest| == 0 || !IsDigit(rest[0])
    ensures GrubRoot("/dev/cciss/c0d" + drive + "p" + part + rest) == Ok("(hd-1," + part + ")")
  {
    var s := "/dev/cciss/c0d" + drive + "p" + part + rest;
    CcissReads(drive, part, rest);
    CcissRoot(s, drive, part);
    assert !IsLower(drive[0]);
    NoDisk(drive, part);
  }

  /** A drive given by digits is never found in the alphabet. */
  lemma NoDisk(drive: string, part: string)
    requires |drive| > 0 && !IsLower(drive[0])
    ensures "(hd" + IntToString(AlphabetFind(drive)) + "," + part + ")" == "(hd-1," + part + ")"
  {
    assert AlphabetFind(drive) == -1;
    assert IntToString(-1) == "-1" by {
      assert NatToString(1) == "1";
    }
  }

  lemma CcissReads(drive: string, part: string, rest: string)
    requires |drive| > 0 && AllDigits(drive) && |part| > 0 && AllDigits(part)
    requires |rest| == 0 || !IsDigit(rest[0])
    ensures SdMatch("/dev/cciss/c0d" + drive + "p" + part + rest).None?
    ensures CcissMatch("/dev/cciss/c0d" + drive + "p" + part + rest) == Some((drive, part))
  {
    var s := "/dev/cciss/c0d" + drive + "p" + part + rest;
    CcissNotSd(s, drive + "p" + part + rest);
    assert s == "/dev/cciss/c0d" + (drive + ("p" + part + rest));
    CcissTail(s, drive, part, rest);
  }

  /** A cciss path is not an sd path. */
  lemma CcissNotSd(s: string, t: string)
    requires s == "/dev/cciss/c0d" + t
    ensures SdMatch(s).None?
  {
    assert s[6] == 'c';
  }

  /** The drive and partition digits after the cciss prefix. */
  lemma CcissTail(s: string, drive: string, part: string, rest: string)
    requires |drive| > 0 && AllDigits(drive) && |part| > 0 && AllDigits(part)
    requires |rest| == 0 || !IsDigit(rest[0])
    requires s == "/dev/cciss/c0d" + (drive + ("p" + part + rest))
    ensures CcissMatch(s) == Some((drive, part))
  {
    var tail := "p" + part + rest;
    CcissHead(s, drive + tail);
    RunAt(s, 14, drive, tail);
    CcissSeparator(s, drive, part, rest);
    RunAt(s, 14 + |drive| + 1, part, rest);
    CcissAt(s, 14 + |drive|, 14 + |drive| + 1 + |part|);
  }

  lemma CcissHead(s: string, t: string)
    requires s == "/dev/cciss/c0d" + t
    ensures |s| >= 14 && s[..14] == "/dev/cciss/c0d" && s[14..] == t
  {
  }

  /** The `p` between the drive and the partition. */
  lemma CcissSeparator(s: string, drive: string, part: string, rest: string)
    requires |s| >= 14 && |part| > 0 && AllDigits(part)
    requires s[14..] == drive + ("p" + part + rest)
    ensures 14 + |drive| + 1 < |s| && s[14 + |drive|] == 'p' && IsDigit(s[14 + |drive| + 1])
    ensures s[14 + |drive| + 1..] == part + rest
  {
    var t := drive + ("p" + part + rest);
    assert s[14 + |drive|] == t[|drive|];
    assert s[14 + |drive| + 1] == t[|drive| + 1] == part[0];
    assert s[14 + |drive| + 1..] == t[|drive| + 1..];
  }

  /** The matcher's reading, once the two digit runs are known. */
  lemma CcissAt(s: string, d: nat, p: nat)
    requires 14 < d && d + 1 < p <= |s| && s[..14] == "/dev/cciss/c0d"
    requires DigitEnd(s, 14) == d && s[d] == 'p' && IsDigit(s[d + 1]) && DigitEnd(s, d + 1) == p
    ensures CcissMatch(s) == Some((s[14..d], s[d + 1..p]))
  {
  }

  /** The first partition of the first cciss disk, as written and as intended. */
  lemma FirstCcissDisk()
    ensures GrubRoot("/dev/cciss/c0d0p1") == Ok("(hd-1,1)")
    ensures GrubRootIntended("/dev/cciss/c0d0p1") == Ok("(hd0,0)")
  {
    FirstCcissWritten("/dev/cciss/c0d0p1");
    FirstCcissIntended("/dev/cciss/c0d0p1");
  }

  lemma FirstCcissWritten(p: string)
    requires p == "/dev/cciss/c0d0p1"
    ensures GrubRoot(p) == Ok("(hd-1,1)")
  {
    FirstCcissParts(p, "0", "1");
    CcissAsWritten("0", "1", "");
    assert "(hd-1," + "1" + ")" == "(hd-1,1)";
  }

  lemma FirstCcissIntended(p: string)
    requires p == "/dev/cciss/c0d0p1"
    ensures GrubRootIntended(p) == Ok("(hd0,0)")
  {
    FirstCcissParts(p, "0", "1");
    IntendedOfParts(p, "0", "1");
  }

  /** The path is built from the drive `0` and the partition `1`. */
  lemma FirstCcissParts(p: string, d: string, q: string)
    requires p == "/dev/cciss/c0d0p1" && d == "0" && q == "1"
    ensures "/dev/cciss/c0d" + d + "p" + q + "" == p
    ensures |d| > 0 && AllDigits(d) && |q| > 0 && AllDigits(q)
  {
  }

  lemma IntendedOfParts(p: string, d: string, q: string)
    requires d == "0" && q == "1"
    requires "/dev/cciss/c0d" + d + "p" + q + "" == p
    ensures GrubRootIntended(p) == Ok("(hd0,0)")
  {
    CcissIntended(d, q, "");
    ZeroNumeral(d);
    FirstPartitionNumeral(q);
    FirstRootSpelled();
  }

  lemma FirstRootSpelled()
    ensures "(hd" + "0" + "," + "0" + ")" == "(hd0,0)"
  {
  }

  /** Partition `1`, counted from zero, is `0`. */
  lemma FirstPartitionNumeral(q: string)
    requires q == "1"
    ensures IntToString(DigitsValue(q) - 1) == "0"
  {
    assert DigitsValue(q) == 1 by {
      assert q[..0] == "";
    }
    assert NatToString(0) == "0";
  }

  lemma ZeroNumeral(d: string)
    requires d == "0"
    ensures IntToString(DigitsValue(d)) == "0"
  {
    assert DigitsValue(d) == 0 by {
      assert d[..0] == "";
    }
    assert NatToString(0) == "0";
  }

  /** As intended, a cciss disk's drive number is its index and its partitions count from zero. */
  lemma CcissIntended(drive: string, part: string, rest: string)
    requires |drive| > 0 && AllDigits(drive) && |part| > 0 && AllDigits(part)
    requires |rest| == 0 || !IsDigit(rest[0])
    ensures GrubRootIntended("/dev/cciss/c0d" + drive + "p" + part + rest) ==
      Ok("(hd" + IntToString(DigitsValue(drive)) + "," + IntToString(DigitsValue(part) - 1) + ")")
  {
    CcissReads(drive, part, rest);
    CcissRoot("/dev/cciss/c0d" + drive + "p" + part + rest, drive, part);
  }

  // The configuration file

  /**
   * `^(default\s+)(?P<kernel_number>\d+)\s*$`: the first group and the
   * number.  `\s+` takes every blank after `default`, `\d+` every digit
   * after them, and only blanks may follow.
   */
  function DefaultMatch(line: string): (r: Option<(string, string)>)
    ensures r.Some? ==> |r.value.1| > 0 && AllDigits(r.value.1)
    ensures r.Some? ==> (|r.value.0| + |r.value.1| <= |line| &&
      line == r.value.0 + r.value.1 + line[|r.value.0| + |r.value.1|..])
    ensures r.Some? ==> |r.value.0| > 7 && r.value.0[..7] == "default" && AllSpace(r.value.0[7..])
    ensures r.Some? ==> AllSpace(line[|r.value.0| + |r.value.1|..])
  {
    if |line| < 7 || line[..7] != "default" then None
    else
      var w := SpaceRun(line[7..]);
      var g := 7 + w;
      var d := DigitRun(line[g..]);
      if w == 0 || d == 0 || !AllSpace(line[g + d..]) then None
      else
        DefaultParts(line, w, d);
        Some((line[..g], line[g..g + d]))
  }

  /** The three parts of a default line at the ends of its blank and digit runs. */
  lemma DefaultParts(line: string, w: nat, d: nat)
    requires |line| >= 7 && line[..7] == "default"
    requires 0 < w == SpaceRun(line[7..]) && 0 < d == DigitRun(line[7 + w..])
    ensures |line[..7 + w]| + |line[7 + w..7 + w + d]| == 7 + w + d <= |line|
    ensures line == line[..7 + w] + line[7 + w..7 + w + d] + line[7 + w + d..]
    ensures AllDigits(line[7 + w..7 + w + d])
    ensures line[..7 + w][..7] == "default" && AllSpace(line[..7 + w][7..])
  {
    var g := 7 + w;
    SliceThree(line, g, g + d);
    DigitRunDigits(line[g..]);
    assert forall i :: 0 <= i < d ==> line[g..g + d][i] == line[g..][i];
    assert line[..g][..7] == line[..7];
    assert forall i :: 0 <= i < w ==> line[..g][7..][i] == line[7..][i];
  }

  /** A line that does not start with `default` is never a default line. */
  lemma OtherLineKept(line: string)
    requires !("default" <= line)
    ensures DefaultMatch(line).None?
    ensures Bump(line) == line
  {
  }

  /** A string is its three slices at two cut points. */
  lemma SliceThree(line: string, a: nat, b: nat)
    requires a <= b <= |line|
    ensures |line[..a]| + |line[a..b]| == b
    ensures line == line[..a] + line[a..b] + line[b..]
  {
    assert line[..b] == line[..a] + line[a..b];
    assert line == line[..b] + line[b..];
  }

  /** One line of the copy: a default line with its number bumped and a newline, any other line as it is. */
  function Bump(line: string): (r: string)
    ensures DefaultMatch(line).None? ==> r == line
    ensures DefaultMatch(line).Some? ==> Terminated(r)
    ensures IsLine(line) ==> IsLine(r)
  {
    match DefaultMatch(line)
    case None => line
    case Some((g, d)) =>
      var n := NatToString(DigitsValue(d) + 1);
      BumpedLine(line, g, n);
      g + n + "\n"
  }

  /** A prefix of a line, digits and a newline make a line. */
  lemma BumpedLine(line: string, g: string, n: string)
    requires g <= line && |g| < |line| && AllDigits(n)
    ensures Terminated(g + n + "\n")
    ensures IsLine(line) ==> IsLine(g + n + "\n")
  {
    var r := g + n + "\n";
    if IsLine(line) {
      forall i | 0 <= i < |r| - 1 ensures r[i] != '\n' {
        if i < |g| {
          assert r[i] == g[i] == line[i];
        } else {
          assert r[i] == n[i - |g|] && IsDigit(n[i - |g|]);
        }
      }
    }
  }

  /** `default<blanks><number><blanks>` becomes `default<blanks><number + 1>` and a newline. */
  lemma BumpDefault(w: string, digits: string, tail: string)
    requires |w| > 0 && AllSpace(w) && |digits| > 0 && AllDigits(digits) && AllSpace(tail)
    ensures Bump("default" + w + digits + tail) == "default" + w + NatToString(DigitsValue(digits) + 1) + "\n"
  {
    DefaultOf(w, digits, tail);
  }

  /** The default line's match: the keyword with its blanks, and the digits. */
  lemma DefaultOf(w: string, digits: string, tail: string)
    requires |w| > 0 && AllSpace(w) && |digits| > 0 && AllDigits(digits) && AllSpace(tail)
    ensures DefaultMatch("default" + w + digits + tail) == Some(("default" + w, digits))
  {
    var line := "default" + w + digits + tail;
    assert line[..7] == "default";
    assert line[7..] == w + (digits + tail);
    assert !IsSpace(digits[0]);
    SpaceRunOf(w, digits + tail);
    var g := 7 + |w|;
    assert line[g..] == digits + tail;
    if |tail| > 0 {
      assert !IsDigit(tail[0]);
    }
    DigitRunOf(digits, tail);
    assert line[g + |digits|..] == tail;
    assert line[..g] == "default" + w;
    assert line[g..g + |digits|] == digits;
  }

  /** The lines of grub.conf.tmp before the entry. */
  function BumpAll(ls: seq<string>): (r: seq<string>)
    ensures |r| == |ls|
    ensures forall i :: 0 <= i < |ls| ==> r[i] == Bump(ls[i])
    decreases |ls|
  {
    if |ls| == 0 then [] else [Bump(ls[0])] + BumpAll(ls[1..])
  }

  /**
   * `create_configuration`: the content of grub.conf.tmp, or `None` when
   * nothing is written.  `original` is grub.conf, `None` when it does not
   * exist; `present` is what the presence check reports; `entry` is the
   * kernel's entry text.
   */
  function CreateConfiguration(original: Option<string>, present: bool, entry: string): (r: Result<Option<string>, Failure>)
    ensures present && original.Some? ==> r == Ok(original)
    ensures present && original.None? ==> r == Err(NoConfiguration)
    ensures !present && original.None? ==> r == Ok(None)
    ensures !present && original.Some? ==> (r.Ok? && r.value.Some? && |r.value.value| >= |entry| &&
      r.value.value[|r.value.value| - |entry|..] == entry)
  {
    if present then
      match original
      case Some(c) => Ok(Some(c))
      case None => Err(NoConfiguration)
    else
      match original
      case None => Ok(None)
      case Some(c) =>
        var body := Concat(BumpAll(ReadLines(c)));
        assert (body + entry)[|body|..] == entry;
        Ok(Some(body + entry))
  }

  /**
   * The new file is the old one line for line, default lines bumped, with
   * the entry once after them.
   */
  lemma CreatedLines(c: string, entry: string)
    ensures var r := CreateConfiguration(Some(c), false, entry).value.value;
      exists body :: r == body + entry && ReadLines(body) == BumpAll(ReadLines(c))
  {
    var ls := ReadLines(c);
    var bs := BumpAll(ls);
    forall i | 0 <= i < |bs| ensures IsLine(bs[i]) {
    }
    forall i | 0 <= i < |bs| - 1 ensures Terminated(bs[i]) {
    }
    ReadLinesConcat(bs);
  }

  /** A configuration with no default line is copied whole before the entry. */
  lemma NoDefaultCopied(c: string, entry: string)
    requires forall i :: 0 <= i < |ReadLines(c)| ==> DefaultMatch(ReadLines(c)[i]).None?
    ensures CreateConfiguration(Some(c), false, entry) == Ok(Some(c + entry))
  {
    var ls := ReadLines(c);
    assert BumpAll(ls) == ls;
  }

  /** `install_configuration`: grub.conf and grub.conf.tmp after the move. */
  function InstallConfiguration(config: string, tmp: Option<string>): (r: (string, Option<string>))
    ensures r.1.None?
    ensures tmp.None? ==> r.0 == config
    ensures tmp.Some? ==> r.0 == tmp.value
  {
    match tmp
    case Some(t) => (t, None)
    case None => (config, None)
  }

  /** A configuration reported to have the kernel is installed unchanged. */
  lemma PresentKeepsConfiguration(c: string, entry: string)
    ensures InstallConfiguration(c, CreateConfiguration(Some(c), true, entry).value) == (c, None)
  {
  }

  /** Otherwise the installed configuration ends with the entry. */
  lemma AbsentGainsEntry(c: string, entry: string)
    ensures var installed := InstallConfiguration(c, CreateConfiguration(Some(c), false, entry).value).0;
      |installed| >= |entry| && installed[|installed| - |entry|..] == entry
  {
  }
}

=== FILE: kernel_kernel.dfy ===
/**
 * The kernel object of upkern/kernel/kernel.py: the emerge name and the
 * source directory for a user's kernel name, the suffix and install image
 * derived from them, and the configuration file copied from `/boot`.
 *
 * This snapshot orders `linux-` directories and `config-` files plainly
 * by name, ascending, and takes the last of them as the newest.
 */
module KernelKernel {
  import opened Results
  import opened Text
  import opened Numbers
  import opened Listing
  import opened Sorting
  import opened AtomGrammar
  import Binary

  /** The exceptions the name resolution raises. */
  datatype Failure =
    | InsufficientPrivileges   // the package is not installed and this is no dry run
    | DryRunWithoutSources     // the package is not installed and this is a dry run
    | NoDirectories            // `[-1]` of an empty directory list
    | UnknownArchitecture      // `_get_install_image` on anything but x86_64 and i686
    | NoUsrSrc                 // `/usr/src/` cannot be accessed

  /** Python's string order, as a comparator. */
  predicate Ascending(a: string, b: string) { LexLe(a, b) }

  lemma AscendingIsTotal()
    ensures TotalPreorder(Ascending)
  {
    forall a, b ensures Ascending(a, b) || Ascending(b, a) {
      LexTotal(a, b);
    }
    forall a, b, c | Ascending(a, b) && Ascending(b, c) ensures Ascending(a, c) {
      LexTransitive(a, b, c);
    }
  }

  /**
   * `_get_kernel_directories`: the `linux-` entries of `/usr/src`, sorted by
   * name; `haveUsrSrc` is whether `/usr/src/` can be accessed at all.
   */
  function KernelDirectories(haveUsrSrc: bool, listing: seq<string>): (r: Result<seq<string>, Failure>)
    ensures r.Err? <==> !haveUsrSrc
    ensures r.Err? ==> r.error == NoUsrSrc
    ensures r.Ok? ==> multiset(r.value) == multiset(Filter(listing, LinuxEntry))
    ensures r.Ok? ==> forall d :: d in r.value <==> d in listing && LinuxEntry(d)
    ensures r.Ok? ==> Sorted(r.value, Ascending)
  {
    if !haveUsrSrc then Err(NoUsrSrc)
    else
      var f := Filter(listing, LinuxEntry);
      AscendingIsTotal();
      SortSorted(f, Ascending);
      SortMembers(f, Ascending);
      Ok(Sort(f, Ascending))
  }

  /** The position of the last directory owned by `package`, if any: the reversed scan. */
  function LastOwned(ds: seq<string>, owner: string -> string, package: string): (r: Option<nat>)
    ensures r.Some? ==> r.value < |ds| && owner(ds[r.value]) == package
    ensures r.Some? ==> forall i :: r.value < i < |ds| ==> owner(ds[i]) != package
    ensures r.None? ==> forall i :: 0 <= i < |ds| ==> owner(ds[i]) != package
  {
    if |ds| == 0 then None
    else if owner(ds[|ds| - 1]) == package then Some(|ds| - 1)
    else LastOwned(ds[..|ds| - 1], owner, package)
  }

  /**
   * `_get_kernel_names`: the directory and the emerge name.  A name the
   * package expression accepts gives `sys-kernel/<flavor>-sources-<version>`;
   * when that package is not installed the object gives up (the privilege
   * check compares the function `os.getuid` with 0, so it always fails), and
   * otherwise the directory is the greatest one the package owns, or `""`
   * when it owns none.  Any other name takes the greatest directory and its
   * owner.  Both branches list the directories, so both fail without
   * `/usr/src/`; an accepted name checks the installation first.
   */
  function KernelNames(name: string, haveUsrSrc: bool, listing: seq<string>, owner: string -> string,
                       installed: bool, dryRun: bool): (r: Result<(string, string), Failure>)
    ensures ParseAtom(Underscored, name).Some? ==>
      (r.Ok? <==> installed && haveUsrSrc) &&
      (!installed ==> r.error == (if dryRun then DryRunWithoutSources else InsufficientPrivileges)) &&
      (installed && !haveUsrSrc ==> r == Err(NoUsrSrc)) &&
      (r.Ok? ==> r.value.1 == PackageOf(ParseAtom(Underscored, name).value))
    ensures ParseAtom(Underscored, name).None? ==>
      (r.Ok? <==> haveUsrSrc && exists d :: d in listing && LinuxEntry(d)) &&
      (!haveUsrSrc ==> r == Err(NoUsrSrc)) &&
      (haveUsrSrc && r.Err? ==> r.error == NoDirectories) &&
      (r.Ok? ==> r.value.1 == owner(r.value.0))
    ensures r.Ok? && r.value.0 != "" ==> r.value.0 in listing && LinuxEntry(r.value.0)
  {
    match ParseAtom(Underscored, name)
    case Some(a) =>
      var emerge := PackageOf(a);
      if !installed then Err(if dryRun then DryRunWithoutSources else InsufficientPrivileges)
      else
        var dirs := KernelDirectories(haveUsrSrc, listing);
        if dirs.Err? then Err(dirs.error)
        else
          var found := LastOwned(dirs.value, owner, Strip(emerge));
          if found.Some? then
            assert dirs.value[found.value] in dirs.value;
            Ok((dirs.value[found.value], emerge))
          else Ok(("", emerge))
    case None =>
      match KernelDirectories(haveUsrSrc, listing)
      case Err(e) => Err(e)
      case Ok(dirs) =>
        if |dirs| == 0 then
          assert forall d :: d in listing && LinuxEntry(d) ==> d in dirs;
          Err(NoDirectories)
        else
          var d := dirs[|dirs| - 1];
          assert d in dirs;
          Ok((d, owner(d)))
  }

  /** The emerge name has no blanks at either end, so stripping it changes nothing. */
  lemma PackageUnstripped(a: Atom)
    requires WellFormed(Underscored, a)
    ensures Strip(PackageOf(a)) == PackageOf(a)
  {
    var p := PackageOf(a);
    assert p[0] == 's';
    assert p[|p| - 1] == a.version[|a.version| - 1];
    StripNoBlanks(p);
  }

  /**
   * With an accepted name and the package installed, the directory is the
   * greatest one by name that the package owns, and `""` exactly when it
   * owns none.
   */
  lemma NamedDirectoryIsGreatestOwned(name: string, listing: seq<string>, owner: string -> string, dryRun: bool)
    requires ParseAtom(Underscored, name).Some?
    ensures var r := KernelNames(name, true, listing, owner, true, dryRun);
      var emerge := PackageOf(ParseAtom(Underscored, name).value);
      r.Ok? &&
      (r.value.0 == "" <==> forall d :: d in listing && LinuxEntry(d) ==> owner(d) != emerge) &&
      (r.value.0 != "" ==>
         owner(r.value.0) == emerge &&
         forall d :: d in listing && LinuxEntry(d) && owner(d) == emerge ==> LexLe(d, r.value.0))
  {
    var a := ParseAtom(Underscored, name).value;
    var emerge := PackageOf(a);
    PackageUnstripped(a);
    var dirs := KernelDirectories(true, listing).value;
    var r := KernelNames(name, true, listing, owner, true, dryRun);
    match LastOwned(dirs, owner, emerge)
    case Some(i) =>
      assert r.value.0 == dirs[i];
      assert LinuxEntry(dirs[i]) by {
        assert dirs[i] in dirs;
      }
      forall d | d in listing && LinuxEntry(d) && owner(d) == emerge ensures LexLe(d, dirs[i]) {
        assert d in dirs;
        var j :| 0 <= j < |dirs| && dirs[j] == d;
        if j == i {
          LexReflexive(d);
        } else {
          assert j < i;
          assert Ascending(dirs[j], dirs[i]);
        }
      }
    case None =>
      assert r.value.0 == "";
      forall d | d in listing && LinuxEntry(d) ensures owner(d) != emerge {
        assert d in dirs;
      }
  }

  /** Without an accepted name the directory is the greatest `linux-` entry by name. */
  lemma UnnamedDirectoryIsGreatest(name: string, haveUsrSrc: bool, listing: seq<string>, owner: string -> string,
                                   installed: bool, dryRun: bool)
    requires ParseAtom(Underscored, name).None?
    requires KernelNames(name, haveUsrSrc, listing, owner, installed, dryRun).Ok?
    ensures var d := KernelNames(name, haveUsrSrc, listing, owner, installed, dryRun).value.0;
      forall e :: e in listing && LinuxEntry(e) ==> LexLe(e, d)
  {
    UnnamedPick(name, haveUsrSrc, listing, owner, installed, dryRun);
    var dirs := KernelDirectories(true, listing).value;
    GreatestInListing(listing, dirs);
  }

  /** The last sorted directory is at least every `linux-` entry of the listing. */
  lemma GreatestInListing(listing: seq<string>, dirs: seq<string>)
    requires |dirs| > 0 && Sorted(dirs, Ascending)
    requires forall d :: d in dirs <==> d in listing && LinuxEntry(d)
    ensures forall e :: e in listing && LinuxEntry(e) ==> LexLe(e, dirs[|dirs| - 1])
  {
    LastIsGreatest(dirs);
  }

  /** Without an accepted name the pick is the last sorted directory. */
  lemma UnnamedPick(name: string, haveUsrSrc: bool, listing: seq<string>, owner: string -> string,
                    installed: bool, dryRun: bool)
    requires ParseAtom(Underscored, name).None?
    requires KernelNames(name, haveUsrSrc, listing, owner, installed, dryRun).Ok?
    ensures haveUsrSrc && |KernelDirectories(true, listing).value| > 0
    ensures KernelNames(name, haveUsrSrc, listing, owner, installed, dryRun).value.0
         == KernelDirectories(true, listing).value[|KernelDirectories(true, listing).value| - 1]
  {
    assert haveUsrSrc && exists d :: d in listing && LinuxEntry(d);
    var d :| d in listing && LinuxEntry(d);
    assert d in KernelDirectories(true, listing).value;
    UnnamedValue(name, listing, owner, installed, dryRun);
  }

  /** Without an accepted name, the names are the last sorted directory and its owner. */
  lemma UnnamedValue(name: string, listing: seq<string>, owner: string -> string, installed: bool, dryRun: bool)
    requires ParseAtom(Underscored, name).None?
    requires |KernelDirectories(true, listing).value| > 0
    ensures var dirs := KernelDirectories(true, listing).value;
      KernelNames(name, true, listing, owner, installed, dryRun) == Ok((dirs[|dirs| - 1], owner(dirs[|dirs| - 1])))
  {
  }

  /** The last of the sorted directories is at least every one of them. */
  lemma LastIsGreatest(dirs: seq<string>)
    requires |dirs| > 0 && Sorted(dirs, Ascending)
    ensures forall e :: e in dirs ==> LexLe(e, dirs[|dirs| - 1])
  {
    var d := dirs[|dirs| - 1];
    forall e | e in dirs ensures LexLe(e, d) {
      var j :| 0 <= j < |dirs| && dirs[j] == e;
      if j == |dirs| - 1 {
        LexReflexive(e);
      } else {
        assert Ascending(dirs[j], d);
      }
    }
  }

  /** `self._suffix`: the same suffix the binary of upkern/kernel/binary.py derives. */
  function KernelSuffix(directory: string): (r: string)
    ensures |r| > 0 && r[0] == '-' && r[1..] == After(directory, '-')
    ensures !Lacks(directory, '-') ==> directory == Before(directory, '-') + r
  {
    var b := Binary.Binary(directory);
    Binary.SuffixSplitsNameWhenDashed(b);
    Binary.Suffix(b)
  }

  /** `_get_install_image`: `bzImage` for the two x86 machines, an exception otherwise. */
  function KernelInstallImage(machine: string): (r: Result<string, Failure>)
    ensures r.Ok? <==> machine == "x86_64" || machine == "i686"
    ensures r.Ok? ==> r.value == "bzImage"
    ensures r.Err? ==> r.error == UnknownArchitecture
  {
    if machine == "x86_64" then Ok("bzImage")
    else if machine == "i686" then Ok("bzImage")
    else Err(UnknownArchitecture)
  }

  /** `_copy_config`: the last `config-` file of `/boot` by name, if there is one. */
  function ConfigToCopy(boot: seq<string>): (r: Option<string>)
    ensures r.None? <==> forall f :: f in boot ==> !ConfigEntry(f)
    ensures r.Some? ==> r.value in boot && ConfigEntry(r.value)
    ensures r.Some? ==> forall f :: f in boot && ConfigEntry(f) ==> LexLe(f, r.value)
  {
    var f := Filter(boot, ConfigEntry);
    AscendingIsTotal();
    SortSorted(f, Ascending);
    SortMembers(f, Ascending);
    var cs := Sort(f, Ascending);
    if |cs| == 0 then
      assert forall x :: x in boot && ConfigEntry(x) ==> x in cs;
      None
    else
      var c := cs[|cs| - 1];
      assert c in cs;
      GreatestIsLast(cs, boot);
      Some(c)
  }

  lemma GreatestIsLast(cs: seq<string>, boot: seq<string>)
    requires |cs| > 0 && Sorted(cs, Ascending)
    requires forall x :: x in cs <==> x in boot && ConfigEntry(x)
    ensures forall f :: f in boot && ConfigEntry(f) ==> LexLe(f, cs[|cs| - 1])
  {
    forall f | f in boot && ConfigEntry(f) ensures LexLe(f, cs[|cs| - 1]) {
      var j :| 0 <= j < |cs| && cs[j] == f;
      if j == |cs| - 1 {
        LexReflexive(f);
      } else {
        assert Ascending(cs[j], cs[|cs| - 1]);
      }
    }
  }
}

=== FILE: kernel_package.dfy ===
/**
 * The kernel package of the first snapshot, kernel/__init__.py: the kernel
 * name the user gives is checked against what `emerge -s` offers and turned
 * into the package to download and the `/usr/src` directory, and the
 * directory listing tells whether those sources are already there.
 */
module KernelPackage {
  import opened Results
  import opened Text
  import opened Listing
  import opened Sorting
  import opened NameGrammar

  /** The exceptions `setKernelName` raises. */
  datatype Failure =
    | BadKernel                          // neither name expression matches
    | BadSourceType(sourceType: string)  // the type is offered, but masked
    | BogusSourceType(sourceType: string) // Portage does not offer the type

  /** `downloadName` and the new `kernelName`. */
  datatype Names = Names(download: string, directory: string)

  /**
   * `setKernelName`: `haveUsrSrc` is whether `/usr/src/` exists,
   * `searchOutput` the lines of `emerge -s`, `sources` the constructor's
   * flavor.  Without `/usr/src/` nothing is set: `Ok(None)`, the kernel name
   * stays as it is and no download name exists.  Otherwise a name with a
   * type must name a stable type.
   */
  function SetKernelName(name: string, haveUsrSrc: bool, searchOutput: seq<string>, sources: string)
    : (r: Result<Option<Names>, Failure>)
    ensures !haveUsrSrc ==> r == Ok(None)
    ensures haveUsrSrc ==> (r == Err(BadKernel) <==> ParseName(name).None?)
    ensures haveUsrSrc ==> (r.Ok? <==>
      (ParseName(name).Some? &&
       (ParseName(name).value.sourceType.None? ||
        ParseName(name).value.sourceType.value in Collect(searchOutput).stable)))
    ensures r.Ok? ==> (r.value.Some? <==> haveUsrSrc)
    ensures r.Err? && r.error.BadSourceType? ==>
      r.error.sourceType !in Collect(searchOutput).stable && r.error.sourceType in Collect(searchOutput).full
    ensures r.Err? && r.error.BogusSourceType? ==> r.error.sourceType !in Collect(searchOutput).full
    ensures r.Ok? && r.value.Some? ==> |r.value.value.directory| > 6 && r.value.value.directory[..6] == "linux-"
  {
    if !haveUsrSrc then Ok(None)
    else
      match ParseName(name)
      case None => Err(BadKernel)
      case Some(sp) =>
        var verdict :=
          if sp.sourceType.Some? && sp.sourceType.value != "" then OfferOf(sp.sourceType.value, Collect(searchOutput))
          else Stable;
        match verdict
        case Stable => Ok(Some(Names(DownloadName(sp, sources), DirectoryName(sp, sources))))
        case Masked => Err(BadSourceType(sp.sourceType.value))
        case Unknown => Err(BogusSourceType(sp.sourceType.value))
  }

  /**
   * A Portage name `<type>-sources-<version>[-rN]` whose type the search
   * offers unmasked is accepted, downloads itself, and names the directory
   * `linux-<version>-<type>[-rN]`, whatever the constructor's flavor.
   */
  lemma OfferedPackageAccepted(lines: seq<string>, p: string, t: string,
                               v: string, a: string, b: string, c: string, rel: string, sources: string)
    requires p + "sys-kernel/" + t + "-sources\n" in lines
    requires |p| > 0 && Lacks(p, '\n')
    requires IsVersion(v, a, b, c) && IsReleaseText(rel)
    requires |t| > 0 && NoSpace(t) && Lacks(t, '/') && Lacks(t, '-') && !IsDigit(t[0])
    ensures SetKernelName(t + "-sources-" + v + rel, true, lines, sources) ==
      Ok(Some(Names(t + "-sources-" + v + rel, "linux-" + v + "-" + t + rel)))
  {
    assert Lacks(t, '\n') by {
      forall i | 0 <= i < |t| ensures t[i] != '\n' {
        assert !IsSpace(t[i]);
      }
    }
    PackageStyle(t, v, a, b, c, rel);
    OfferedType(lines, p, t);
    var sp := Spec(Some(t), v, ReleaseOf(rel));
    assert sp.release.GetOr("") == rel;
  }

  /** A type the search offers only masked is refused with `BadSourceTypeError`. */
  lemma MaskedPackageRefused(lines: seq<string>, p: string, t: string, x: string,
                             v: string, a: string, b: string, c: string, rel: string, sources: string)
    requires p + "sys-kernel/" + t + "-sources" + x + "\n" in lines
    requires forall i :: 0 <= i < |lines| ==> StableType(lines[i]) != Some(t)
    requires |p| > 0 && Lacks(p, '\n') && Lacks(p, '/')
    requires |x| > 0 && IsSpace(x[0]) && !AllSpace(x) && Lacks(x, '\n') && Lacks(x, '/')
    requires IsVersion(v, a, b, c) && IsReleaseText(rel)
    requires |t| > 0 && NoSpace(t) && Lacks(t, '/') && Lacks(t, '-') && !IsDigit(t[0])
    ensures SetKernelName(t + "-sources-" + v + rel, true, lines, sources) == Err(BadSourceType(t))
  {
    assert Lacks(t, '\n') by {
      forall i | 0 <= i < |t| ensures t[i] != '\n' {
        assert !IsSpace(t[i]);
      }
    }
    PackageStyle(t, v, a, b, c, rel);
    MaskedType(lines, p, t, x);
  }

  /** A bare version is accepted whatever the search offers, with the constructor's flavor. */
  lemma BareVersionAccepted(lines: seq<string>, v: string, a: string, b: string, c: string, sources: string)
    requires IsVersion(v, a, b, c) && sources != ""
    ensures SetKernelName(v, true, lines, sources) == Ok(Some(Names(sources + "-sources-" + v, "linux-" + v + "-" + sources)))
  {
    BareVersion(v, a, b, c);
    var sp := Spec(None, v, None);
    assert DownloadName(sp, sources) == sources + "-sources-" + v;
    assert DirectoryName(sp, sources) == "linux-" + v + "-" + sources;
  }

  /** `directories.sort(reverse=True)` orders by this comparator. */
  predicate Descending(a: string, b: string) { LexLe(b, a) }

  lemma DescendingIsTotal()
    ensures TotalPreorder(Descending)
  {
    forall a, b ensures Descending(a, b) || Descending(b, a) {
      LexTotal(a, b);
    }
    forall a, b, c | Descending(a, b) && Descending(b, c) ensures Descending(a, c) {
      LexTransitive(c, b, a);
    }
  }

  /**
   * The loop of `areSourcesDownloaded` over the sorted entries: hidden
   * entries are skipped, an empty name adopts the first other entry, and
   * the scan succeeds at the first entry equal to the name.  The second
   * component is `kernelName` after the scan.
   */
  function Scan(name: string, ds: seq<string>): (r: (bool, string))
    ensures name != "" ==> r.1 == name
    ensures name != "" ==> (r.0 <==> exists i :: 0 <= i < |ds| && ds[i] == name && !Hidden(ds[i]))
    ensures name == "" ==> (r.0 <==> exists i :: 0 <= i < |ds| && !Hidden(ds[i]))
    ensures name == "" && !r.0 ==> r.1 == ""
    ensures name == "" && r.0 ==>
      exists k :: 0 <= k < |ds| && ds[k] == r.1 && !Hidden(ds[k]) && forall j :: 0 <= j < k ==> Hidden(ds[j])
    decreases |ds|
  {
    if |ds| == 0 then (false, name)
    else if Hidden(ds[0]) then
      var r := Scan(name, ds[1..]);
      assert forall i :: 1 <= i < |ds| ==> ds[i] == ds[1..][i - 1];
      if name == "" && r.0 then
        var k :| 0 <= k < |ds[1..]| && ds[1..][k] == r.1 && !Hidden(ds[1..][k]) &&
          forall j :: 0 <= j < k ==> Hidden(ds[1..][j]);
        assert ds[k + 1] == r.1;
        assert forall j :: 1 <= j < k + 1 ==> Hidden(ds[j]) by {
          forall j | 1 <= j < k + 1 ensures Hidden(ds[j]) {
            assert ds[j] == ds[1..][j - 1];
          }
        }
        r
      else r
    else
      var n := if name == "" then ds[0] else name;
      if n == ds[0] then (true, n)
      else
        assert forall i :: 1 <= i < |ds| ==> ds[i] == ds[1..][i - 1];
        Scan(n, ds[1..])
  }

  /** `areSourcesDownloaded`: whether the sources are in `/usr/src`, and the kernel name after the check. */
  function AreSourcesDownloaded(name: string, listing: seq<string>): (r: (bool, string))
    ensures name != "" ==> r == (name in listing && !Hidden(name), name)
    ensures name == "" ==> (r.0 <==> exists d :: d in listing && !Hidden(d))
    ensures name == "" && r.0 ==> r.1 in listing && !Hidden(r.1)
    ensures name == "" && !r.0 ==> r.1 == ""
  {
    DescendingIsTotal();
    SortMembers(listing, Descending);
    var ds := Sort(listing, Descending);
    var r := Scan(name, ds);
    if name == "" && r.0 then
      var k :| 0 <= k < |ds| && ds[k] == r.1 && !Hidden(ds[k]) && forall j :: 0 <= j < k ==> Hidden(ds[j]);
      assert ds[k] in ds;
      r
    else
      assert forall d :: d in ds ==> exists i :: 0 <= i < |ds| && ds[i] == d;
      r
  }

  /** With no name, the name adopted is the greatest entry that is not hidden. */
  lemma AdoptsGreatest(listing: seq<string>)
    requires AreSourcesDownloaded("", listing).0
    ensures forall d :: d in listing && !Hidden(d) ==> LexLe(d, AreSourcesDownloaded("", listing).1)
  {
    DescendingIsTotal();
    SortSorted(listing, Descending);
    SortMembers(listing, Descending);
    var ds := Sort(listing, Descending);
    var r := Scan("", ds);
    assert AreSourcesDownloaded("", listing) == r;
    var k :| 0 <= k < |ds| && ds[k] == r.1 && !Hidden(ds[k]) && forall j :: 0 <= j < k ==> Hidden(ds[j]);
    forall d | d in listing && !Hidden(d) ensures LexLe(d, r.1) {
      var i :| 0 <= i < |ds| && ds[i] == d;
      if i == k {
        LexReflexive(d);
      } else {
        assert k < i;
        assert Descending(ds[k], ds[i]);
      }
    }
  }
}

=== FILE: kernel_sources.dfy ===
/**
 * The kernel sources resolver of upkern/kernel/sources.py, the snapshot
 * before upkern/sources.py.  It differs in four ways: the sort key is the
 * string `_keyify` builds, directories with equal keys collapse to one (a
 * key-to-name dict is built), a name the package expression rejects falls
 * back to the owner of the newest directory without a leading `=`, and the
 * configuration is copied rather than moved aside.
 *
 * The owner cache `_packages` only memoises `owner`, which is a pure
 * parameter here, so the model calls `owner` directly.
 */
module KernelSources {
  import opened Results
  import opened Text
  import opened Listing
  import opened Sorting
  import opened Dedupe
  import opened Survivors
  import opened VersionKey
  import opened AtomGrammar
  import Sources

  // The key order

  /** `sorted(keys, reverse = True)` on the `_keyify` strings: larger keys first. */
  predicate NewerKey(a: string, b: string) { LexLe(Keyify(b), Keyify(a)) }

  lemma NewerKeyIsTotal()
    ensures TotalPreorder(NewerKey)
  {
    forall a: string, b: string ensures NewerKey(a, b) || NewerKey(b, a) {
      LexTotal(Keyify(a), Keyify(b));
    }
    forall a: string, b: string, c: string | NewerKey(a, b) && NewerKey(b, c)
      ensures NewerKey(a, c)
    {
      LexTransitive(Keyify(c), Keyify(b), Keyify(a));
    }
  }

  /** The names of `entries` that pass `p`, one per key, by descending key. */
  function Newest(entries: seq<string>, p: string -> bool): (r: seq<string>)
    ensures forall i :: 0 <= i < |r| ==> r[i] in entries && p(r[i])
    ensures |r| == 0 <==> forall d :: d in entries ==> !p(d)
  {
    NewestMembers(entries, p);
    NewestEmpty(entries, p);
    SortedLast(Filter(entries, p), Keyify, NewerKey)
  }

  lemma NewestMembers(entries: seq<string>, p: string -> bool)
    ensures var r := SortedLast(Filter(entries, p), Keyify, NewerKey);
      forall i :: 0 <= i < |r| ==> r[i] in entries && p(r[i])
  {
    var f := Filter(entries, p);
    var r := SortedLast(f, Keyify, NewerKey);
    forall i | 0 <= i < |r| ensures r[i] in entries && p(r[i]) {
      SortedFromSurvivors(f, Keyify, NewerKey, i);
      SurvivorsMembers(f, Keyify);
      assert r[i] in f;
    }
  }

  /** Something survives exactly when something passes the filter. */
  lemma NewestEmpty(entries: seq<string>, p: string -> bool)
    ensures |SortedLast(Filter(entries, p), Keyify, NewerKey)| == 0 <==> forall d :: d in entries ==> !p(d)
  {
    var f := Filter(entries, p);
    if |f| > 0 {
      assert f[0] in f;
    }
  }

  /** The names are in strictly descending key order. */
  lemma NewestDescending(entries: seq<string>, p: string -> bool)
    ensures var r := Newest(entries, p);
      forall i, j :: 0 <= i < j < |r| ==> LexLe(Keyify(r[j]), Keyify(r[i])) && Keyify(r[i]) != Keyify(r[j])
  {
    NewerKeyIsTotal();
    SortSorted(LastPerKey(Filter(entries, p), Keyify), NewerKey);
    SortedSurvivorsDistinct(Filter(entries, p), Keyify, NewerKey);
  }

  /** Each name is the last of the filtered listing with its key, and each such last name is kept. */
  lemma NewestLast(entries: seq<string>, p: string -> bool)
    ensures var r, f := Newest(entries, p), Filter(entries, p);
      (forall k :: 0 <= k < |r| ==> LastAt(f, Keyify, r[k])) &&
      (forall i :: 0 <= i < |f| && IsLast(f, Keyify, i) ==> f[i] in r)
  {
    SortedSurvivorsLast(Filter(entries, p), Keyify, NewerKey);
  }

  /** Every key of the filtered listing is represented. */
  lemma NewestCovers(entries: seq<string>, p: string -> bool)
    ensures var r := Newest(entries, p);
      forall d :: d in entries && p(d) ==> exists j :: 0 <= j < |r| && Keyify(r[j]) == Keyify(d)
  {
    forall d | d in entries && p(d)
      ensures exists j :: 0 <= j < |Newest(entries, p)| && Keyify(Newest(entries, p)[j]) == Keyify(d)
    {
      NewestCoversOne(entries, p, d);
    }
  }

  lemma NewestCoversOne(entries: seq<string>, p: string -> bool, d: string)
    requires d in entries && p(d)
    ensures exists j :: 0 <= j < |Newest(entries, p)| && Keyify(Newest(entries, p)[j]) == Keyify(d)
  {
    var f := Filter(entries, p);
    assert d in f;
    var i :| 0 <= i < |f| && f[i] == d;
    SortedSurvivorOfKey(f, Keyify, NewerKey, i);
    var j :| 0 <= j < |SortedLast(f, Keyify, NewerKey)| && Keyify(SortedLast(f, Keyify, NewerKey)[j]) == Keyify(d);
    assert Newest(entries, p) == SortedLast(f, Keyify, NewerKey);
  }

  // Listings

  /** `source_directories`: one `linux-` directory per key, newest first. */
  function SourceDirectories(listing: seq<string>): (r: seq<string>)
    ensures forall i :: 0 <= i < |r| ==> r[i] in listing && LinuxEntry(r[i])
    ensures |r| == 0 <==> forall d :: d in listing ==> !LinuxEntry(d)
  {
    Newest(listing, LinuxEntry)
  }

  /**
   * While every component of every version fits in three digits, the
   * directories are in strictly descending version order.
   */
  lemma SourceDirectoriesByVersion(listing: seq<string>)
    requires forall d :: d in listing && LinuxEntry(d) ==> Fits(Reading(d))
    ensures var r := SourceDirectories(listing);
      forall i, j :: 0 <= i < j < |r| ==> VersionLe(Reading(r[j]), Reading(r[i])) && Reading(r[i]) != Reading(r[j])
  {
    var r := SourceDirectories(listing);
    NewestDescending(listing, LinuxEntry);
    forall i, j | 0 <= i < j < |r|
      ensures VersionLe(Reading(r[j]), Reading(r[i])) && Reading(r[i]) != Reading(r[j])
    {
      KeyOrder(Reading(r[j]), Reading(r[i]));
    }
  }

  // The package and the directory

  /** `IndexError` on an empty `source_directories`, `AttributeError` when no directory is owned. */
  datatype Failure = NoSourceDirectories | NoOwnedDirectory

  /**
   * `package_name`: the atom of the name when the expression accepts it,
   * otherwise the owner of the newest directory, verbatim.
   */
  function PackageName(name: string, listing: seq<string>, owner: string -> string)
    : (r: Result<string, Failure>)
    ensures ParseAtom(Underscored, name).Some? ==> r == Ok("=" + PackageOf(ParseAtom(Underscored, name).value))
    ensures ParseAtom(Underscored, name).None? && |SourceDirectories(listing)| > 0 ==>
              r == Ok(owner(SourceDirectories(listing)[0]))
    ensures r.Err? <==> (|name| == 0 || !HeadChar(name[0])) && |SourceDirectories(listing)| == 0
  {
    match ParseAtom(Underscored, name)
    case Some(a) => Ok("=" + PackageOf(a))
    case None =>
      var sd := SourceDirectories(listing);
      if |sd| == 0 then Err(NoSourceDirectories) else Ok(owner(sd[0]))
  }

  /**
   * `directory_name`: the first directory, newest first, owned by
   * `package_name` without its `=`; none at all when no directory is.
   */
  function DirectoryName(name: string, listing: seq<string>, owner: string -> string): (r: Result<string, Failure>)
    ensures r.Ok? ==>
      PackageName(name, listing, owner).Ok? &&
      owner(r.value) == LStrip(PackageName(name, listing, owner).value, '=')
    ensures r.Ok? ==>
      exists i :: 0 <= i < |SourceDirectories(listing)| && SourceDirectories(listing)[i] == r.value &&
        forall j :: 0 <= j < i ==> owner(SourceDirectories(listing)[j]) != owner(r.value)
    ensures r.Err? ==> r.error == NoOwnedDirectory
  {
    var pn := PackageName(name, listing, owner);
    if pn.Err? then Err(NoOwnedDirectory)
    else FirstOwnedDirectory(SourceDirectories(listing), owner, LStrip(pn.value, '='))
  }

  /** The first of the directories `package` owns. */
  function FirstOwnedDirectory(sd: seq<string>, owner: string -> string, package: string): (r: Result<string, Failure>)
    ensures r.Ok? ==> owner(r.value) == package
    ensures r.Ok? ==>
      exists i :: 0 <= i < |sd| && sd[i] == r.value && forall j :: 0 <= j < i ==> owner(sd[j]) != owner(r.value)
    ensures r.Err? <==> forall i :: 0 <= i < |sd| ==> owner(sd[i]) != package
    ensures r.Err? ==> r.error == NoOwnedDirectory
  {
    var found := Sources.FirstOwned(sd, owner, package);
    if found.Some? then Ok(sd[found.value]) else Err(NoOwnedDirectory)
  }

  /** No directory comes back exactly when none is owned by the package. */
  lemma DirectoryNameFails(name: string, listing: seq<string>, owner: string -> string)
    ensures var sd, pn := SourceDirectories(listing), PackageName(name, listing, owner);
      DirectoryName(name, listing, owner).Err? <==>
        (pn.Err? || forall i :: 0 <= i < |sd| ==> owner(sd[i]) != LStrip(pn.value, '='))
  {
  }

  /** An unparsable name picks the newest directory when its owner has no leading `=`. */
  lemma UnparsedNameTakesNewest(name: string, listing: seq<string>, owner: string -> string)
    requires |name| == 0 || !HeadChar(name[0])
    requires |SourceDirectories(listing)| > 0
    requires var o := owner(SourceDirectories(listing)[0]); |o| == 0 || o[0] != '='
    ensures DirectoryName(name, listing, owner) == Ok(SourceDirectories(listing)[0])
  {
  }

  // Copying the configuration

  type Files = map<string, string>

  const Config := "/usr/src/linux/.config"
  const Backup := "/usr/src/linux/.config.bak"

  datatype CopyOutcome = CopyOutcome(files: Files, raised: bool)

  /** The `config-` files of `/boot`, one per key, newest first. */
  function ConfigurationFiles(boot: seq<string>): (r: seq<string>)
    ensures forall i :: 0 <= i < |r| ==> r[i] in boot && ConfigEntry(r[i])
    ensures |r| == 0 <==> forall f :: f in boot ==> !ConfigEntry(f)
  {
    Newest(boot, ConfigEntry)
  }

  /** The file `_copy_config` uses: the one given, else the newest `config-` file, else none. */
  function ConfigChoice(configuration: string, boot: seq<string>): (r: Option<string>)
    ensures |configuration| > 0 ==> r == Some(configuration)
    ensures |configuration| == 0 ==> (r.None? <==> forall f :: f in boot ==> !ConfigEntry(f))
    ensures |configuration| == 0 && r.Some? ==> r.value in boot && ConfigEntry(r.value)
  {
    if |configuration| > 0 then Some(configuration)
    else
      var cs := ConfigurationFiles(boot);
      if |cs| > 0 then Some(cs[0]) else None
  }

  /** Without a file given, the chosen one has the highest key, and is the last listed with it. */
  lemma ConfigChoiceNewest(boot: seq<string>)
    requires ConfigChoice("", boot).Some?
    ensures var c := ConfigChoice("", boot).value;
      (forall f :: f in boot && ConfigEntry(f) ==> LexLe(Keyify(f), Keyify(c))) &&
      LastAt(Filter(boot, ConfigEntry), Keyify, c)
  {
    var cs := ConfigurationFiles(boot);
    var c := ConfigChoice("", boot).value;
    assert c == cs[0];
    NewestCovers(boot, ConfigEntry);
    NewestDescending(boot, ConfigEntry);
    forall f | f in boot && ConfigEntry(f) ensures LexLe(Keyify(f), Keyify(c)) {
      var k :| 0 <= k < |cs| && Keyify(cs[k]) == Keyify(f);
      if k == 0 {
        LexReflexive(Keyify(f));
      }
    }
    NewestLast(boot, ConfigEntry);
  }

  /**
   * `_copy_config`: `.config` is copied to `.config.bak`, `/boot/<file>` is
   * copied over `.config`; on failure the backup is renamed back over
   * `.config` (which itself fails when there is no `.config` to remove), and
   * in every case a remaining backup is removed.
   */
  function CopyConfig(files: Files, configuration: string, boot: seq<string>): (r: CopyOutcome)
    ensures ConfigChoice(configuration, boot).None? ==> r == CopyOutcome(files, false)
    ensures ConfigChoice(configuration, boot).Some? ==> Backup !in r.files
    ensures r.raised ==> r.files == files - {Backup}
    ensures ConfigChoice(configuration, boot).Some? ==>
              var path := "/boot/" + ConfigChoice(configuration, boot).value;
              (r.raised <==> path !in files) &&
              (!r.raised ==> r.files == (files - {Backup})[Config := files[path]])
  {
    match ConfigChoice(configuration, boot)
    case None => CopyOutcome(files, false)
    case Some(c) =>
      var path := "/boot/" + c;
      assert path != Config && path != Backup by {
        assert path[1] == 'b' && Config[1] == 'u' && Backup[1] == 'u';
      }
      var saved := if Config in files then files[Backup := files[Config]] else files;
      if path in saved then
        CopyOutcome(saved[Config := saved[path]] - {Backup}, false)
      else
        var restored := if Backup in saved && Config in saved
          then (saved - {Config} - {Backup})[Config := saved[Backup]]
          else saved;
        assert restored - {Backup} == files - {Backup};
        CopyOutcome(restored - {Backup}, true)
  }

  /** A failed copy leaves `.config` as it was, whatever backup was lying around. */
  lemma FailedCopyKeepsConfig(files: Files, configuration: string, boot: seq<string>)
    requires CopyConfig(files, configuration, boot).raised
    ensures var out := CopyConfig(files, configuration, boot).files;
      (Config in out <==> Config in files) && (Config in files ==> out[Config] == files[Config])
  {
  }
}

=== FILE: legacy_kernel.dfy ===
/**
 * The kernel class of the single-file snapshot, kernel.py: its names, the
 * check for downloaded sources, the configurator whitelist and the
 * commands `configure` runs, the `MAKEOPTS` value read from make.conf, and
 * the output redirection `build` appends to its commands.
 */
module LegacyKernel {
  import opened Results
  import opened Text
  import opened NameGrammar
  import KernelPackage

  /** The exceptions the class raises. */
  datatype Failure =
    | SourcesMasked(sourceType: string)     // KernelException("Sources are masked!")
    | UndefinedName                         // the "not in portage" branch reads an unset `match`
    | NoMatch                               // KernelException("Kernel did not match any in portage!")
    | ConfiguratorNotSupported(name: string) // KernelException("Configurator not supported!")
    | NoMakeOpts                            // `match.group` on a failed match

  /**
   * `__get_kernel_names`: the package to download and the source
   * directory.  Without `/usr/src/` (`haveUsrSrc` false) the property is
   * `None`, here `Ok(None)`.  The validation is that of the first snapshot;
   * only the errors differ.
   */
  function KernelNames(name: string, haveUsrSrc: bool, searchOutput: seq<string>, sources: string)
    : (r: Result<Option<(string, string)>, Failure>)
    ensures !haveUsrSrc ==> r == Ok(None)
    ensures haveUsrSrc ==> (r == Err(NoMatch) <==> ParseName(name).None?)
    ensures haveUsrSrc ==> (r.Ok? <==>
      (ParseName(name).Some? &&
       (ParseName(name).value.sourceType.None? ||
        ParseName(name).value.sourceType.value in Collect(searchOutput).stable)))
    ensures r.Ok? ==> (r.value.Some? <==> haveUsrSrc)
    ensures r.Err? && r.error.SourcesMasked? ==>
      r.error.sourceType in Collect(searchOutput).full && r.error.sourceType !in Collect(searchOutput).stable
    ensures r == Err(UndefinedName) ==>
      ParseName(name).Some? && ParseName(name).value.sourceType.Some? &&
      ParseName(name).value.sourceType.value !in Collect(searchOutput).full
  {
    if !haveUsrSrc then Ok(None)
    else
      match ParseName(name)
      case None => Err(NoMatch)
      case Some(sp) =>
        var verdict :=
          if sp.sourceType.Some? && sp.sourceType.value != "" then OfferOf(sp.sourceType.value, Collect(searchOutput))
          else Stable;
        match verdict
        case Stable => Ok(Some((DownloadName(sp, sources), DirectoryName(sp, sources))))
        case Masked => Err(SourcesMasked(sp.sourceType.value))
        case Unknown => Err(UndefinedName)
  }

  /**
   * The two snapshots accept the same names, settle on the same names, and
   * refuse the others for the same reasons; both leave everything unset
   * without `/usr/src/`.
   */
  lemma SnapshotsAgree(name: string, haveUsrSrc: bool, searchOutput: seq<string>, sources: string)
    ensures var legacy := KernelNames(name, haveUsrSrc, searchOutput, sources);
      var first := KernelPackage.SetKernelName(name, haveUsrSrc, searchOutput, sources);
      (legacy.Ok? <==> first.Ok?) &&
      (legacy.Ok? ==> (legacy.value.Some? <==> first.value.Some?)) &&
      (legacy.Ok? && legacy.value.Some? ==>
         legacy.value.value == (first.value.value.download, first.value.value.directory)) &&
      (legacy == Err(NoMatch) <==> first == Err(KernelPackage.BadKernel)) &&
      (legacy == Err(UndefinedName) <==> first.Err? && first.error.BogusSourceType?) &&
      (legacy.Err? && legacy.error.SourcesMasked? <==> first.Err? && first.error.BadSourceType?)
  {
  }

  /**
   * `^(\..+)|(snort_dynamicsrc)$`: a dot with one more character that is
   * not a newline (the first branch has no `$`), or `snort_dynamicsrc`
   * with at most a final newline.
   */
  predicate Ignored(d: string)
  {
    (|d| >= 2 && d[0] == '.' && d[1] != '\n') || d == "snort_dynamicsrc" || d == "snort_dynamicsrc\n"
  }

  /** The loop of `__are_sources_downloaded`, over the entries in any order. */
  function Downloaded(name: string, ds: seq<string>): (r: bool)
    decreases |ds|
  {
    if |ds| == 0 then false
    else if !Ignored(ds[0]) && name == ds[0] then true
    else Downloaded(name, ds[1..])
  }

  /** The sources are downloaded exactly when the name is an entry that is not ignored. */
  lemma {:induction false} DownloadedIff(name: string, ds: seq<string>)
    ensures Downloaded(name, ds) <==> name in ds && !Ignored(name)
    decreases |ds|
  {
    if |ds| > 0 {
      DownloadedIff(name, ds[1..]);
      assert ds == [ds[0]] + ds[1..];
    }
  }

  /** A hidden directory or the snort sources never count, whatever the name. */
  lemma IgnoredNeverDownloaded(name: string, ds: seq<string>)
    requires Ignored(name)
    ensures !Downloaded(name, ds)
  {
    DownloadedIff(name, ds);
  }

  /** The ten configurators `configure` accepts. */
  predicate Configurator(c: string)
  {
    c == "menuconfig" || c == "xconfig" || c == "gconfig" || c == "oldconfig" ||
    c == "silentoldconfig" || c == "defconfig" || c == "allyesconfig" ||
    c == "allmodconfig" || c == "allnoconfig" || c == "randconfig"
  }

  /** The configurators `make -s` runs: they talk to the user or need no output. */
  predicate Quiet(c: string)
  {
    c == "menuconfig" || c == "oldconfig" || c == "silentoldconfig"
  }

  /** `^(...)$` over a name list: the name, with at most one final newline. */
  predicate Anchored(c: string, names: string -> bool)
  {
    names(c) || (|c| > 0 && c[|c| - 1] == '\n' && names(c[..|c| - 1]))
  }

  /** The redirection `build` appends to its make commands, by verbosity. */
  function Redirect(verbosity: int): (r: string)
    ensures verbosity > 2 <==> r == ""
    ensures r != "" ==> |r| >= 10 && r[..10] == ">/dev/null"
    ensures verbosity <= 0 <==> |r| > 10
  {
    if verbosity > 2 then ""
    else if verbosity == 1 || verbosity == 2 then ">/dev/null"
    else ">/dev/null 2>/dev/null"
  }

  /** Lower verbosity only adds redirections: the louder setting's redirection is a prefix. */
  lemma RedirectMonotone(quiet: int, loud: int)
    requires quiet <= loud
    ensures Redirect(loud) <= Redirect(quiet)
  {
    if loud <= 2 && quiet <= 0 && loud >= 1 {
      assert Redirect(quiet) == Redirect(loud) + " 2>/dev/null";
    }
  }

  /**
   * `configure`: the make command for the configurator, an empty one
   * meaning `menuconfig`.
   */
  function Configure(configurator: string, makeOpts: string, verbosity: int): (r: Result<string, Failure>)
    ensures var c := if |configurator| <= 0 then "menuconfig" else configurator;
      (r.Ok? <==> Anchored(c, Configurator)) &&
      (r.Err? ==> r.error == ConfiguratorNotSupported(c)) &&
      (r.Ok? && Anchored(c, Quiet) && verbosity <= 2 ==>
         r.value == "make -s " + makeOpts + " " + c + (if verbosity <= 0 then " 2>/dev/null" else "")) &&
      (r.Ok? && (!Anchored(c, Quiet) || verbosity > 2) ==>
         r.value == "make " + makeOpts + " " + c + Redirect(verbosity))
  {
    var c := if |configurator| <= 0 then "menuconfig" else configurator;
    var quiet := Anchored(c, Quiet);
    if !Anchored(c, Configurator) then Err(ConfiguratorNotSupported(c))
    else if verbosity <= 0 then
      if quiet then Ok("make -s " + makeOpts + " " + c + " 2>/dev/null")
      else Ok("make " + makeOpts + " " + c + ">/dev/null 2>/dev/null")
    else if verbosity == 1 || verbosity == 2 then
      if quiet then Ok("make -s " + makeOpts + " " + c)
      else Ok("make " + makeOpts + " " + c + ">/dev/null")
    else Ok("make " + makeOpts + " " + c)
  }

  /** With no configurator the user gets `menuconfig`, silenced by `-s` unless the output is wanted. */
  lemma DefaultConfigurator(makeOpts: string, verbosity: int)
    requires verbosity <= 2
    ensures Configure("", makeOpts, verbosity).Ok?
    ensures Configure("", makeOpts, verbosity).value[..8] == "make -s "
  {
  }

  /**
   * The lazy `(.+?)"$` after `MAKEOPTS="`, trying `l` characters: the
   * shortest run without a newline that a closing quote and the end of the
   * line follow.
   */
  function LazyOpts(s: string, l: nat): (r: Option<string>)
    requires 1 <= l && l - 1 <= |s| && Lacks(s[..l - 1], '\n')
    ensures r.Some? ==>
      (0 < |r.value| < |s| && s[..|r.value|] == r.value && s[|r.value|] == '"' &&
       AtEnd(s[|r.value| + 1..]) && Lacks(r.value, '\n'))
    decreases |s| - l
  {
    if l > |s| || s[l - 1] == '\n' then None
    else if l < |s| && s[l] == '"' && AtEnd(s[l + 1..]) then Some(s[..l])
    else LazyOpts(s, l + 1)
  }

  /** The run ends at the last quote of the line, whatever quotes come before it. */
  lemma {:induction false} LazyOptsReads(s: string, l: nat, v: string, tail: string)
    requires s == v + "\"" + tail && AtEnd(tail)
    requires 1 <= l <= |v| && Lacks(v, '\n')
    ensures Lacks(s[..l - 1], '\n') && LazyOpts(s, l) == Some(v)
    decreases |v| - l
  {
    assert s[..l - 1] == v[..l - 1];
    assert s[l - 1] == v[l - 1];
    if l < |v| {
      assert s[l + 1..][|v| - l - 1] == '"';
      LazyOptsReads(s, l + 1, v, tail);
    } else {
      assert s[l + 1..] == tail;
      assert s[..l] == v;
    }
  }

  /**
   * `__get_make_opts`: the first line fgrep finds in make.conf.  No line
   * gives `""`; a line that is not `MAKEOPTS="<value>"` raises.
   */
  function MakeOpts(output: string): (r: Result<string, Failure>)
    ensures |output| == 0 ==> r == Ok("")
    ensures |output| > 0 && r.Ok? ==>
      |r.value| > 0 && Lacks(r.value, '\n') &&
      (output == "MAKEOPTS=\"" + r.value + "\"" || output == "MAKEOPTS=\"" + r.value + "\"\n")
    ensures |output| > 0 && r.Err? ==> r.error == NoMakeOpts
  {
    if |output| == 0 then Ok("")
    else if |output| < 10 || output[..10] != "MAKEOPTS=\"" then Err(NoMakeOpts)
    else
      var s := output[10..];
      assert output == output[..10] + s;
      match LazyOpts(s, 1)
      case Some(v) =>
        assert s == v + "\"" + s[|v| + 1..];
        Ok(v)
      case None => Err(NoMakeOpts)
  }

  /** The line make.conf holds for a value reads back as that value. */
  lemma MakeOptsReadsBack(v: string, tail: string)
    requires |v| > 0 && Lacks(v, '\n') && AtEnd(tail)
    ensures MakeOpts("MAKEOPTS=\"" + v + "\"" + tail) == Ok(v)
  {
    var output := "MAKEOPTS=\"" + v + "\"" + tail;
    var s := v + "\"" + tail;
    assert output[..10] == "MAKEOPTS=\"" && output[10..] == s;
    LazyOptsReads(s, 1, v, tail);
  }
}

=== FILE: lines.dfy ===
/**
 * Reading a text file line by line: Python's `readlines()` keeps each line's
 * terminating newline, and the bootloader code strips it again.
 */
module Lines {
  import opened Text

  /** The concatenation of a list of strings (`"".join(lines)`). */
  function Concat(lines: seq<string>): string
  {
    if |lines| == 0 then "" else lines[0] + Concat(lines[1..])
  }

  /** A line as `readlines()` yields it: not empty, a newline only at its end. */
  predicate IsLine(l: string)
  {
    |l| > 0 && forall i :: 0 <= i < |l| - 1 ==> l[i] != '\n'
  }

  /** A line that ends with its newline. */
  predicate Terminated(l: string)
  {
    |l| > 0 && l[|l| - 1] == '\n'
  }

  /** `readlines()` on a file whose contents are `s`. */
  function ReadLines(s: string): (r: seq<string>)
    ensures Concat(r) == s
    ensures forall i :: 0 <= i < |r| ==> IsLine(r[i])
    ensures forall i :: 0 <= i < |r| - 1 ==> Terminated(r[i])
    decreases |s|
  {
    if |s| == 0 then []
    else
      var k := IndexFrom(s, '\n', 0);
      if k == |s| then
        assert Concat([s]) == s + Concat([]);
        [s]
      else
        var rest := ReadLines(s[k + 1..]);
        assert s == s[..k + 1] + s[k + 1..];
        assert ([s[..k + 1]] + rest)[1..] == rest;
        [s[..k + 1]] + rest
  }

  /** `line.rstrip("\n")`: the line without its trailing newlines. */
  function RStripNewlines(line: string): (r: string)
    ensures r <= line
    ensures |r| == 0 || r[|r| - 1] != '\n'
    ensures forall i :: |r| <= i < |line| ==> line[i] == '\n'
    decreases |line|
  {
    if |line| > 0 && line[|line| - 1] == '\n' then RStripNewlines(line[..|line| - 1]) else line
  }

  /** Each line of a file with its newline removed. */
  function StrippedLines(s: string): (r: seq<string>)
    ensures |r| == |ReadLines(s)|
    ensures forall i :: 0 <= i < |r| ==> r[i] == RStripNewlines(ReadLines(s)[i]) && Lacks(r[i], '\n')
  {
    var ls := ReadLines(s);
    seq(|ls|, i requires 0 <= i < |ls| => RStripNewlines(ls[i]))
  }

  /**
   * Writing lines joined by newlines and reading them back gives the same
   * lines, provided none contains a newline and the last is not empty (an
   * empty last line leaves no trace in the file).
   */
  lemma {:induction false} StrippedLinesJoin(ls: seq<string>)
    requires forall i :: 0 <= i < |ls| ==> Lacks(ls[i], '\n')
    requires |ls| == 0 || |ls[|ls| - 1]| > 0
    ensures StrippedLines(Join("\n", ls)) == ls
  {
    ReadLinesJoin(ls);
    var read := ReadLines(Join("\n", ls));
    var r := StrippedLines(Join("\n", ls));
    forall i | 0 <= i < |ls|
      ensures r[i] == ls[i]
    {
      if i < |ls| - 1 {
        StripTerminated(ls[i]);
      } else {
        StripUnterminated(ls[i]);
      }
    }
  }

  lemma StripTerminated(l: string)
    requires Lacks(l, '\n')
    ensures RStripNewlines(l + "\n") == l
  {
    assert (l + "\n")[..|l|] == l;
    StripUnterminated(l);
  }

  lemma StripUnterminated(l: string)
    requires Lacks(l, '\n')
    ensures RStripNewlines(l) == l
  {
  }

  /** The lines `readlines()` returns for the newline-joined `ls`. */
  lemma {:induction false} ReadLinesJoin(ls: seq<string>)
    requires forall i :: 0 <= i < |ls| ==> Lacks(ls[i], '\n')
    requires |ls| == 0 || |ls[|ls| - 1]| > 0
    ensures |ReadLines(Join("\n", ls))| == |ls|
    ensures forall i :: 0 <= i < |ls| - 1 ==> ReadLines(Join("\n", ls))[i] == ls[i] + "\n"
    ensures |ls| > 0 ==> ReadLines(Join("\n", ls))[|ls| - 1] == ls[|ls| - 1]
    decreases |ls|
  {
    if |ls| == 1 {
      assert IndexFrom(ls[0], '\n', 0) == |ls[0]|;
    } else if |ls| > 1 {
      var a := ls[0];
      var tail := Join("\n", ls[1..]);
      var s := Join("\n", ls);
      assert s == a + "\n" + tail;
      IndexOfFirstNewline(a, tail);
      assert s[..|a| + 1] == a + "\n";
      assert s[|a| + 1..] == tail;
      ReadLinesJoin(ls[1..]);
    }
  }

  lemma IndexOfFirstNewline(a: string, tail: string)
    requires Lacks(a, '\n')
    ensures IndexFrom(a + "\n" + tail, '\n', 0) == |a|
  {
    var s := a + "\n" + tail;
    assert s[|a|] == '\n';
    assert forall k :: 0 <= k < |a| ==> s[k] == a[k];
  }

  /** Lines that all but the last end in a newline are what reading their text gives. */
  lemma {:induction false} ReadLinesConcat(ls: seq<string>)
    requires forall i :: 0 <= i < |ls| ==> IsLine(ls[i])
    requires forall i :: 0 <= i < |ls| - 1 ==> Terminated(ls[i])
    ensures ReadLines(Concat(ls)) == ls
    decreases |ls|
  {
    if |ls| > 0 {
      var l := ls[0];
      var rest := Concat(ls[1..]);
      var c := l + rest;
      ReadLinesConcat(ls[1..]);
      assert forall i :: 0 <= i < |l| - 1 ==> c[i] == l[i];
      if |ls| == 1 {
        assert rest == "" && c == l;
        if l[|l| - 1] == '\n' {
          assert IndexFrom(c, '\n', 0) == |l| - 1;
          assert c[..|l|] == l && c[|l|..] == "";
        } else {
          assert IndexFrom(c, '\n', 0) == |c|;
        }
      } else {
        assert c[|l| - 1] == '\n';
        assert IndexFrom(c, '\n', 0) == |l| - 1;
        assert c[..|l|] == l && c[|l|..] == rest;
      }
      assert ls == [l] + ls[1..];
    }
  }
}

=== FILE: listing.dfy ===
/**
 * Directory listings of `/usr/src` and `/boot` and the name patterns the
 * resolvers filter them with.  A listing is the sequence `os.listdir`
 * returns; its order is whatever the filesystem gives.
 */
module Listing {
  import opened Text

  /**
   * `re.match(r'linux-.+$', d)`: `linux-`, then at least one character
   * other than a newline up to the end; `$` also accepts one final newline.
   */
  predicate LinuxEntry(d: string)
  {
    var rest := if |d| > 0 && d[|d| - 1] == '\n' then d[..|d| - 1] else d;
    |rest| > 6 && rest[..6] == "linux-" && Lacks(rest[6..], '\n')
  }

  /** `re.match('config-.+', f)`: `config-` and one more character that is not a newline. */
  predicate ConfigEntry(f: string)
  {
    |f| > 7 && f[..7] == "config-" && f[7] != '\n'
  }

  /**
   * `re.match('^\..+$', d)`: a dot and at least one more character, none a
   * newline except possibly a final one.  A lone `.` does not match.
   */
  predicate Hidden(d: string)
  {
    var rest := if |d| > 0 && d[|d| - 1] == '\n' then d[..|d| - 1] else d;
    |rest| > 1 && rest[0] == '.' && Lacks(rest[1..], '\n')
  }

  /** The list comprehension `[ x for x in s if p(x) ]`. */
  function Filter<T(!new)>(s: seq<T>, p: T -> bool): (r: seq<T>)
    ensures |r| <= |s|
    ensures forall i :: 0 <= i < |r| ==> p(r[i])
    ensures forall x :: x in r <==> x in s && p(x)
    ensures multiset(r) <= multiset(s)
  {
    if |s| == 0 then []
    else
      var rest := Filter(s[1..], p);
      assert s == [s[0]] + s[1..];
      if p(s[0]) then [s[0]] + rest else rest
  }

  /** Filtering keeps everything that passes and only that, in order. */
  lemma {:induction false} FilterKeepsAll<T(!new)>(s: seq<T>, p: T -> bool)
    requires forall i :: 0 <= i < |s| ==> p(s[i])
    ensures Filter(s, p) == s
    decreases |s|
  {
    if |s| > 0 {
      FilterKeepsAll(s[1..], p);
    }
  }

  /** Filtering distributes over concatenation, so relative order is kept. */
  lemma {:induction false} FilterConcat<T(!new)>(a: seq<T>, b: seq<T>, p: T -> bool)
    ensures Filter(a + b, p) == Filter(a, p) + Filter(b, p)
    decreases |a|
  {
    if |a| > 0 {
      assert (a + b)[1..] == a[1..] + b;
      FilterConcat(a[1..], b, p);
    } else {
      assert a + b == b;
    }
  }

  /** A `linux-` directory name as the sources ebuilds install them. */
  lemma LinuxDirectoryMatches(rest: string)
    requires |rest| > 0 && Lacks(rest, '\n')
    ensures LinuxEntry("linux-" + rest)
  {
    var d := "linux-" + rest;
    assert d[6..] == rest;
    assert d[..6] == "linux-";
  }

  /** A `config-` file name as `make install` leaves them in `/boot`. */
  lemma ConfigFileMatches(rest: string)
    requires |rest| > 0 && rest[0] != '\n'
    ensures ConfigEntry("config-" + rest)
  {
    var f := "config-" + rest;
    assert f[..7] == "config-";
    assert f[7] == rest[0];
  }

  /** Neither pattern accepts its bare prefix. */
  lemma BarePrefixesRejected()
    ensures !LinuxEntry("linux-") && !LinuxEntry("linux-\n")
    ensures !ConfigEntry("config-")
  {
    assert "linux-\n"[..6] == "linux-";
  }
}

=== FILE: name_grammar.dfy ===
/**
 * The kernel-name grammar of the two oldest snapshots (kernel/__init__.py
 * and kernel.py), which share it word for word: a name is either
 * `<version>[-<type>][-rN]` or `[<type>-][sources-]<version>[-rN]`, the
 * version being exactly three dot-separated digit groups.  Both regular
 * expressions are anchored at both ends; `$` also accepts one final
 * newline.  The matchers below try the alternatives in the order Python's
 * backtracking engine does, so lazy groups take the shortest text that
 * lets the rest match.
 */
module NameGrammar {
  import opened Results
  import opened Text

  /** What a kernel name denotes: the source type, the version and the release (`-rN`). */
  datatype Spec = Spec(sourceType: Option<string>, version: string, release: Option<string>)

  /** `$`: nothing left, or only a final newline. */
  predicate AtEnd(s: string) { s == "" || s == "\n" }

  /** `-r\d+$` matches at the start of `s`. */
  predicate IsRelease(s: string)
  {
    |s| > 2 && s[..2] == "-r" && DigitRun(s[2..]) > 0 && AtEnd(s[2 + DigitRun(s[2..])..])
  }

  /** The text of the release group: `s` without the newline `$` accepts. */
  function ReleaseGroup(s: string): (r: string)
    requires IsRelease(s)
    ensures |r| > 2 && r[..2] == "-r" && AllDigits(r[2..]) && r <= s
  {
    DigitRunDigits(s[2..]);
    assert forall i :: 2 <= i < 2 + DigitRun(s[2..]) ==> s[i] == s[2..][i - 2];
    s[..2 + DigitRun(s[2..])]
  }

  /** `(\d+\.){2}\d+` at the start of `s`: how much of `s` it covers. */
  function VersionLength(s: string): (r: Option<nat>)
    ensures r.Some? ==> 5 <= r.value <= |s|
    ensures r.Some? ==> r.value == |s| || !IsDigit(s[r.value])
  {
    var a := DigitEnd(s, 0);
    if a == 0 || a == |s| || s[a] != '.' then None
    else
      var b := DigitEnd(s, a + 1);
      if b == a + 1 || b == |s| || s[b] != '.' then None
      else
        var c := DigitEnd(s, b + 1);
        if c == b + 1 then None else Some(c)
  }

  /** `<version>(-r\d+)?$`: the version and the release at the start of `t`. */
  function VersionTail(t: string): (r: Option<(string, Option<string>)>)
  {
    match VersionLength(t)
    case None => None
    case Some(n) =>
      var rest := t[n..];
      if IsRelease(rest) then Some((t[..n], Some(ReleaseGroup(rest))))
      else if AtEnd(rest) then Some((t[..n], None))
      else None
  }

  /**
   * `(-(?P<sourceType>.+?))?(?P<release>-r\d+)?$` after the version, with
   * the lazy type `rest[1..l + 1]` tried first and longer ones after it.
   */
  function LazyType(rest: string, l: nat): (r: Option<(string, Option<string>)>)
    requires l >= 1
    ensures r.Some? ==> |r.value.0| > 0
    decreases |rest| - l
  {
    if |rest| == 0 || rest[0] != '-' || l >= |rest| || rest[l] == '\n' then None
    else
      var after := rest[l + 1..];
      if IsRelease(after) then Some((rest[1..l + 1], Some(ReleaseGroup(after))))
      else if AtEnd(after) then Some((rest[1..l + 1], None))
      else LazyType(rest, l + 1)
  }

  /** The first expression, `^<version>(-<type>)?(-r\d+)?$`. */
  function KernelForm(s: string): (r: Option<Spec>)
  {
    match VersionLength(s)
    case None => None
    case Some(n) =>
      var rest := s[n..];
      match LazyType(rest, 1)
      case Some(tr) => Some(Spec(Some(tr.0), s[..n], tr.1))
      case None =>
        if IsRelease(rest) then Some(Spec(None, s[..n], Some(ReleaseGroup(rest))))
        else if AtEnd(rest) then Some(Spec(None, s[..n], None))
        else None
  }

  /** `(sources-)?<version>(-r\d+)?$` after an optional type; `sources-` is tried first. */
  function Unprefixed(t: Option<string>, s: string): (r: Option<Spec>)
    ensures r.Some? ==> r.value.sourceType == t
  {
    if |s| >= 8 && s[..8] == "sources-" && VersionTail(s[8..]).Some? then
      var v := VersionTail(s[8..]).value;
      Some(Spec(t, v.0, v.1))
    else
      match VersionTail(s)
      case Some(v) => Some(Spec(t, v.0, v.1))
      case None => None
  }

  /** `((?P<sourceType>.+?)-)?…` with the lazy type `s[..l]` tried first and longer ones after it. */
  function LazyPrefix(s: string, l: nat): (r: Option<Spec>)
    requires l >= 1
    ensures r.Some? ==> r.value.sourceType.Some? && |r.value.sourceType.value| > 0
    decreases |s| - l
  {
    if l >= |s| || s[l - 1] == '\n' then None
    else if s[l] == '-' && Unprefixed(Some(s[..l]), s[l + 1..]).Some? then Unprefixed(Some(s[..l]), s[l + 1..])
    else LazyPrefix(s, l + 1)
  }

  /** The second expression, `^(<type>-)?(sources-)?<version>(-r\d+)?$`. */
  function PackageForm(s: string): (r: Option<Spec>)
  {
    match LazyPrefix(s, 1)
    case Some(sp) => Some(sp)
    case None => Unprefixed(None, s)
  }

  /** `kernelExpression.match(name) or packageExpression.match(name)`. */
  function ParseName(s: string): (r: Option<Spec>)
    ensures r.Some? && r.value.sourceType.Some? ==> |r.value.sourceType.value| > 0
  {
    match KernelForm(s)
    case Some(sp) => Some(sp)
    case None => PackageForm(s)
  }

  // What the names are built from

  /** The flavor: the parsed type, else the constructor's `sources`, else gentoo. */
  function Flavor(sp: Spec, sources: string): (r: string)
    ensures |r| > 0 || (sp.sourceType.Some? && sp.sourceType.value == "")
    ensures sp.sourceType.Some? ==> r == sp.sourceType.value
    ensures sp.sourceType.None? && sources != "" ==> r == sources
  {
    if sp.sourceType.Some? then sp.sourceType.value
    else if sources != "" then sources
    else "gentoo"
  }

  /** The Portage name: `<flavor>-sources-<version>[-rN]`. */
  function DownloadName(sp: Spec, sources: string): string
  {
    Flavor(sp, sources) + "-sources-" + sp.version + sp.release.GetOr("")
  }

  /** The directory name: `linux-<version>-<flavor>[-rN]`. */
  function DirectoryName(sp: Spec, sources: string): string
  {
    "linux-" + sp.version + "-" + Flavor(sp, sources) + sp.release.GetOr("")
  }

  // Reading back the names the grammar is meant for

  /** A version as the grammar wants it: three digit groups joined by dots. */
  predicate IsVersion(v: string, a: string, b: string, c: string)
  {
    |a| > 0 && |b| > 0 && |c| > 0 && AllDigits(a) && AllDigits(b) && AllDigits(c) &&
    v == a + "." + b + "." + c
  }

  /** A release as the grammar wants it: `-r` and digits, or nothing. */
  predicate IsReleaseText(rel: string)
  {
    rel == "" || (|rel| > 2 && rel[..2] == "-r" && AllDigits(rel[2..]))
  }

  function ReleaseOf(rel: string): Option<string>
  {
    if rel == "" then None else Some(rel)
  }

  /** The version grammar covers exactly the three groups when no digit follows. */
  lemma VersionLengthOf(v: string, a: string, b: string, c: string, rest: string)
    requires IsVersion(v, a, b, c)
    requires |rest| == 0 || !IsDigit(rest[0])
    ensures VersionLength(v + rest) == Some(|v|)
  {
    VersionSplit(v + rest, a, b, c, rest);
  }

  /** The version groups laid out in `s`, each run ending where the grammar wants it. */
  lemma VersionSplit(s: string, a: string, b: string, c: string, rest: string)
    requires |a| > 0 && |b| > 0 && |c| > 0 && AllDigits(a) && AllDigits(b) && AllDigits(c)
    requires |rest| == 0 || !IsDigit(rest[0])
    requires s == a + "." + b + "." + c + rest
    ensures VersionLength(s) == Some(|a| + |b| + 2 + |c|)
  {
    var i := |a|;
    var j := i + 1 + |b|;
    var k := j + 1 + |c|;
    assert forall n :: 0 <= n < i ==> s[n] == a[n];
    assert s[i] == '.';
    assert forall n :: i < n < j ==> s[n] == b[n - i - 1];
    assert s[j] == '.';
    assert forall n :: j < n < k ==> s[n] == c[n - j - 1];
    assert k < |s| ==> s[k] == rest[0];
    DigitEndAt(s, 0, i);
    DigitEndAt(s, i + 1, j);
    DigitEndAt(s, j + 1, k);
  }

  /** A release text is read back as the release. */
  lemma ReleaseOfText(rel: string)
    requires IsReleaseText(rel) && rel != ""
    ensures IsRelease(rel) && ReleaseGroup(rel) == rel
  {
    DigitRunOf(rel[2..], "");
    assert rel[2..] + "" == rel[2..];
  }

  /** What follows the version is read as the release, or as the end. */
  lemma TailOf(v: string, a: string, b: string, c: string, rel: string)
    requires IsVersion(v, a, b, c) && IsReleaseText(rel)
    ensures VersionTail(v + rel) == Some((v, ReleaseOf(rel)))
  {
    VersionLengthOf(v, a, b, c, rel);
    assert (v + rel)[|v|..] == rel;
    assert (v + rel)[..|v|] == v;
    if rel != "" {
      ReleaseOfText(rel);
    }
  }

  /** A type without dashes is read whole, up to the release or the end. */
  lemma {:induction false} LazyTypeReads(rest: string, l: nat, t: string, rel: string)
    requires rest == "-" + t + rel && 1 <= l <= |t|
    requires Lacks(t, '-') && Lacks(t, '\n') && IsReleaseText(rel)
    ensures LazyType(rest, l) == Some((t, ReleaseOf(rel)))
    decreases |t| - l
  {
    if l < |t| {
      LazyTypeStep(rest, l, t, rel);
      LazyTypeReads(rest, l + 1, t, rel);
    } else {
      LazyTypeLast(rest, t, rel);
    }
  }

  /** A shorter type leaves a dash-free, newline-free text that is neither a release nor the end. */
  lemma LazyTypeStep(rest: string, l: nat, t: string, rel: string)
    requires rest == "-" + t + rel && 1 <= l < |t|
    requires Lacks(t, '-') && Lacks(t, '\n')
    ensures LazyType(rest, l) == LazyType(rest, l + 1)
  {
    assert rest[l] == t[l - 1];
    assert rest[l + 1..][0] == t[l];
  }

  /** The whole type leaves the release text, or nothing. */
  lemma LazyTypeLast(rest: string, t: string, rel: string)
    requires rest == "-" + t + rel && 1 <= |t|
    requires Lacks(t, '\n') && IsReleaseText(rel)
    ensures LazyType(rest, |t|) == Some((t, ReleaseOf(rel)))
  {
    var l := |t|;
    assert rest[l] == t[l - 1];
    assert rest[l + 1..] == rel;
    assert rest[1..l + 1] == t;
    if rel != "" {
      ReleaseOfText(rel);
    }
  }

  /** `<version>-<type>[-rN]` is read as the kernel form. */
  lemma KernelStyle(v: string, a: string, b: string, c: string, t: string, rel: string)
    requires IsVersion(v, a, b, c) && IsReleaseText(rel)
    requires |t| > 0 && Lacks(t, '-') && Lacks(t, '\n')
    ensures ParseName(v + "-" + t + rel) == Some(Spec(Some(t), v, ReleaseOf(rel)))
  {
    var rest := "-" + t + rel;
    var s := v + rest;
    assert v + "-" + t + rel == s;
    VersionLengthOf(v, a, b, c, rest);
    assert s[|v|..] == rest && s[..|v|] == v;
    LazyTypeReads(rest, 1, t, rel);
  }

  /** `<version>` alone is read with neither type nor release. */
  lemma BareVersion(v: string, a: string, b: string, c: string)
    requires IsVersion(v, a, b, c)
    ensures ParseName(v) == Some(Spec(None, v, None))
  {
    VersionLengthOf(v, a, b, c, "");
    assert v + "" == v;
  }

  /**
   * `<version>-rN` is read as a version with the type `rN` and no release:
   * the optional type group is tried before the release group, and its lazy
   * `.+?` reaches the end of the name before giving up.
   */
  lemma ReleaseReadAsType(v: string, a: string, b: string, c: string, n: string)
    requires IsVersion(v, a, b, c) && |n| > 0 && AllDigits(n)
    ensures ParseName(v + "-r" + n) == Some(Spec(Some("r" + n), v, None))
  {
    var t := "r" + n;
    assert Lacks(t, '-') && Lacks(t, '\n') by {
      forall i | 0 <= i < |t| ensures t[i] != '-' && t[i] != '\n' {
        if i > 0 {
          assert t[i] == n[i - 1];
        }
      }
    }
    KernelStyle(v, a, b, c, t, "");
    assert v + "-" + t + "" == v + "-r" + n;
  }

  /** A dash-free type in front of `-` is read whole when what follows parses. */
  lemma {:induction false} LazyPrefixReads(s: string, l: nat, t: string, tail: string)
    requires s == t + "-" + tail && 1 <= l <= |t|
    requires Lacks(t, '-') && Lacks(t, '\n') && Unprefixed(Some(t), tail).Some?
    ensures LazyPrefix(s, l) == Unprefixed(Some(t), tail)
    decreases |t| - l
  {
    assert s[l - 1] == t[l - 1];
    if l < |t| {
      assert s[l] == t[l];
      LazyPrefixReads(s, l + 1, t, tail);
    } else {
      assert s[..l] == t && s[l + 1..] == tail;
    }
  }

  /** `<type>-sources-<version>[-rN]`, the Portage name, is read as the package form. */
  lemma PackageStyle(t: string, v: string, a: string, b: string, c: string, rel: string)
    requires IsVersion(v, a, b, c) && IsReleaseText(rel)
    requires |t| > 0 && Lacks(t, '-') && Lacks(t, '\n') && !IsDigit(t[0])
    ensures ParseName(t + "-sources-" + v + rel) == Some(Spec(Some(t), v, ReleaseOf(rel)))
  {
    var tail := "sources-" + (v + rel);
    var s := t + "-" + tail;
    assert t + "-sources-" + v + rel == s;
    assert DigitEnd(s, 0) == 0 by {
      assert s[0] == t[0];
    }
    assert KernelForm(s).None?;
    TailOf(v, a, b, c, rel);
    assert tail[8..] == v + rel;
    assert Unprefixed(Some(t), tail) == Some(Spec(Some(t), v, ReleaseOf(rel)));
    LazyPrefixReads(s, 1, t, tail);
  }

  /** The Portage name built from a parsed name reads back as the same name. */
  lemma DownloadNameReadsBack(t: string, v: string, a: string, b: string, c: string, rel: string, sources: string)
    requires IsVersion(v, a, b, c) && IsReleaseText(rel)
    requires |t| > 0 && Lacks(t, '-') && Lacks(t, '\n') && !IsDigit(t[0])
    ensures var sp := Spec(Some(t), v, ReleaseOf(rel));
      ParseName(DownloadName(sp, sources)) == Some(sp)
  {
    var sp := Spec(Some(t), v, ReleaseOf(rel));
    assert sp.release.GetOr("") == rel;
    assert DownloadName(sp, sources) == t + "-sources-" + v + rel;
    PackageStyle(t, v, a, b, c, rel);
  }

  // The source types Portage offers

  /** Length of the leading run of non-blank characters (`\S+`). */
  function NonSpaceRun(s: string): (n: nat)
    ensures n <= |s|
    ensures forall i :: 0 <= i < n ==> !IsSpace(s[i])
    ensures n < |s| ==> IsSpace(s[n])
  {
    if |s| > 0 && !IsSpace(s[0]) then 1 + NonSpaceRun(s[1..]) else 0
  }

  /** The first expression over `emerge -s` output with its leading `.+` ending at `k`. */
  function StableAt(line: string, k: nat): (r: Option<string>)
    ensures r.Some? ==> |r.value| > 0 && NoSpace(r.value)
  {
    if k + 11 > |line| || line[k..k + 11] != "sys-kernel/" then None
    else
      var t := line[k + 11..];
      var n := NonSpaceRun(t);
      if n >= 9 && t[n - 8..n] == "-sources" && n < |t| && AllSpace(t[n..]) then Some(t[..n - 8])
      else None
  }

  /** The greedy `.+`: the longest prefix first, then shorter ones. */
  function StableFrom(line: string, k: nat): (r: Option<string>)
    ensures r.Some? ==> |r.value| > 0 && NoSpace(r.value)
    decreases k
  {
    if k == 0 then None
    else match StableAt(line, k)
      case Some(x) => Some(x)
      case None => StableFrom(line, k - 1)
  }

  /**
   * `^.+sys-kernel/(?P<sourceType>\S+)-sources\s+$`: the type of a line
   * naming a `-sources` package with nothing but blanks after it.
   */
  function StableType(line: string): (r: Option<string>)
    ensures r.Some? ==> |r.value| > 0 && NoSpace(r.value)
  {
    StableFrom(line, IndexFrom(line, '\n', 0))
  }

  /** `.+$`: at least one character, and no newline but a final one. */
  predicate DotsToEnd(u: string)
  {
    var j := IndexFrom(u, '\n', 0);
    j >= 1 && (j == |u| || j == |u| - 1)
  }

  /** The greedy `\S+` of the second expression, from `m` characters down. */
  function ListedRun(t: string, m: nat): (r: Option<string>)
    requires m <= |t|
    ensures r.Some? ==> |r.value| > 0 && r.value <= t
    decreases m
  {
    if m == 0 then None
    else if m + 8 <= |t| && t[m..m + 8] == "-sources" && DotsToEnd(t[m + 8..]) then Some(t[..m])
    else ListedRun(t, m - 1)
  }

  function ListedAt(line: string, k: nat): (r: Option<string>)
    ensures r.Some? ==> |r.value| > 0
  {
    if k + 11 > |line| || line[k..k + 11] != "sys-kernel/" then None
    else
      var t := line[k + 11..];
      ListedRun(t, NonSpaceRun(t))
  }

  function ListedFrom(line: string, k: nat): (r: Option<string>)
    ensures r.Some? ==> |r.value| > 0
    decreases k
  {
    if k == 0 then None
    else match ListedAt(line, k)
      case Some(x) => Some(x)
      case None => ListedFrom(line, k - 1)
  }

  /** `^.+sys-kernel/(?P<sourceType>\S+)-sources.+$`: any line naming a `-sources` package. */
  function ListedType(line: string): (r: Option<string>)
    ensures r.Some? ==> |r.value| > 0
  {
    ListedFrom(line, IndexFrom(line, '\n', 0))
  }

  /** The lists hold exactly the types the lines offer, each in the list its line belongs to. */
  lemma CollectMembers(lines: seq<string>)
    ensures forall x :: x in Collect(lines).stable <==>
      exists i :: 0 <= i < |lines| && StableType(lines[i]) == Some(x)
    ensures forall x :: x in Collect(lines).full <==>
      exists i :: 0 <= i < |lines| && LineType(lines[i]) == Some(x)
  {
    StableMembers(lines);
    FullMembers(lines);
  }

  lemma {:induction false} StableMembers(lines: seq<string>)
    ensures forall x :: x in Collect(lines).stable <==>
      exists i :: 0 <= i < |lines| && StableType(lines[i]) == Some(x)
    decreases |lines|
  {
    if |lines| > 0 {
      var t := lines[1..];
      StableMembers(t);
      forall x ensures x in Collect(lines).stable <==> exists i :: 0 <= i < |lines| && StableType(lines[i]) == Some(x) {
        if exists i :: 0 <= i < |t| && StableType(t[i]) == Some(x) {
          var i :| 0 <= i < |t| && StableType(t[i]) == Some(x);
          assert lines[i + 1] == t[i];
        }
        if exists i :: 0 <= i < |lines| && StableType(lines[i]) == Some(x) {
          var i :| 0 <= i < |lines| && StableType(lines[i]) == Some(x);
          if i > 0 {
            assert t[i - 1] == lines[i];
          }
        }
      }
    }
  }

  lemma {:induction false} FullMembers(lines: seq<string>)
    ensures forall x :: x in Collect(lines).full <==>
      exists i :: 0 <= i < |lines| && LineType(lines[i]) == Some(x)
    decreases |lines|
  {
    if |lines| > 0 {
      var t := lines[1..];
      FullMembers(t);
      forall x ensures x in Collect(lines).full <==> exists i :: 0 <= i < |lines| && LineType(lines[i]) == Some(x) {
        if exists i :: 0 <= i < |t| && LineType(t[i]) == Some(x) {
          var i :| 0 <= i < |t| && LineType(t[i]) == Some(x);
          assert lines[i + 1] == t[i];
        }
        if exists i :: 0 <= i < |lines| && LineType(lines[i]) == Some(x) {
          var i :| 0 <= i < |lines| && LineType(lines[i]) == Some(x);
          if i > 0 {
            assert t[i - 1] == lines[i];
          }
        }
      }
    }
  }


  lemma {:induction false} NonSpaceRunOf(w: string, rest: string)
    requires NoSpace(w)
    requires |rest| == 0 || IsSpace(rest[0])
    ensures NonSpaceRun(w + rest) == |w|
    decreases |w|
  {
    if |w| > 0 {
      assert (w + rest)[1..] == w[1..] + rest;
      NonSpaceRunOf(w[1..], rest);
    } else {
      assert w + rest == rest;
    }
  }

  /** A line whose only newline is its last character. */
  lemma FinalNewline(line: string)
    requires |line| > 0 && line[|line| - 1] == '\n'
    requires forall k :: 0 <= k < |line| - 1 ==> line[k] != '\n'
    ensures IndexFrom(line, '\n', 0) == |line| - 1
  {
  }

  /** Positions where no match starts do not change the outcome of the backtracking. */
  lemma {:induction false} StableSkips(line: string, k: nat, j: nat)
    requires j <= k
    requires forall m :: j < m <= k ==> StableAt(line, m).None?
    ensures StableFrom(line, k) == StableFrom(line, j)
    decreases k
  {
    if k > j {
      StableSkips(line, k - 1, j);
    }
  }

  lemma {:induction false} ListedSkips(line: string, k: nat, j: nat)
    requires j <= k
    requires forall m :: j < m <= k ==> ListedAt(line, m).None?
    ensures ListedFrom(line, k) == ListedFrom(line, j)
    decreases k
  {
    if k > j {
      ListedSkips(line, k - 1, j);
    }
  }

  /** No category starts past position `j` when no `/` follows it. */
  lemma NoCategoryAfter(line: string, j: nat)
    requires forall i :: j + 10 < i < |line| ==> line[i] != '/'
    ensures forall m :: j < m ==> StableAt(line, m).None? && ListedAt(line, m).None?
  {
    forall m | j < m ensures StableAt(line, m).None? && ListedAt(line, m).None? {
      if m + 11 <= |line| {
        assert line[m..m + 11][10] == line[m + 10];
      }
    }
  }

  /** The pieces of a line `p + "sys-kernel/" + w`. */
  lemma CategoryShape(p: string, w: string)
    ensures var line := p + "sys-kernel/" + w;
      line[|p|..|p| + 11] == "sys-kernel/" && line[|p| + 11..] == w &&
      (forall i :: 0 <= i < |p| ==> line[i] == p[i]) &&
      (forall i :: |p| + 11 <= i < |line| ==> line[i] == w[i - |p| - 11])
  {
  }

  /** With no `/` after the category, the backtracking reaches `p`'s end unchanged. */
  lemma ReachCategory(p: string, w: string)
    requires Lacks(w, '/')
    ensures var line := p + "sys-kernel/" + w;
      forall n :: |p| <= n ==> StableFrom(line, n) == StableFrom(line, |p|) && ListedFrom(line, n) == ListedFrom(line, |p|)
  {
    var line := p + "sys-kernel/" + w;
    CategoryShape(p, w);
    NoCategoryAfter(line, |p|);
    forall n | |p| <= n ensures StableFrom(line, n) == StableFrom(line, |p|) && ListedFrom(line, n) == ListedFrom(line, |p|) {
      StableSkips(line, n, |p|);
      ListedSkips(line, n, |p|);
    }
  }

  /** Where the category starts, the stable expression reads `t` exactly when only blanks follow `-sources`. */
  lemma StableAtCategory(p: string, t: string, x: string)
    requires |p| > 0 && |t| > 0 && NoSpace(t)
    requires |x| == 0 || IsSpace(x[0])
    ensures var line := p + "sys-kernel/" + (t + "-sources" + x);
      StableAt(line, |p|) == if |x| > 0 && AllSpace(x) then Some(t) else None
  {
    var u := t + "-sources";
    var w := u + x;
    CategoryShape(p, w);
    assert t + "-sources" + x == w;
    NonSpaceRunOf(u, x);
    assert w[|u| - 8..|u|] == "-sources";
    assert w[..|u| - 8] == t;
    assert w[|u|..] == x;
  }

  lemma LinesLackNewline(p: string, t: string, x: string)
    requires Lacks(p, '\n') && NoSpace(t) && Lacks(x, '\n')
    ensures var line := p + "sys-kernel/" + (t + "-sources" + x + "\n");
      IndexFrom(line, '\n', 0) == |line| - 1
  {
    var line := p + "sys-kernel/" + (t + "-sources" + x + "\n");
    var u := t + "-sources";
    assert line == p + "sys-kernel/" + u + x + "\n";
    forall i | 0 <= i < |line| - 1 ensures line[i] != '\n' {
      if i < |p| {
        assert line[i] == p[i];
      } else if i < |p| + 11 {
      } else if i < |p| + 11 + |t| {
        assert line[i] == t[i - |p| - 11];
      } else if i < |p| + 11 + |u| {
      } else {
        assert line[i] == x[i - |p| - 11 - |u|];
      }
    }
    FinalNewline(line);
  }

  lemma SuffixLacksSlash(t: string, x: string)
    requires Lacks(t, '/') && Lacks(x, '/')
    ensures Lacks(t + "-sources" + x + "\n", '/')
  {
    var w := t + "-sources" + x + "\n";
    forall i | 0 <= i < |w| ensures w[i] != '/' {
      if i < |t| {
        assert w[i] == t[i];
      } else if i < |t| + 8 {
      } else if i < |w| - 1 {
        assert w[i] == x[i - |t| - 8];
      }
    }
  }

  /**
   * An unmasked line of the search output, `<anything>sys-kernel/<type>-sources`
   * and the newline, offers `<type>` as a stable source type.
   */
  lemma StableLine(p: string, t: string)
    requires |p| > 0 && Lacks(p, '\n')
    requires |t| > 0 && NoSpace(t) && Lacks(t, '/')
    ensures StableType(p + "sys-kernel/" + t + "-sources\n") == Some(t)
  {
    var w := t + "-sources" + "" + "\n";
    var line := p + "sys-kernel/" + w;
    assert line == p + "sys-kernel/" + t + "-sources\n";
    LinesLackNewline(p, t, "");
    SuffixLacksSlash(t, "");
    ReachCategory(p, w);
    assert t + "-sources" + "\n" == w;
    StableAtCategory(p, t, "\n");
  }

  /** Backtracking the type run from the blank after `-sources` finds `-sources` itself. */
  lemma ListedRunOf(t: string, x: string)
    requires |t| > 0
    requires |x| > 0 && IsSpace(x[0]) && Lacks(x, '\n')
    ensures ListedRun(t + "-sources" + (x + "\n"), |t| + 8) == Some(t)
  {
    var rest := t + "-sources" + (x + "\n");
    forall m | |t| < m <= |t| + 8 ensures ListedRun(rest, m) == ListedRun(rest, m - 1) {
      ListedRunSkip(t, x, rest, m);
    }
    ListedRunDown(rest, |t| + 8, |t|);
    ListedRunHit(t, x, rest);
  }

  /** Inside `-sources` and at the blank after it no listed type ends. */
  lemma ListedRunSkip(t: string, x: string, rest: string, m: nat)
    requires |x| > 0 && IsSpace(x[0])
    requires rest == t + "-sources" + (x + "\n")
    requires |t| < m <= |t| + 8
    ensures ListedRun(rest, m) == ListedRun(rest, m - 1)
  {
    if m + 8 <= |rest| {
      assert rest[m..m + 8][0] == rest[m];
    }
    if m < |t| + 8 {
      assert rest[m] == "-sources"[m - |t|];
    } else {
      assert rest[m] == x[0];
    }
  }

  /** Just before `-sources` the listed type ends. */
  lemma ListedRunHit(t: string, x: string, rest: string)
    requires |t| > 0
    requires |x| > 0 && Lacks(x, '\n')
    requires rest == t + "-sources" + (x + "\n")
    ensures ListedRun(rest, |t|) == Some(t)
  {
    assert rest[|t|..|t| + 8] == "-sources";
    var tail := rest[|t| + 8..];
    assert tail == x + "\n";
    forall i | 0 <= i < |tail| - 1 ensures tail[i] != '\n' {
      assert tail[i] == x[i];
    }
    FinalNewline(tail);
    assert rest[..|t|] == t;
  }


  /** Where the category starts, the second expression reads the type. */
  lemma ListedAtCategory(p: string, t: string, x: string)
    requires |t| > 0 && NoSpace(t)
    requires |x| > 0 && IsSpace(x[0]) && Lacks(x, '\n')
    ensures ListedAt(p + "sys-kernel/" + (t + "-sources" + x + "\n"), |p|) == Some(t)
  {
    var u := t + "-sources";
    var rest := u + (x + "\n");
    assert t + "-sources" + x + "\n" == rest;
    CategoryShape(p, rest);
    NonSpaceRunOf(u, x + "\n");
    ListedRunOf(t, x);
  }

  /** No category in a prefix free of `/`. */
  lemma NoCategoryBefore(p: string, w: string)
    requires Lacks(p, '/')
    ensures forall m :: 0 < m < |p| ==> StableAt(p + "sys-kernel/" + w, m).None?
  {
    var line := p + "sys-kernel/" + w;
    CategoryShape(p, w);
    forall m | 0 < m < |p| ensures StableAt(line, m).None? {
      if m + 11 <= |line| {
        assert line[m..m + 11][10] == line[m + 10];
        if m + 10 < |p| {
          assert line[m + 10] == p[m + 10];
        }
      }
    }
  }

  /**
   * A line whose package is followed by more than blanks, such as the
   * `[ Masked ]` mark, offers its type only in the full list.
   */
  lemma MaskedLine(p: string, t: string, x: string)
    requires |p| > 0 && Lacks(p, '\n') && Lacks(p, '/')
    requires |t| > 0 && NoSpace(t) && Lacks(t, '/')
    requires |x| > 0 && IsSpace(x[0]) && !AllSpace(x) && Lacks(x, '\n') && Lacks(x, '/')
    ensures StableType(p + "sys-kernel/" + t + "-sources" + x + "\n") == None
    ensures ListedType(p + "sys-kernel/" + t + "-sources" + x + "\n") == Some(t)
  {
    var w := t + "-sources" + x + "\n";
    var line := p + "sys-kernel/" + w;
    assert line == p + "sys-kernel/" + t + "-sources" + x + "\n";
    LinesLackNewline(p, t, x);
    SuffixLacksSlash(t, x);
    ReachCategory(p, w);
    assert !AllSpace(x + "\n") by {
      var i :| 0 <= i < |x| && !IsSpace(x[i]);
      assert (x + "\n")[i] == x[i];
    }
    assert t + "-sources" + (x + "\n") == w;
    StableAtCategory(p, t, x + "\n");
    NoCategoryBefore(p, w);
    StableSkips(line, |p|, 0);
    ListedAtCategory(p, t, x);
  }

  lemma {:induction false} ListedRunDown(t: string, m: nat, j: nat)
    requires j <= m <= |t|
    requires forall i :: j < i <= m ==> ListedRun(t, i) == ListedRun(t, i - 1)
    ensures ListedRun(t, m) == ListedRun(t, j)
    decreases m
  {
    if m > j {
      ListedRunDown(t, m - 1, j);
    }
  }

  /** The types offered unmasked, and all types offered. */
  datatype SourceLists = SourceLists(stable: seq<string>, full: seq<string>)

  /** A line's contribution: to both lists when it is a stable line, to the full one otherwise. */
  function LineType(line: string): Option<string>
  {
    match StableType(line)
    case Some(x) => Some(x)
    case None => ListedType(line)
  }

  /** The loop over `emerge -s` output that fills `sourceList` and `sourceListFull`. */
  function Collect(lines: seq<string>): (r: SourceLists)
    ensures |r.stable| <= |r.full| <= |lines|
    ensures forall x :: x in r.stable ==> x in r.full
  {
    if |lines| == 0 then SourceLists([], [])
    else
      var rest := Collect(lines[1..]);
      match StableType(lines[0])
      case Some(x) => SourceLists([x] + rest.stable, [x] + rest.full)
      case None =>
        match ListedType(lines[0])
        case Some(x) => SourceLists(rest.stable, [x] + rest.full)
        case None => rest
  }

  /** How Portage offers a parsed source type. */
  datatype Offer = Stable | Masked | Unknown

  /**
   * The two `for ... else` scans of the name validation: a type in the
   * stable list passes, one only in the full list is masked, and any other
   * is unknown to Portage.
   */
  function OfferOf(t: string, lists: SourceLists): (r: Offer)
    ensures r == Stable <==> t in lists.stable
    ensures r == Masked <==> t !in lists.stable && t in lists.full
  {
    if t in lists.stable then Stable
    else if t in lists.full then Masked
    else Unknown
  }

  /** A stable line of the search output makes its type pass the validation. */
  lemma OfferedType(lines: seq<string>, p: string, t: string)
    requires p + "sys-kernel/" + t + "-sources\n" in lines
    requires |p| > 0 && Lacks(p, '\n')
    requires |t| > 0 && NoSpace(t) && Lacks(t, '/')
    ensures OfferOf(t, Collect(lines)) == Stable
  {
    var i :| 0 <= i < |lines| && lines[i] == p + "sys-kernel/" + t + "-sources\n";
    StableLine(p, t);
    CollectMembers(lines);
  }

  /** A masked line, with no stable line for the same type, makes its type masked. */
  lemma MaskedType(lines: seq<string>, p: string, t: string, x: string)
    requires p + "sys-kernel/" + t + "-sources" + x + "\n" in lines
    requires forall i :: 0 <= i < |lines| ==> StableType(lines[i]) != Some(t)
    requires |p| > 0 && Lacks(p, '\n') && Lacks(p, '/')
    requires |t| > 0 && NoSpace(t) && Lacks(t, '/')
    requires |x| > 0 && IsSpace(x[0]) && !AllSpace(x) && Lacks(x, '\n') && Lacks(x, '/')
    ensures OfferOf(t, Collect(lines)) == Masked
  {
    var i :| 0 <= i < |lines| && lines[i] == p + "sys-kernel/" + t + "-sources" + x + "\n";
    MaskedLine(p, t, x);
    CollectMembers(lines);
    assert LineType(lines[i]) == Some(t);
  }
}

=== FILE: numbers.dfy ===
/**
 * Decimal numerals: Python's `int(text)` and `str(number)` on the values the
 * kernel tooling handles.
 */
module Numbers {
  import opened Results
  import opened Text

  function DigitValue(c: char): (r: nat)
    requires IsDigit(c)
    ensures r < 10
  {
    c as int - '0' as int
  }

  function DigitChar(d: nat): (r: char)
    requires d < 10
    ensures IsDigit(r) && DigitValue(r) == d
  {
    ('0' as int + d) as char
  }

  /** The number a string of decimal digits denotes (the empty string denotes 0). */
  function DigitsValue(s: string): nat
    requires AllDigits(s)
    decreases |s|
  {
    if |s| == 0 then 0 else DigitsValue(s[..|s| - 1]) * 10 + DigitValue(s[|s| - 1])
  }

  function Pow10(n: nat): (r: nat)
    ensures r >= 1
  {
    if n == 0 then 1 else 10 * Pow10(n - 1)
  }

  /** A numeral of `n` digits denotes a number below `10^n`. */
  lemma {:induction false} DigitsValueBound(s: string)
    requires AllDigits(s)
    ensures DigitsValue(s) < Pow10(|s|)
    decreases |s|
  {
    if |s| > 0 {
      DigitsValueBound(s[..|s| - 1]);
    }
  }

  /** The leading digit of a numeral weighs `10^(n-1)`, more than all the rest. */
  lemma HeadValue(a: string)
    requires AllDigits(a) && |a| > 0
    ensures DigitsValue(a) == DigitValue(a[0]) * Pow10(|a| - 1) + DigitsValue(a[1..])
    ensures DigitsValue(a[1..]) < Pow10(|a| - 1)
  {
    assert a == [a[0]] + a[1..];
    DigitsValueConcat([a[0]], a[1..]);
    assert DigitsValue([a[0]]) == DigitValue(a[0]);
    DigitsValueBound(a[1..]);
  }

  lemma LeadingDigitDecides(x: nat, y: nat, u: nat, v: nat, p: nat)
    requires x < y && u < p && v < p
    ensures x * p + u < y * p + v
  {
    assert (x + 1) * p <= y * p;
  }

  /** Equally long numerals compare as strings the way their values compare. */
  lemma {:induction false} DigitsLexOrder(a: string, b: string)
    requires AllDigits(a) && AllDigits(b) && |a| == |b|
    ensures LexLe(a, b) <==> DigitsValue(a) <= DigitsValue(b)
    decreases |a|
  {
    if |a| > 0 {
      var p := Pow10(|a| - 1);
      HeadValue(a);
      HeadValue(b);
      DigitsLexOrder(a[1..], b[1..]);
      var x, y := DigitValue(a[0]), DigitValue(b[0]);
      if x < y {
        LeadingDigitDecides(x, y, DigitsValue(a[1..]), DigitsValue(b[1..]), p);
      } else if y < x {
        LeadingDigitDecides(y, x, DigitsValue(b[1..]), DigitsValue(a[1..]), p);
      }
    }
  }

  /** Writing `b` after `a` shifts the value of `a` by the length of `b`. */
  lemma {:induction false} DigitsValueConcat(a: string, b: string)
    requires AllDigits(a) && AllDigits(b)
    ensures AllDigits(a + b)
    ensures DigitsValue(a + b) == DigitsValue(a) * Pow10(|b|) + DigitsValue(b)
    decreases |b|
  {
    if |b| == 0 {
      assert a + b == a;
    } else {
      var b' := b[..|b| - 1];
      var ab := a + b;
      assert ab[..|ab| - 1] == a + b';
      assert ab[|ab| - 1] == b[|b| - 1];
      DigitsValueConcat(a, b');
      var d := DigitValue(b[|b| - 1]);
      assert DigitsValue(ab) == DigitsValue(a + b') * 10 + d;
      assert DigitsValue(b) == DigitsValue(b') * 10 + d;
      Shift(DigitsValue(a), Pow10(|b'|), DigitsValue(b'), d);
    }
  }

  lemma Shift(x: nat, p: nat, y: nat, d: nat)
    ensures (x * p + y) * 10 + d == x * (10 * p) + (y * 10 + d)
  {
  }

  /** Leading zeros do not change the value of a numeral. */
  lemma LeadingZeros(z: string, s: string)
    requires forall i :: 0 <= i < |z| ==> z[i] == '0'
    requires AllDigits(s)
    ensures AllDigits(z + s) && DigitsValue(z + s) == DigitsValue(s)
  {
    ZerosValue(z);
    DigitsValueConcat(z, s);
  }

  lemma {:induction false} ZerosValue(z: string)
    requires forall i :: 0 <= i < |z| ==> z[i] == '0'
    ensures AllDigits(z) && DigitsValue(z) == 0
    decreases |z|
  {
    if |z| > 0 {
      ZerosValue(z[..|z| - 1]);
    }
  }

  /** `str(n)` for a natural number: its shortest decimal numeral. */
  function NatToString(n: nat): (r: string)
    ensures |r| > 0 && AllDigits(r) && DigitsValue(r) == n
    ensures |r| > 1 ==> r[0] != '0'
    ensures n < 10 <==> |r| == 1
    ensures n < 100 ==> |r| <= 2
    ensures n < 1000 ==> |r| <= 3
    decreases n
  {
    if n < 10 then [DigitChar(n)]
    else
      var r := NatToString(n / 10) + [DigitChar(n % 10)];
      assert r[..|r| - 1] == NatToString(n / 10);
      r
  }

  /** `str(i)` for any integer: a minus sign before the numeral of a negative one. */
  function IntToString(i: int): (r: string)
    ensures |r| > 0
    ensures i >= 0 ==> r == NatToString(i)
    ensures i < 0 ==> r == "-" + NatToString(-i)
  {
    if i < 0 then "-" + NatToString(-i) else NatToString(i)
  }

  /** The value of a signed numeral: optional `+` or `-`, then at least one digit. */
  function SignedValue(s: string): (r: Option<int>)
    ensures r.Some? <==> (|s| > 0 && AllDigits(s)) || (|s| > 1 && (s[0] == '+' || s[0] == '-') && AllDigits(s[1..]))
  {
    if |s| > 0 && AllDigits(s) then Some(DigitsValue(s))
    else if |s| > 1 && s[0] == '+' && AllDigits(s[1..]) then Some(DigitsValue(s[1..]))
    else if |s| > 1 && s[0] == '-' && AllDigits(s[1..]) then Some(0 - DigitsValue(s[1..]) as int)
    else None
  }

  /** `s.strip()`: `s` without leading and trailing blanks. */
  function Strip(s: string): (r: string)
    ensures |r| <= |s|
    ensures |r| == 0 || (!IsSpace(r[0]) && !IsSpace(r[|r| - 1]))
    decreases |s|
  {
    if |s| > 0 && IsSpace(s[0]) then Strip(s[1..])
    else if |s| > 0 && IsSpace(s[|s| - 1]) then Strip(s[..|s| - 1])
    else s
  }

  /** What `strip` keeps is a slice of the string with only blanks around it. */
  lemma {:induction false} StripSlice(s: string) returns (i: nat, j: nat)
    ensures i <= j <= |s| && Strip(s) == s[i..j]
    ensures forall k :: 0 <= k < i ==> IsSpace(s[k])
    ensures forall k :: j <= k < |s| ==> IsSpace(s[k])
    decreases |s|
  {
    if |s| > 0 && IsSpace(s[0]) {
      var t := s[1..];
      var i', j' := StripSlice(t);
      i, j := FrontSlice(s, t, i', j');
    } else if |s| > 0 && IsSpace(s[|s| - 1]) {
      var t := s[..|s| - 1];
      i, j := StripSlice(t);
      BackSlice(s, t, i, j);
    } else {
      i, j := 0, |s|;
      assert s[0..|s|] == s;
    }
  }

  /** A leading blank moves the slice of the rest one place on. */
  lemma FrontSlice(s: string, t: string, i': nat, j': nat) returns (i: nat, j: nat)
    requires |s| > 0 && IsSpace(s[0]) && t == s[1..]
    requires i' <= j' <= |t| && Strip(t) == t[i'..j']
    requires forall k :: 0 <= k < i' ==> IsSpace(t[k])
    requires forall k :: j' <= k < |t| ==> IsSpace(t[k])
    ensures i == i' + 1 && j == j' + 1
    ensures i <= j <= |s| && Strip(s) == s[i..j]
    ensures forall k :: 0 <= k < i ==> IsSpace(s[k])
    ensures forall k :: j <= k < |s| ==> IsSpace(s[k])
  {
    i, j := i' + 1, j' + 1;
    assert t[i'..j'] == s[i..j];
    assert forall k :: 1 <= k < |s| ==> s[k] == t[k - 1];
  }

  /** A trailing blank leaves the slice of the rest where it is. */
  lemma BackSlice(s: string, t: string, i: nat, j: nat)
    requires |s| > 0 && !IsSpace(s[0]) && IsSpace(s[|s| - 1]) && t == s[..|s| - 1]
    requires i <= j <= |t| && Strip(t) == t[i..j]
    requires forall k :: 0 <= k < i ==> IsSpace(t[k])
    requires forall k :: j <= k < |t| ==> IsSpace(t[k])
    ensures Strip(s) == s[i..j]
    ensures forall k :: 0 <= k < i ==> IsSpace(s[k])
    ensures forall k :: j <= k < |t| ==> IsSpace(s[k])
  {
    assert t[i..j] == s[i..j];
    assert forall k :: 0 <= k < |t| ==> s[k] == t[k];
  }

  /**
   * Python's `int(s)` on a string: surrounding blanks are ignored, a sign is
   * optional and at least one digit is needed; anything else raises
   * ValueError, modelled as `None`.
   */
  function PyInt(s: string): (r: Option<int>)
  {
    SignedValue(Strip(s))
  }

  /** `int(str(i)) == i` for every integer. */
  lemma PyIntIntToString(i: int)
    ensures PyInt(IntToString(i)) == Some(i)
  {
    var r := IntToString(i);
    StripNoBlanks(r);
    if i < 0 {
      var t := NatToString(-i);
      assert r[1..] == t;
      assert !AllDigits(r) by { assert !IsDigit(r[0]); }
    }
  }

  lemma StripNoBlanks(s: string)
    requires |s| == 0 || (!IsSpace(s[0]) && !IsSpace(s[|s| - 1]))
    ensures Strip(s) == s
  {
  }
}

=== FILE: results.dfy ===
/**
 * Failure-carrying values shared by every model module.  The Python code
 * signals failure by raising; the model returns `Err` with the kind of
 * exception instead.
 */
module Results {

  datatype Option<+T> = None | Some(value: T) {

    /** The wrapped value, or `default` when there is none. */
    function GetOr(default: T): T
    {
      match this
      case Some(v) => v
      case None => default
    }
  }

  datatype Result<+T, +E> = Ok(value: T) | Err(error: E) {

    predicate IsFailure()
    {
      Err?
    }

    function PropagateFailure<U>(): Result<U, E>
      requires Err?
    {
      Err(error)
    }

    function Extract(): T
      requires Ok?
    {
      value
    }
  }
}

=== FILE: sorting.dfy ===
/**
 * Python's `sorted` is a stable sort: elements that compare equal keep the
 * order they had.  The model sorts by insertion with a comparator `le`
 * ("may come before"), which reproduces both the order and the stability.
 */
module Sorting {

  /** `le` orders every pair and is transitive. */
  ghost predicate TotalPreorder<T(!new)>(le: (T, T) -> bool)
  {
    (forall a, b :: le(a, b) || le(b, a)) &&
    (forall a, b, c :: le(a, b) && le(b, c) ==> le(a, c))
  }

  predicate Sorted<T>(s: seq<T>, le: (T, T) -> bool)
  {
    forall i, j :: 0 <= i < j < |s| ==> le(s[i], s[j])
  }

  /** `x` placed in front of the first element it may precede. */
  function Insert<T>(x: T, s: seq<T>, le: (T, T) -> bool): (r: seq<T>)
    ensures |r| == |s| + 1
    ensures multiset(r) == multiset(s) + multiset{x}
  {
    if |s| == 0 then [x]
    else if le(x, s[0]) then [x] + s
    else
      var r := [s[0]] + Insert(x, s[1..], le);
      assert s == [s[0]] + s[1..];
      r
  }

  /** The stable sort of `s` under `le`. */
  function Sort<T>(s: seq<T>, le: (T, T) -> bool): (r: seq<T>)
    ensures |r| == |s|
    ensures multiset(r) == multiset(s)
  {
    if |s| == 0 then []
    else
      assert s == [s[0]] + s[1..];
      Insert(s[0], Sort(s[1..], le), le)
  }

  /** Sorting keeps exactly the elements it was given. */
  lemma SortMembers<T(!new)>(s: seq<T>, le: (T, T) -> bool)
    ensures forall x :: x in Sort(s, le) <==> x in s
  {
    var r := Sort(s, le);
    forall x ensures x in r <==> x in s {
      assert x in r <==> x in multiset(r);
      assert x in s <==> x in multiset(s);
    }
  }

  /** Where an element of the input ends up in the output. */
  lemma SortPosition<T(!new)>(s: seq<T>, le: (T, T) -> bool, i: nat) returns (k: nat)
    requires i < |s|
    ensures k < |Sort(s, le)| && Sort(s, le)[k] == s[i]
  {
    SortMembers(s, le);
    assert s[i] in Sort(s, le);
    k :| k < |Sort(s, le)| && Sort(s, le)[k] == s[i];
  }

  /** Where an element of the output came from in the input. */
  lemma SortOrigin<T(!new)>(s: seq<T>, le: (T, T) -> bool, k: nat) returns (i: nat)
    requires k < |Sort(s, le)|
    ensures i < |s| && s[i] == Sort(s, le)[k]
  {
    SortMembers(s, le);
    var x := Sort(s, le)[k];
    assert x in Sort(s, le);
    assert x in s;
    i :| i < |s| && s[i] == x;
  }

  lemma {:induction false} InsertSorted<T(!new)>(x: T, s: seq<T>, le: (T, T) -> bool)
    requires TotalPreorder(le) && Sorted(s, le)
    ensures Sorted(Insert(x, s, le), le)
    decreases |s|
  {
    if |s| > 0 && !le(x, s[0]) {
      var t := Insert(x, s[1..], le);
      InsertSorted(x, s[1..], le);
      forall e | e in t
        ensures le(s[0], e)
      {
        assert e in multiset(t);
        if e != x {
          assert e in multiset(s[1..]);
          var j :| 0 <= j < |s[1..]| && s[1..][j] == e;
          assert s[j + 1] == e;
        }
      }
      var r := [s[0]] + t;
      forall i, j | 0 <= i < j < |r|
        ensures le(r[i], r[j])
      {
        if i > 0 {
          assert r[i] == t[i - 1] && r[j] == t[j - 1];
        } else {
          assert r[j] in t;
        }
      }
    }
  }

  /** Sorting puts the elements in `le` order. */
  lemma {:induction false} SortSorted<T(!new)>(s: seq<T>, le: (T, T) -> bool)
    requires TotalPreorder(le)
    ensures Sorted(Sort(s, le), le)
    decreases |s|
  {
    if |s| > 0 {
      SortSorted(s[1..], le);
      InsertSorted(s[0], Sort(s[1..], le), le);
    }
  }

  /** The elements of `s` that are equivalent to `x` under `le`, in order. */
  function Class<T>(s: seq<T>, le: (T, T) -> bool, x: T): (r: seq<T>)
    ensures forall i :: 0 <= i < |r| ==> le(r[i], x) && le(x, r[i])
  {
    if |s| == 0 then []
    else if le(s[0], x) && le(x, s[0]) then [s[0]] + Class(s[1..], le, x)
    else Class(s[1..], le, x)
  }

  /** Inserting `y` puts it in front of every element equivalent to it. */
  lemma {:induction false} InsertClass<T(!new)>(y: T, s: seq<T>, le: (T, T) -> bool, x: T)
    requires TotalPreorder(le)
    ensures le(y, x) && le(x, y) ==> Class(Insert(y, s, le), le, x) == [y] + Class(s, le, x)
    ensures !(le(y, x) && le(x, y)) ==> Class(Insert(y, s, le), le, x) == Class(s, le, x)
    decreases |s|
  {
    if |s| > 0 {
      var r := Insert(y, s, le);
      if le(y, s[0]) {
        assert r[1..] == s;
      } else {
        InsertClass(y, s[1..], le, x);
        assert r[1..] == Insert(y, s[1..], le);
        if le(y, x) && le(x, y) {
          // s[0] is not equivalent to y, hence not to x
          assert !(le(s[0], x) && le(x, s[0]));
        }
      }
    }
  }

  /** Sorting is stable: the equivalent elements keep their original order. */
  lemma {:induction false} SortStable<T(!new)>(s: seq<T>, le: (T, T) -> bool, x: T)
    requires TotalPreorder(le)
    ensures Class(Sort(s, le), le, x) == Class(s, le, x)
    decreases |s|
  {
    if |s| > 0 {
      SortStable(s[1..], le, x);
      InsertClass(s[0], Sort(s[1..], le), le, x);
    }
  }

  /** Sorting a sorted sequence changes nothing. */
  lemma {:induction false} SortOfSorted<T(!new)>(s: seq<T>, le: (T, T) -> bool)
    requires Sorted(s, le)
    ensures Sort(s, le) == s
    decreases |s|
  {
    if |s| > 0 {
      assert Sorted(s[1..], le) by {
        forall i, j | 0 <= i < j < |s[1..]| ensures le(s[1..][i], s[1..][j]) {
          assert s[1..][i] == s[i + 1] && s[1..][j] == s[j + 1];
        }
      }
      SortOfSorted(s[1..], le);
      if |s| > 1 {
        assert le(s[0], s[1]);
      }
      assert s == [s[0]] + s[1..];
    }
  }
}

=== FILE: sources.dfy ===
/**
 * The kernel sources resolver of upkern/sources.py: which `/usr/src`
 * directories and `/boot` configuration files exist (newest first), which
 * Portage package the user's kernel name denotes, which directory that
 * package owns, and how a configuration file is copied into the sources.
 *
 * The object caches what it computes; the model threads that cache through
 * as a `Sources` value.  The package owner lookup is the parameter `owner`
 * and the directory listings are parameters.
 */
module Sources {
  import opened Results
  import opened Text
  import opened Numbers
  import opened Listing
  import opened Sorting
  import opened VersionKey
  import opened AtomGrammar

  // Listings

  /** `sorted(..., key = kernel_index, reverse = True)` keeps equal keys in listing order. */
  predicate NewerFirst(a: string, b: string) { KernelIndex(a) >= KernelIndex(b) }

  lemma NewerFirstIsTotal()
    ensures TotalPreorder(NewerFirst)
  {
  }

  /** `source_directories`: the `linux-` directories, newest kernel first. */
  function SourceDirectories(listing: seq<string>): (r: seq<string>)
    ensures forall d :: d in r <==> d in listing && LinuxEntry(d)
    ensures multiset(r) == multiset(Filter(listing, LinuxEntry))
  {
    SortMembers(Filter(listing, LinuxEntry), NewerFirst);
    Sort(Filter(listing, LinuxEntry), NewerFirst)
  }

  /** `configuration_files`: the `config-` files of `/boot`, newest kernel first. */
  function ConfigurationFiles(boot: seq<string>): (r: seq<string>)
    ensures forall f :: f in r <==> f in boot && ConfigEntry(f)
    ensures multiset(r) == multiset(Filter(boot, ConfigEntry))
  {
    SortMembers(Filter(boot, ConfigEntry), NewerFirst);
    Sort(Filter(boot, ConfigEntry), NewerFirst)
  }

  /** Both listings are ordered by descending key, and equal keys keep the listing's order. */
  lemma ListingsNewestFirst(listing: seq<string>, boot: seq<string>, x: string)
    ensures forall i, j :: 0 <= i < j < |SourceDirectories(listing)| ==>
              KernelIndex(SourceDirectories(listing)[i]) >= KernelIndex(SourceDirectories(listing)[j])
    ensures forall i, j :: 0 <= i < j < |ConfigurationFiles(boot)| ==>
              KernelIndex(ConfigurationFiles(boot)[i]) >= KernelIndex(ConfigurationFiles(boot)[j])
    ensures Class(SourceDirectories(listing), NewerFirst, x) == Class(Filter(listing, LinuxEntry), NewerFirst, x)
    ensures Class(ConfigurationFiles(boot), NewerFirst, x) == Class(Filter(boot, ConfigEntry), NewerFirst, x)
  {
    NewerFirstIsTotal();
    SortSorted(Filter(listing, LinuxEntry), NewerFirst);
    SortSorted(Filter(boot, ConfigEntry), NewerFirst);
    SortStable(Filter(listing, LinuxEntry), NewerFirst, x);
    SortStable(Filter(boot, ConfigEntry), NewerFirst, x);
  }

  // The package and the directory

  /**
   * Two versions of the owner cache: the code as written stores the package
   * name with its `=` when `package_name` looks up the newest directory; the
   * corrected one stores the owner as `directory_name` does.
   */
  datatype Variant = AsWritten | Corrected

  /** The object's cached attributes; `None` where Python has no attribute yet. */
  datatype Sources = Sources(name: Option<string>, packages: map<string, string>,
                             packageName: Option<string>, directoryName: Option<string>)

  /** `Sources(name)` just constructed. */
  function Fresh(name: Option<string>): Sources
  {
    Sources(name, map[], None, None)
  }

  /** `IndexError` on an empty `source_directories`, `AttributeError` when no directory is owned. */
  datatype Failure = NoSourceDirectories | NoOwnedDirectory

  /** The package atom of a user-given name; a name the expression rejects leaves the bare category. */
  function NamedPackage(name: string): (r: string)
    ensures "=" + Category <= r
    ensures r == "=" + Category <==> |name| == 0 || !HeadChar(name[0])
  {
    match ParseAtom(Spaced, name)
    case Some(a) => "=" + PackageOf(a)
    case None => "=" + Category
  }

  /** What the cache holds for `d`, else what the lookup answers. */
  function Owned(st: Sources, owner: string -> string, d: string): string
  {
    if d in st.packages then st.packages[d] else owner(d)
  }

  /** `package_name`: the value and the object afterwards. */
  function PackageName(v: Variant, st: Sources, listing: seq<string>, owner: string -> string)
    : (r: Result<(string, Sources), Failure>)
    ensures r.Ok? ==> r.value.1.packageName == Some(r.value.0)
    ensures r.Ok? ==> r.value.1.name == st.name && r.value.1.directoryName == st.directoryName
    ensures st.packageName.Some? ==> r == Ok((st.packageName.value, st))
    ensures st.packageName.None? && st.name.Some? ==> r.Ok? && r.value.0 == NamedPackage(st.name.value)
    ensures r.Err? <==> st.packageName.None? && st.name.None? && |SourceDirectories(listing)| == 0
  {
    if st.packageName.Some? then Ok((st.packageName.value, st))
    else if st.name.Some? then
      var p := NamedPackage(st.name.value);
      Ok((p, st.(packageName := Some(p))))
    else
      var sd := SourceDirectories(listing);
      if |sd| == 0 then Err(NoSourceDirectories)
      else
        var d := sd[0];
        var o := Owned(st, owner, d);
        var cached := if v == AsWritten then "=" + o else o;
        Ok(("=" + o, st.(packages := st.packages[d := cached], packageName := Some("=" + o))))
  }

  /** The loop of `directory_name` over the remaining directories `ds`. */
  function Scan(v: Variant, ds: seq<string>, st: Sources, listing: seq<string>, owner: string -> string)
    : (r: Result<(string, Sources), Failure>)
    ensures r.Ok? ==> r.value.0 in ds && r.value.1.directoryName == Some(r.value.0)
    decreases |ds|
  {
    if |ds| == 0 then Err(NoOwnedDirectory)
    else
      var d := ds[0];
      var package := Owned(st, owner, d);
      var st1 := st.(packages := st.packages[d := package]);
      match PackageName(v, st1, listing, owner)
      case Err(e) => Err(e)
      case Ok((p, st2)) =>
        if package == LStrip(p, '=') then Ok((d, st2.(directoryName := Some(d))))
        else Scan(v, ds[1..], st2, listing, owner)
  }

  /** `directory_name`: the value and the object afterwards. */
  function DirectoryName(v: Variant, st: Sources, listing: seq<string>, owner: string -> string)
    : (r: Result<(string, Sources), Failure>)
    ensures st.directoryName.Some? ==> r == Ok((st.directoryName.value, st))
    ensures st.directoryName.None? && r.Ok? ==> r.value.0 in SourceDirectories(listing)
  {
    if st.directoryName.Some? then Ok((st.directoryName.value, st))
    else Scan(v, SourceDirectories(listing), st, listing, owner)
  }

  // What the corrected resolver computes

  /** The package the object denotes: the named one, else the owner of the newest directory. */
  function Target(name: Option<string>, listing: seq<string>, owner: string -> string): (r: Option<string>)
    ensures r.None? <==> name.None? && |SourceDirectories(listing)| == 0
  {
    if name.Some? then Some(NamedPackage(name.value))
    else
      var sd := SourceDirectories(listing);
      if |sd| == 0 then None else Some("=" + owner(sd[0]))
  }

  /** The first directory of `ds` that `owner` assigns to `package`. */
  function FirstOwned(ds: seq<string>, owner: string -> string, package: string): (r: Option<nat>)
    ensures r.Some? ==> r.value < |ds| && owner(ds[r.value]) == package
    ensures r.Some? ==> forall i :: 0 <= i < r.value ==> owner(ds[i]) != package
    ensures r.None? ==> forall i :: 0 <= i < |ds| ==> owner(ds[i]) != package
  {
    if |ds| == 0 then None
    else if owner(ds[0]) == package then Some(0)
    else match FirstOwned(ds[1..], owner, package)
      case Some(i) => Some(i + 1)
      case None => None
  }

  /** The cache agrees with the lookup and the cached package is the one the object denotes. */
  predicate Consistent(st: Sources, listing: seq<string>, owner: string -> string)
  {
    (forall d :: d in st.packages ==> st.packages[d] == owner(d)) &&
    (st.packageName.Some? ==> Some(st.packageName.value) == Target(st.name, listing, owner))
  }

  /** The corrected `package_name` answers the target and keeps the cache consistent. */
  lemma PackageNameCorrect(st: Sources, listing: seq<string>, owner: string -> string)
    requires Consistent(st, listing, owner)
    ensures var r := PackageName(Corrected, st, listing, owner);
      (r.Ok? <==> Target(st.name, listing, owner).Some?) &&
      (r.Ok? ==> Some(r.value.0) == Target(st.name, listing, owner) &&
                 Consistent(r.value.1, listing, owner) &&
                 r.value.1.packages.Keys >= st.packages.Keys)
  {
  }

  /** The corrected scan finds the first directory whose owner is the target without `=`. */
  lemma {:induction false} ScanCorrect(ds: seq<string>, st: Sources, listing: seq<string>,
                                       owner: string -> string, target: string)
    requires Consistent(st, listing, owner)
    requires |ds| > 0 ==> Target(st.name, listing, owner) == Some(target)
    ensures var r := Scan(Corrected, ds, st, listing, owner);
      match FirstOwned(ds, owner, LStrip(target, '='))
      case Some(i) => r.Ok? && r.value.0 == ds[i] && Consistent(r.value.1, listing, owner)
      case None => r == Err(NoOwnedDirectory)
    decreases |ds|
  {
    if |ds| > 0 {
      var d := ds[0];
      var st1 := st.(packages := st.packages[d := Owned(st, owner, d)]);
      PackageNameCorrect(st1, listing, owner);
      var r1 := PackageName(Corrected, st1, listing, owner);
      if owner(d) != LStrip(target, '=') {
        ScanCorrect(ds[1..], r1.value.1, listing, owner, target);
        if |ds| > 1 {
          assert ds[1..][0] == ds[1];
        }
      }
    }
  }

  /**
   * The corrected `directory_name` is the first of `source_directories`
   * whose owner equals `package_name` without its `=`, however much of the
   * cache an earlier `package_name` filled in.
   */
  lemma DirectoryNameCorrect(st: Sources, listing: seq<string>, owner: string -> string)
    requires Consistent(st, listing, owner) && st.directoryName.None?
    ensures var sd := SourceDirectories(listing);
      var r := DirectoryName(Corrected, st, listing, owner);
      if |sd| == 0 then r == Err(NoOwnedDirectory)
      else match FirstOwned(sd, owner, LStrip(Target(st.name, listing, owner).value, '='))
        case Some(i) => r.Ok? && r.value.0 == sd[i]
        case None => r == Err(NoOwnedDirectory)
  {
    var sd := SourceDirectories(listing);
    if |sd| > 0 {
      ScanCorrect(sd, st, listing, owner, Target(st.name, listing, owner).value);
    }
  }

  /** Asking for the package first does not change the corrected directory. */
  lemma PackageThenDirectory(name: Option<string>, listing: seq<string>, owner: string -> string)
    requires Target(name, listing, owner).Some?
    ensures var p := PackageName(Corrected, Fresh(name), listing, owner);
      p.Ok? &&
      DirectoryName(Corrected, p.value.1, listing, owner).Ok? ==
        DirectoryName(Corrected, Fresh(name), listing, owner).Ok? &&
      (DirectoryName(Corrected, p.value.1, listing, owner).Ok? ==>
         DirectoryName(Corrected, p.value.1, listing, owner).value.0 ==
         DirectoryName(Corrected, Fresh(name), listing, owner).value.0)
  {
    PackageNameCorrect(Fresh(name), listing, owner);
    var p := PackageName(Corrected, Fresh(name), listing, owner);
    DirectoryNameCorrect(p.value.1, listing, owner);
    DirectoryNameCorrect(Fresh(name), listing, owner);
  }

  /** Without a name, the newest directory is chosen when its owner has no leading `=`. */
  lemma UnnamedTakesNewest(listing: seq<string>, owner: string -> string)
    requires |SourceDirectories(listing)| > 0
    requires var o := owner(SourceDirectories(listing)[0]); |o| == 0 || o[0] != '='
    ensures DirectoryName(Corrected, Fresh(None), listing, owner).Ok?
    ensures DirectoryName(Corrected, Fresh(None), listing, owner).value.0 == SourceDirectories(listing)[0]
  {
    var sd := SourceDirectories(listing);
    var o := owner(sd[0]);
    assert LStrip("=" + o, '=') == o by {
      assert ("=" + o)[1..] == o;
    }
    DirectoryNameCorrect(Fresh(None), listing, owner);
  }

  /** With a name, both variants agree: the cache bug needs the unnamed path. */
  lemma NamedVariantsAgree(st: Sources, listing: seq<string>, owner: string -> string)
    requires st.name.Some?
    ensures PackageName(AsWritten, st, listing, owner) == PackageName(Corrected, st, listing, owner)
  {
  }

  /** The chosen directory or the failure, without the object afterwards. */
  function Chosen(r: Result<(string, Sources), Failure>): Result<string, Failure>
  {
    match r
    case Ok((d, _)) => Ok(d)
    case Err(e) => Err(e)
  }

  /**
   * Objects the two variants can reach from one object inside a scan: they
   * differ only in cached owners that neither matches the cached package.
   */
  predicate CachesAgree(a: Sources, c: Sources)
  {
    a.name == c.name && a.packageName == c.packageName && a.directoryName == c.directoryName &&
    a.packages.Keys == c.packages.Keys &&
    (c.packageName.None? ==> a.packages == c.packages) &&
    forall k :: k in a.packages && k in c.packages && a.packages[k] != c.packages[k] ==>
      c.packageName.Some? &&
      a.packages[k] != LStrip(c.packageName.value, '=') && c.packages[k] != LStrip(c.packageName.value, '=')
  }

  /**
   * One scan step from agreeing caches: both variants stop on the same
   * answer, or both go on to the rest from caches that still agree.
   */
  predicate StepAgrees(ds: seq<string>, a: Sources, c: Sources, a2: Sources, c2: Sources,
                       listing: seq<string>, owner: string -> string)
    requires |ds| > 0
  {
    Chosen(Scan(AsWritten, ds, a, listing, owner)) == Chosen(Scan(Corrected, ds, c, listing, owner)) ||
    (CachesAgree(a2, c2) && a2.packageName.Some? &&
     Scan(AsWritten, ds, a, listing, owner) == Scan(AsWritten, ds[1..], a2, listing, owner) &&
     Scan(Corrected, ds, c, listing, owner) == Scan(Corrected, ds[1..], c2, listing, owner))
  }

  /** A step once the package is cached: the owners read back match it alike. */
  lemma CachedStep(ds: seq<string>, a: Sources, c: Sources, listing: seq<string>, owner: string -> string)
    returns (a2: Sources, c2: Sources)
    requires |ds| > 0 && CachesAgree(a, c) && a.packageName.Some?
    ensures StepAgrees(ds, a, c, a2, c2, listing, owner)
  {
    var d := ds[0];
    a2 := a.(packages := a.packages[d := Owned(a, owner, d)]);
    c2 := c.(packages := c.packages[d := Owned(c, owner, d)]);
    assert CachesAgree(a2, c2);
  }

  /** A step on a named object: both variants cache the same package. */
  lemma NamedStep(ds: seq<string>, st: Sources, listing: seq<string>, owner: string -> string)
    returns (st2: Sources)
    requires |ds| > 0 && st.packageName.None? && st.name.Some?
    ensures StepAgrees(ds, st, st, st2, st2, listing, owner)
  {
    var d := ds[0];
    var st1 := st.(packages := st.packages[d := Owned(st, owner, d)]);
    st2 := st1.(packageName := Some(NamedPackage(st.name.value)));
    assert CachesAgree(st2, st2);
  }

  /**
   * The first step on an unnamed object, at the newest directory: the code
   * as written caches `=` + owner there, but only once that owner has
   * failed to match.
   */
  lemma UnnamedStep(ds: seq<string>, st: Sources, listing: seq<string>, owner: string -> string)
    returns (a2: Sources, c2: Sources)
    requires |ds| > 0 && st.packageName.None? && st.name.None? && ds == SourceDirectories(listing)
    ensures StepAgrees(ds, st, st, a2, c2, listing, owner)
  {
    var d := ds[0];
    var o := Owned(st, owner, d);
    var st1 := st.(packages := st.packages[d := o]);
    var p := "=" + o;
    a2 := st1.(packages := st1.packages[d := p], packageName := Some(p));
    c2 := st1.(packages := st1.packages[d := o], packageName := Some(p));
    assert Owned(st1, owner, SourceDirectories(listing)[0]) == o;
    assert PackageName(AsWritten, st1, listing, owner) == Ok((p, a2));
    assert PackageName(Corrected, st1, listing, owner) == Ok((p, c2));
    if o != LStrip(p, '=') {
      StrippedDiffers(st1, d, o, p);
    }
  }

  /** Caching `=` + owner beside the owner itself, when the owner has failed to match. */
  lemma StrippedDiffers(st: Sources, d: string, o: string, p: string)
    requires st.packageName.None? && d in st.packages && st.packages[d] == o
    requires p == "=" + o && o != LStrip(p, '=')
    ensures CachesAgree(st.(packages := st.packages[d := p], packageName := Some(p)),
                        st.(packages := st.packages[d := o], packageName := Some(p)))
  {
    assert p[0] == '=';
  }

  /**
   * The scans of the two variants choose alike: the `=` the code as written
   * caches is only read back at a directory already found not to match.
   */
  lemma {:induction false} ScanAgrees(ds: seq<string>, a: Sources, c: Sources,
                                      listing: seq<string>, owner: string -> string)
    requires CachesAgree(a, c)
    requires a.packageName.None? ==> ds == SourceDirectories(listing)
    ensures Chosen(Scan(AsWritten, ds, a, listing, owner)) == Chosen(Scan(Corrected, ds, c, listing, owner))
    decreases |ds|
  {
    if |ds| > 0 {
      var a2, c2;
      if a.packageName.Some? {
        a2, c2 := CachedStep(ds, a, c, listing, owner);
      } else if a.name.Some? {
        assert a == c;
        a2 := NamedStep(ds, a, listing, owner);
        c2 := a2;
      } else {
        assert a == c;
        a2, c2 := UnnamedStep(ds, a, listing, owner);
      }
      if Chosen(Scan(AsWritten, ds, a, listing, owner)) != Chosen(Scan(Corrected, ds, c, listing, owner)) {
        ScanAgrees(ds[1..], a2, c2, listing, owner);
      }
    }
  }

  /**
   * Asked of one and the same object, both variants choose the same
   * directory, named or not: the cache bug needs `package_name` asked first
   * on an unnamed object (CacheBugAsWritten).
   */
  lemma DirectoryVariantsAgree(st: Sources, listing: seq<string>, owner: string -> string)
    ensures Chosen(DirectoryName(AsWritten, st, listing, owner)) == Chosen(DirectoryName(Corrected, st, listing, owner))
    ensures st.name.Some? ==>
      var pa := PackageName(AsWritten, st, listing, owner);
      var pc := PackageName(Corrected, st, listing, owner);
      pa == pc && (pa.Ok? ==>
        Chosen(DirectoryName(AsWritten, pa.value.1, listing, owner)) ==
        Chosen(DirectoryName(Corrected, pc.value.1, listing, owner)))
  {
    if st.directoryName.None? {
      ScanAgrees(SourceDirectories(listing), st, st, listing, owner);
    }
    var pa := PackageName(AsWritten, st, listing, owner);
    if st.name.Some? && pa.Ok? && pa.value.1.directoryName.None? {
      ScanAgrees(SourceDirectories(listing), pa.value.1, pa.value.1, listing, owner);
    }
  }

  // The cache bug of the code as written

  const BugDirectory := "linux-3.12.6-gentoo"
  const BugPackage := "sys-kernel/gentoo-sources-3.12.6"

  /** One installed kernel, owned by its sources package. */
  function BugOwner(d: string): string { BugPackage }

  lemma BugListing()
    ensures SourceDirectories([BugDirectory]) == [BugDirectory]
  {
    LinuxDirectoryMatches("3.12.6-gentoo");
    BugDirectorySpelled();
    FilterKeepsAll([BugDirectory], LinuxEntry);
  }

  lemma BugDirectorySpelled()
    ensures "linux-" + "3.12.6-gentoo" == BugDirectory
  {
  }

  /**
   * As written, `package_name` on an unnamed object caches `=` + owner for
   * the newest directory, so a later `directory_name` compares that cached
   * value with the owner and finds no directory, although asked first it
   * finds one.
   */
  lemma CacheBugAsWritten()
    ensures var p := PackageName(AsWritten, Fresh(None), [BugDirectory], BugOwner);
      p.Ok? && DirectoryName(AsWritten, p.value.1, [BugDirectory], BugOwner) == Err(NoOwnedDirectory)
    ensures DirectoryName(AsWritten, Fresh(None), [BugDirectory], BugOwner).Ok?
    ensures DirectoryName(AsWritten, Fresh(None), [BugDirectory], BugOwner).value.0 == BugDirectory
  {
    PackageFirstMisses();
    DirectoryFirstFinds();
  }

  /** The cached `=` + owner never equals an owner with the `=` stripped. */
  lemma CachedPackage() returns (eq: string)
    ensures eq == "=" + BugPackage && LStrip(eq, '=') == BugPackage && eq != BugPackage
  {
    eq := "=" + BugPackage;
    assert eq[1..] == BugPackage;
    assert eq[0] != BugPackage[0];
  }

  lemma PackageFirstMisses()
    ensures var p := PackageName(AsWritten, Fresh(None), [BugDirectory], BugOwner);
      p.Ok? && DirectoryName(AsWritten, p.value.1, [BugDirectory], BugOwner) == Err(NoOwnedDirectory)
  {
    var listing := [BugDirectory];
    BugListing();
    var eq := CachedPackage();
    var st := Sources(None, map[BugDirectory := eq], Some(eq), None);
    assert PackageName(AsWritten, Fresh(None), listing, BugOwner) == Ok((eq, st));
    assert PackageName(AsWritten, st, listing, BugOwner) == Ok((eq, st));
    assert Scan(AsWritten, [], st, listing, BugOwner) == Err(NoOwnedDirectory);
    assert Scan(AsWritten, listing, st, listing, BugOwner) == Err(NoOwnedDirectory);
  }

  lemma DirectoryFirstFinds()
    ensures DirectoryName(AsWritten, Fresh(None), [BugDirectory], BugOwner).Ok?
    ensures DirectoryName(AsWritten, Fresh(None), [BugDirectory], BugOwner).value.0 == BugDirectory
  {
    var listing := [BugDirectory];
    BugListing();
    var eq := CachedPackage();
    var st1 := Sources(None, map[BugDirectory := BugPackage], None, None);
    var st2 := Sources(None, map[BugDirectory := eq], Some(eq), None);
    assert st1.packages[BugDirectory := eq] == map[BugDirectory := eq];
    assert PackageName(AsWritten, st1, listing, BugOwner) == Ok((eq, st2));
    assert Scan(AsWritten, listing, Fresh(None), listing, BugOwner).value.0 == BugDirectory;
  }

  /** The corrected cache finds the directory in either order. */
  lemma CacheBugCorrected()
    ensures var p := PackageName(Corrected, Fresh(None), [BugDirectory], BugOwner);
      p.Ok? && DirectoryName(Corrected, p.value.1, [BugDirectory], BugOwner).Ok? &&
      DirectoryName(Corrected, p.value.1, [BugDirectory], BugOwner).value.0 == BugDirectory
  {
    BugListing();
    UnnamedTakesNewest([BugDirectory], BugOwner);
    PackageThenDirectory(None, [BugDirectory], BugOwner);
  }

  // Copying the configuration

  /** Files by path and contents. */
  type Files = map<string, string>

  const Config := "/usr/src/linux/.config"
  const Backup := "/usr/src/linux/.config.bak"

  /** The outcome of `_copy_configuration`: the files afterwards and whether it raised. */
  datatype CopyOutcome = CopyOutcome(files: Files, raised: bool)

  /** The file to copy: the one given, else the newest `config-` file of `/boot`, else none. */
  function ConfigurationPath(configuration: Option<string>, boot: seq<string>): (r: Option<string>)
    ensures configuration.Some? ==> r == configuration
    ensures configuration.None? ==> (r.None? <==> forall f :: f in boot ==> !ConfigEntry(f))
    ensures configuration.None? && r.Some? ==> exists f :: f in boot && ConfigEntry(f) && r.value == "/boot/" + f
  {
    if configuration.Some? then configuration
    else
      var cs := ConfigurationFiles(boot);
      if |cs| > 0 then
        assert cs[0] in cs;
        Some("/boot/" + cs[0])
      else
        assert forall f :: f in boot && ConfigEntry(f) ==> f in cs;
        None
  }

  /** `shutil.move(src, dst)` of a file that exists. */
  function Move(files: Files, src: string, dst: string): (r: Files)
    requires src in files
    ensures dst in r && r[dst] == files[src] && (src != dst ==> src !in r)
    ensures forall k :: k != src && k != dst ==> (k in r <==> k in files) && (k in r ==> r[k] == files[k])
  {
    (files - {src})[dst := files[src]]
  }

  /**
   * The steps of `_copy_configuration` once the file `path` is chosen, for a
   * configuration `c` and its backup `b`: `c` is moved to `b`, `path` is
   * copied over `c` (which fails when `path` does not exist), and the backup
   * is removed on success or moved back on failure.
   */
  function CopySteps(files: Files, path: string, c: string, b: string): (r: CopyOutcome)
    requires c != b
    ensures !r.raised ==> b !in r.files && c in r.files
    ensures r.raised && b !in files ==> r.files == files
    ensures r.raised && c in files ==> r.files == files - {b}
    ensures r.raised && c !in files && b in files ==> r.files == (files - {b})[c := files[b]]
    ensures path != c && path != b ==>
      (r.raised <==> path !in files) &&
      (!r.raised ==> r.files == (files - {b})[c := files[path]])
  {
    var moved := if c in files then Move(files, c, b) else files;
    if path in moved then
      var done := moved[c := moved[path]] - {b};
      assert path != c && path != b ==> done == (files - {b})[c := files[path]];
      CopyOutcome(done, false)
    else
      var back := if b in moved then Move(moved, b, c) else moved;
      assert c in files ==> back == files - {b};
      CopyOutcome(back, true)
  }

  lemma ConfigIsNotBackup()
    ensures Config != Backup
  {
    assert |Config| != |Backup|;
  }

  /** `_copy_configuration`: nothing without a file, otherwise the copy steps on `.config`. */
  function CopyConfiguration(files: Files, configuration: Option<string>, boot: seq<string>)
    : (r: CopyOutcome)
    ensures ConfigurationPath(configuration, boot).None? ==> r == CopyOutcome(files, false)
    ensures ConfigurationPath(configuration, boot).Some? && !r.raised ==>
              Backup !in r.files && Config in r.files
    ensures r.raised && Backup !in files ==> r.files == files
    ensures r.raised && Config in files ==> r.files == files - {Backup}
    ensures r.raised && Config !in files && Backup in files ==>
              r.files == (files - {Backup})[Config := files[Backup]]
  {
    ConfigIsNotBackup();
    match ConfigurationPath(configuration, boot)
    case None => CopyOutcome(files, false)
    case Some(path) => CopySteps(files, path, Config, Backup)
  }

  /** Copying a file other than `.config` and its backup: it replaces `.config`, the backup goes, nothing else changes. */
  lemma CopyReplacesConfig(files: Files, configuration: Option<string>, boot: seq<string>)
    requires ConfigurationPath(configuration, boot).Some?
    requires ConfigurationPath(configuration, boot).value !in {Config, Backup}
    ensures var path := ConfigurationPath(configuration, boot).value;
      var r := CopyConfiguration(files, configuration, boot);
      (r.raised <==> path !in files) &&
      (!r.raised ==> r.files == (files - {Backup})[Config := files[path]])
  {
    ConfigIsNotBackup();
  }

  /** Without a `config-` file in `/boot` and no file given, nothing is touched. */
  lemma NoConfigurationNoChange(files: Files, boot: seq<string>)
    requires forall f :: f in boot ==> !ConfigEntry(f)
    ensures CopyConfiguration(files, None, boot) == CopyOutcome(files, false)
  {
  }

  // Configuring

  /** `configure`: `make <MAKEOPTS> <configurator>`, piped from `yes ""` to accept defaults. */
  function ConfigureCommand(makeopts: string, configurator: string, acceptDefaults: bool): string
  {
    (if acceptDefaults then "yes \"\" | " else "") + MakeCommand(makeopts, configurator)
  }

  function MakeCommand(makeopts: string, configurator: string): string
  {
    "make " + makeopts + " " + configurator
  }

  /** The blank-separated words are `make`, the make options and the configurator, after `yes "" |` when asked. */
  lemma ConfigureCommandWords(makeopts: string, configurator: string, acceptDefaults: bool)
    ensures Words(ConfigureCommand(makeopts, configurator, acceptDefaults))
         == (if acceptDefaults then ["yes", "\"\"", "|"] else []) + ["make"] + Words(makeopts) + Words(configurator)
  {
    if acceptDefaults {
      DefaultsWords(makeopts, configurator);
    } else {
      PlainWords(makeopts, configurator);
    }
  }

  lemma PlainWords(makeopts: string, configurator: string)
    ensures Words(ConfigureCommand(makeopts, configurator, false))
         == [] + ["make"] + Words(makeopts) + Words(configurator)
  {
    MakeWords(makeopts, configurator);
    assert ConfigureCommand(makeopts, configurator, false) == MakeCommand(makeopts, configurator);
    assert [] + ["make"] == ["make"];
  }

  lemma DefaultsWords(makeopts: string, configurator: string)
    ensures Words(ConfigureCommand(makeopts, configurator, true))
         == ["yes", "\"\"", "|"] + ["make"] + Words(makeopts) + Words(configurator)
  {
    var body := MakeCommand(makeopts, configurator);
    var pre := "yes" + " " + ("\"\"" + " " + "|");
    YesSpelled();
    MakeWords(makeopts, configurator);
    YesWords("yes", "\"\"", "|");
    WordsSpaced(pre, body);
    SeqRegroup(["yes", "\"\"", "|"], ["make"], Words(makeopts), Words(configurator));
  }

  lemma SeqRegroup(a: seq<string>, b: seq<string>, c: seq<string>, d: seq<string>)
    ensures a + (b + c + d) == a + b + c + d
  {
  }

  /** The `yes "" | ` prefix, as its three words with blanks between and after. */
  lemma YesSpelled()
    ensures "yes \"\" | " == "yes" + " " + ("\"\"" + " " + "|") + " "
  {
  }

  lemma MakeWords(makeopts: string, configurator: string)
    ensures Words(MakeCommand(makeopts, configurator)) == ["make"] + Words(makeopts) + Words(configurator)
  {
    MakeSpelled("make");
    WordsSpaced("make" + " " + makeopts, configurator);
    WordsSpaced("make", makeopts);
    SingleWord("make");
  }

  lemma MakeSpelled(m: string)
    requires m == "make"
    ensures "make " == m + " " && |m| > 0 && NoSpace(m)
  {
  }

  /** Three blank-free words with single blanks between them. */
  lemma YesWords(y: string, q: string, p: string)
    requires |y| > 0 && NoSpace(y) && |q| > 0 && NoSpace(q) && |p| > 0 && NoSpace(p)
    ensures Words(y + " " + (q + " " + p)) == [y, q, p]
  {
    WordsSpaced(y, q + " " + p);
    WordsSpaced(q, p);
    SingleWord(y);
    SingleWord(q);
    SingleWord(p);
  }
}

=== FILE: survivors.dfy ===
/**
 * The dict's values sorted by a comparator: what `source_directories` and
 * the configuration lookup of upkern/kernel/sources.py return.  Each fact is
 * proved for one element and then lifted to all of them.
 */
module Survivors {
  import opened Sorting
  import opened Dedupe

  /** The last element of each key, sorted by `le`. */
  function SortedLast<T(==), K(==)>(s: seq<T>, key: T -> K, le: (T, T) -> bool): seq<T>
  {
    Sort(LastPerKey(s, key), le)
  }

  lemma SortedFromSurvivors<T(!new), K>(s: seq<T>, key: T -> K, le: (T, T) -> bool, k: nat)
    requires k < |SortedLast(s, key, le)|
    ensures SortedLast(s, key, le)[k] in LastPerKey(s, key)
  {
    var j := SortOrigin(LastPerKey(s, key), le, k);
  }

  lemma SurvivorsSorted<T(!new), K>(s: seq<T>, key: T -> K, le: (T, T) -> bool, x: T)
    requires x in LastPerKey(s, key)
    ensures x in SortedLast(s, key, le)
  {
    SortMembers(LastPerKey(s, key), le);
  }

  lemma SurvivorIsLast<T(!new), K>(s: seq<T>, key: T -> K, x: T)
    requires x in LastPerKey(s, key)
    ensures LastAt(s, key, x)
  {
    SurvivorsAreLast(s, key);
  }

  lemma LastIsSurvivor<T(!new), K>(s: seq<T>, key: T -> K, i: nat)
    requires i < |s| && IsLast(s, key, i)
    ensures s[i] in LastPerKey(s, key)
  {
    LastSurvives(s, key);
  }

  /** A sorted survivor is the last occurrence of its key. */
  lemma SortedSurvivorIsLast<T(!new), K>(s: seq<T>, key: T -> K, le: (T, T) -> bool, k: nat)
    requires k < |SortedLast(s, key, le)|
    ensures LastAt(s, key, SortedLast(s, key, le)[k])
  {
    SortedFromSurvivors(s, key, le, k);
    SurvivorIsLast(s, key, SortedLast(s, key, le)[k]);
  }

  /** A last occurrence is among the sorted survivors. */
  lemma LastIsSortedSurvivor<T(!new), K>(s: seq<T>, key: T -> K, le: (T, T) -> bool, i: nat)
    requires i < |s| && IsLast(s, key, i)
    ensures s[i] in SortedLast(s, key, le)
  {
    LastIsSurvivor(s, key, i);
    SurvivorsSorted(s, key, le, s[i]);
  }

  /** After sorting, some survivor still carries the key of `s[i]`. */
  lemma SortedSurvivorOfKey<T(!new), K>(s: seq<T>, key: T -> K, le: (T, T) -> bool, i: nat)
    requires i < |s|
    ensures exists j :: 0 <= j < |SortedLast(s, key, le)| && key(SortedLast(s, key, le)[j]) == key(s[i])
  {
    var j := SurvivorOfKey(s, key, i);
    var x := LastPerKey(s, key)[j];
    SurvivorsSorted(s, key, le, x);
    var k :| 0 <= k < |SortedLast(s, key, le)| && SortedLast(s, key, le)[k] == x;
  }

  /** Sorting the survivors keeps every key represented. */
  lemma SortedSurvivorsCover<T(!new), K>(s: seq<T>, key: T -> K, le: (T, T) -> bool)
    ensures var r := SortedLast(s, key, le);
      forall i :: 0 <= i < |s| ==> exists j :: 0 <= j < |r| && key(r[j]) == key(s[i])
  {
    var r := SortedLast(s, key, le);
    forall i | 0 <= i < |s| ensures exists j :: 0 <= j < |r| && key(r[j]) == key(s[i]) {
      SortedSurvivorOfKey(s, key, le, i);
    }
  }

  /** Sorting the survivors keeps exactly the last occurrences. */
  lemma SortedSurvivorsLast<T(!new), K>(s: seq<T>, key: T -> K, le: (T, T) -> bool)
    ensures var r := SortedLast(s, key, le);
      forall k :: 0 <= k < |r| ==> LastAt(s, key, r[k])
    ensures forall i :: 0 <= i < |s| && IsLast(s, key, i) ==> s[i] in SortedLast(s, key, le)
  {
    var r := SortedLast(s, key, le);
    forall k | 0 <= k < |r| ensures LastAt(s, key, r[k]) {
      SortedSurvivorIsLast(s, key, le, k);
    }
    forall i | 0 <= i < |s| && IsLast(s, key, i) ensures s[i] in r {
      LastIsSortedSurvivor(s, key, le, i);
    }
  }

  /** Sorting the survivors keeps their keys distinct. */
  lemma SortedSurvivorsDistinct<T(!new), K>(s: seq<T>, key: T -> K, le: (T, T) -> bool)
    ensures forall i, j :: 0 <= i < j < |SortedLast(s, key, le)| ==> key(SortedLast(s, key, le)[i]) != key(SortedLast(s, key, le)[j])
  {
    SurvivorsUnique(s, key);
    UniquePermuted(LastPerKey(s, key), SortedLast(s, key, le), key);
    UniqueKeysDistinct(SortedLast(s, key, le), key);
  }
}

=== FILE: text.dfy ===
/**
 * Character classes and string operations of the Python standard library,
 * restricted to what the kernel tooling uses.  Character classes are the
 * ASCII ones (`\d`, `\w`, `\s` without Unicode extensions).
 */
module Text {

  predicate IsDigit(c: char) { '0' <= c <= '9' }

  predicate IsLower(c: char) { 'a' <= c <= 'z' }

  predicate IsUpper(c: char) { 'A' <= c <= 'Z' }

  predicate IsAlnum(c: char) { IsDigit(c) || IsLower(c) || IsUpper(c) }

  /** `\w`: letters, digits and the underscore. */
  predicate IsWordChar(c: char) { IsAlnum(c) || c == '_' }

  /** `\s`, and the characters `str.split()` and `str.strip()` treat as blanks. */
  predicate IsSpace(c: char)
  {
    c == ' ' || c == '\t' || c == '\n' || c == '\r' || c == '\U{000B}' || c == '\U{000C}'
  }

  predicate AllDigits(s: string)
  {
    forall i :: 0 <= i < |s| ==> IsDigit(s[i])
  }

  predicate NoSpace(s: string)
  {
    forall i :: 0 <= i < |s| ==> !IsSpace(s[i])
  }

  /** Two blank-free strings make a blank-free string. */
  lemma NoSpaceConcat(a: string, b: string)
    requires NoSpace(a) && NoSpace(b)
    ensures NoSpace(a + b)
  {
    forall i | 0 <= i < |a + b| ensures !IsSpace((a + b)[i]) {
      if i >= |a| {
        assert (a + b)[i] == b[i - |a|];
      }
    }
  }

  predicate AllSpace(s: string)
  {
    forall i :: 0 <= i < |s| ==> IsSpace(s[i])
  }

  /** Length of the leading run of `\s` characters. */
  function SpaceRun(s: string): (n: nat)
    ensures n <= |s|
    ensures forall i :: 0 <= i < n ==> IsSpace(s[i])
    ensures n < |s| ==> !IsSpace(s[n])
  {
    if |s| > 0 && IsSpace(s[0]) then 1 + SpaceRun(s[1..]) else 0
  }

  lemma {:induction false} SpaceRunOf(w: string, rest: string)
    requires AllSpace(w)
    requires |rest| == 0 || !IsSpace(rest[0])
    ensures SpaceRun(w + rest) == |w|
    decreases |w|
  {
    if |w| > 0 {
      assert (w + rest)[1..] == w[1..] + rest;
      SpaceRunOf(w[1..], rest);
    } else {
      assert w + rest == rest;
    }
  }

  predicate Lacks(s: string, c: char)
  {
    forall i :: 0 <= i < |s| ==> s[i] != c
  }

  /** `sub in s`: some suffix of `s` starts with `sub`. */
  predicate Contains(s: string, sub: string)
    decreases |s|
  {
    sub <= s || (|s| > 0 && Contains(s[1..], sub))
  }

  lemma {:induction false} ContainsAt(s: string, sub: string, k: nat)
    requires k <= |s| && sub <= s[k..]
    ensures Contains(s, sub)
    decreases k
  {
    if k > 0 {
      assert s[1..][k - 1..] == s[k..];
      ContainsAt(s[1..], sub, k - 1);
    }
  }

  lemma {:induction false} ContainsWitness(s: string, sub: string) returns (k: nat)
    requires Contains(s, sub)
    ensures k <= |s| && sub <= s[k..]
    decreases |s|
  {
    if sub <= s {
      k := 0;
    } else {
      var k' := ContainsWitness(s[1..], sub);
      k := k' + 1;
      assert s[1..][k'..] == s[k..];
    }
  }

  /** A string contains its own suffix's occurrences, and its prefix's. */
  lemma ContainsInConcat(a: string, b: string, sub: string)
    ensures Contains(a, sub) ==> Contains(a + b, sub)
    ensures Contains(b, sub) ==> Contains(a + b, sub)
  {
    if Contains(a, sub) {
      var k := ContainsWitness(a, sub);
      assert (a + b)[k..] == a[k..] + b;
      ContainsAt(a + b, sub, k);
    }
    if Contains(b, sub) {
      var k := ContainsWitness(b, sub);
      assert (a + b)[|a| + k..] == b[k..];
      ContainsAt(a + b, sub, |a| + k);
    }
  }

  lemma ContainsItself(s: string)
    ensures Contains(s, s)
  {
  }

  /** Position of the first `c` at or after `i`, or `|s|` when there is none. */
  function IndexFrom(s: string, c: char, i: nat): (r: nat)
    requires i <= |s|
    ensures i <= r <= |s|
    ensures r < |s| ==> s[r] == c
    ensures forall k :: i <= k < r ==> s[k] != c
    decreases |s| - i
  {
    if i == |s| || s[i] == c then i else IndexFrom(s, c, i + 1)
  }

  /** `s.partition(c)[0]`: the text before the first `c` (all of `s` without one). */
  function Before(s: string, c: char): (r: string)
    ensures r <= s && Lacks(r, c)
  {
    s[..IndexFrom(s, c, 0)]
  }

  /** `s.partition(c)[2]`: the text after the first `c` ("" without one). */
  function After(s: string, c: char): (r: string)
    ensures Lacks(s, c) ==> r == ""
    ensures !Lacks(s, c) ==> s == Before(s, c) + [c] + r
  {
    var k := IndexFrom(s, c, 0);
    if k == |s| then "" else s[k + 1..]
  }

  /** `s.lstrip(c)`: `s` without its leading run of `c`. */
  function LStrip(s: string, c: char): (r: string)
    ensures |r| <= |s| && r == s[|s| - |r|..]
    ensures |r| == 0 || r[0] != c
    ensures forall i :: 0 <= i < |s| - |r| ==> s[i] == c
    decreases |s|
  {
    if |s| > 0 && s[0] == c then LStrip(s[1..], c) else s
  }

  /** `s.find(sub)`: the first position where `sub` occurs, or -1. */
  function Find(s: string, sub: string): (r: int)
    ensures -1 <= r <= |s|
    ensures r >= 0 ==> sub <= s[r..]
    ensures r >= 0 ==> forall k :: 0 <= k < r ==> !(sub <= s[k..])
    ensures r == -1 ==> forall k :: 0 <= k <= |s| ==> !(sub <= s[k..])
  {
    FindFrom(s, sub, 0)
  }

  function FindFrom(s: string, sub: string, i: nat): (r: int)
    requires i <= |s|
    ensures r == -1 || i <= r <= |s|
    ensures r >= 0 ==> sub <= s[r..]
    ensures r >= 0 ==> forall k :: i <= k < r ==> !(sub <= s[k..])
    ensures r == -1 ==> forall k :: i <= k <= |s| ==> !(sub <= s[k..])
    decreases |s| - i
  {
    if sub <= s[i..] then i else if i == |s| then -1 else FindFrom(s, sub, i + 1)
  }

  /** `s.split(c)`: the pieces between occurrences of `c`. */
  function Split(s: string, c: char): (r: seq<string>)
    ensures |r| >= 1
    ensures forall i :: 0 <= i < |r| ==> Lacks(r[i], c)
    decreases |s|
  {
    var k := IndexFrom(s, c, 0);
    if k == |s| then [s] else [s[..k]] + Split(s[k + 1..], c)
  }

  /** `sep.join(parts)`. */
  function Join(sep: string, parts: seq<string>): string
    decreases |parts|
  {
    if |parts| == 0 then "" else if |parts| == 1 then parts[0] else parts[0] + sep + Join(sep, parts[1..])
  }

  /** Splitting on `c` and joining with `c` gives back the string. */
  lemma {:induction false} JoinSplit(s: string, c: char)
    ensures Join([c], Split(s, c)) == s
    decreases |s|
  {
    var k := IndexFrom(s, c, 0);
    if k < |s| {
      JoinSplit(s[k + 1..], c);
      assert s == s[..k] + [c] + s[k + 1..];
    }
  }

  /** The elements of `parts` that are not empty, in order. */
  function NonEmpty(parts: seq<string>): (r: seq<string>)
    ensures |r| <= |parts|
    ensures forall i :: 0 <= i < |r| ==> |r[i]| > 0
  {
    if |parts| == 0 then []
    else if |parts[0]| == 0 then NonEmpty(parts[1..])
    else [parts[0]] + NonEmpty(parts[1..])
  }

  /** The kept parts are exactly the non-empty ones. */
  lemma {:induction false} NonEmptyMembers(parts: seq<string>)
    ensures forall x :: x in NonEmpty(parts) <==> x in parts && |x| > 0
    decreases |parts|
  {
    if |parts| > 0 {
      NonEmptyMembers(parts[1..]);
      assert parts == [parts[0]] + parts[1..];
    }
  }

  /** Length of the leading run of digits. */
  function DigitRun(s: string): (n: nat)
    ensures n <= |s|
    ensures n < |s| ==> !IsDigit(s[n])
  {
    if |s| > 0 && IsDigit(s[0]) then 1 + DigitRun(s[1..]) else 0
  }

  /** End of the run of digits that starts at `i`. */
  function DigitEnd(s: string, i: nat): (r: nat)
    requires i <= |s|
    ensures i <= r <= |s|
    ensures r < |s| ==> !IsDigit(s[r])
    decreases |s| - i
  {
    if i < |s| && IsDigit(s[i]) then DigitEnd(s, i + 1) else i
  }

  lemma {:induction false} DigitEndDigits(s: string, i: nat)
    requires i <= |s|
    ensures forall k :: i <= k < DigitEnd(s, i) ==> IsDigit(s[k])
    decreases |s| - i
  {
    if i < |s| && IsDigit(s[i]) {
      DigitEndDigits(s, i + 1);
    }
  }

  lemma {:induction false} DigitEndAt(s: string, i: nat, e: nat)
    requires i <= e <= |s|
    requires forall k :: i <= k < e ==> IsDigit(s[k])
    requires e == |s| || !IsDigit(s[e])
    ensures DigitEnd(s, i) == e
    decreases e - i
  {
    if i < e {
      DigitEndAt(s, i + 1, e);
    }
  }

  /** A numeral at position `h`, with no digit after it, is the run found there. */
  lemma RunAt(s: string, h: nat, x: string, rest: string)
    requires |rest| == 0 || !IsDigit(rest[0])
    requires AllDigits(x) && h <= |s| && s[h..] == x + rest
    ensures h + |x| <= |s| && DigitEnd(s, h) == h + |x| && s[h..h + |x|] == x
  {
    var e := h + |x|;
    assert forall n :: h <= n < e ==> s[n] == s[h..][n - h] == x[n - h];
    assert e < |s| ==> s[e] == s[h..][|x|] == rest[0];
    DigitEndAt(s, h, e);
    assert s[h..e] == s[h..][..|x|];
  }

  /** Everything the run covers is a digit. */
  lemma {:induction false} DigitRunDigits(s: string)
    ensures forall i :: 0 <= i < DigitRun(s) ==> IsDigit(s[i])
    decreases |s|
  {
    if |s| > 0 && IsDigit(s[0]) {
      DigitRunDigits(s[1..]);
      assert forall i :: 1 <= i < |s| ==> s[i] == s[1..][i - 1];
    }
  }

  lemma {:induction false} DigitRunOf(d: string, rest: string)
    requires AllDigits(d)
    requires |rest| == 0 || !IsDigit(rest[0])
    ensures DigitRun(d + rest) == |d|
    decreases |d|
  {
    if |d| > 0 {
      assert (d + rest)[1..] == d[1..] + rest;
      DigitRunOf(d[1..], rest);
    } else {
      assert d + rest == rest;
    }
  }

  /** End of the run of non-blank characters that starts at `i`. */
  function WordEnd(s: string, i: nat): (r: nat)
    requires i <= |s|
    ensures i <= r <= |s|
    ensures r < |s| ==> IsSpace(s[r])
    ensures forall k :: i <= k < r ==> !IsSpace(s[k])
    decreases |s| - i
  {
    if i == |s| || IsSpace(s[i]) then i else WordEnd(s, i + 1)
  }

  /** `s.split()`: the maximal runs of non-blank characters. */
  function Words(s: string): (r: seq<string>)
    ensures forall i :: 0 <= i < |r| ==> |r[i]| > 0 && NoSpace(r[i])
    decreases |s|
  {
    if |s| == 0 then []
    else if IsSpace(s[0]) then Words(s[1..])
    else
      var e := WordEnd(s, 0);
      [s[..e]] + Words(s[e..])
  }

  /** Blanks in front of a string do not change its words. */
  lemma {:induction false} WordsSkipBlanks(b: string, s: string)
    requires forall i :: 0 <= i < |b| ==> IsSpace(b[i])
    ensures Words(b + s) == Words(s)
    decreases |b|
  {
    if |b| > 0 {
      assert (b + s)[0] == b[0];
      assert (b + s)[1..] == b[1..] + s;
      WordsSkipBlanks(b[1..], s);
    } else {
      assert b + s == s;
    }
  }

  /** A word followed by a blank (or nothing) is the first word. */
  lemma WordsCons(w: string, rest: string)
    requires |w| > 0 && NoSpace(w)
    requires |rest| == 0 || IsSpace(rest[0])
    ensures Words(w + rest) == [w] + Words(rest)
  {
    var s := w + rest;
    WordEndAt(s, 0, |w|);
    assert s[..|w|] == w;
    assert s[|w|..] == rest;
  }

  lemma {:induction false} WordEndAt(s: string, i: nat, e: nat)
    requires i <= e <= |s|
    requires forall k :: i <= k < e ==> !IsSpace(s[k])
    requires e == |s| || IsSpace(s[e])
    ensures WordEnd(s, i) == e
    decreases e - i
  {
    if i < e {
      WordEndAt(s, i + 1, e);
    }
  }

  /** Joining blank-free words with one space and splitting again is the identity. */
  lemma {:induction false} WordsJoin(ws: seq<string>)
    requires forall i :: 0 <= i < |ws| ==> |ws[i]| > 0 && NoSpace(ws[i])
    ensures Words(Join(" ", ws)) == ws
    decreases |ws|
  {
    if |ws| == 1 {
      WordsCons(ws[0], "");
      assert ws[0] + "" == ws[0];
    } else if |ws| > 1 {
      var tail := Join(" ", ws[1..]);
      WordsJoin(ws[1..]);
      assert Join(" ", ws) == ws[0] + (" " + tail);
      WordsCons(ws[0], " " + tail);
      assert (" " + tail)[1..] == tail;
    }
  }

  /** The words of two strings separated by a blank are the words of each. */
  lemma {:induction false} WordsAppend(a: string, b: string)
    requires |b| == 0 || IsSpace(b[0])
    ensures Words(a + b) == Words(a) + Words(b)
    decreases |a|
  {
    if |a| == 0 {
      assert a + b == b;
    } else if IsSpace(a[0]) {
      assert (a + b)[1..] == a[1..] + b;
      WordsAppend(a[1..], b);
    } else {
      var e := WordEnd(a, 0);
      var s := a + b;
      WordEndAt(s, 0, e);
      assert s[..e] == a[..e];
      assert s[e..] == a[e..] + b;
      WordsAppend(a[e..], b);
    }
  }

  /** The words of `a + " " + b` are the words of `a` followed by those of `b`. */
  lemma WordsSpaced(a: string, b: string)
    ensures Words(a + " " + b) == Words(a) + Words(b)
  {
    WordsAppend(a, " " + b);
    WordsSkipBlanks(" ", b);
    assert a + " " + b == a + (" " + b);
  }

  /** A blank-free string is one word. */
  lemma SingleWord(w: string)
    requires |w| > 0 && NoSpace(w)
    ensures Words(w) == [w]
  {
    WordsCons(w, "");
    assert w + "" == w;
  }

  /** Python's `str.lower()` on ASCII letters. */
  function Lower(s: string): (r: string)
    ensures |r| == |s|
    ensures forall i :: 0 <= i < |s| ==> r[i] == LowerChar(s[i])
  {
    seq(|s|, i requires 0 <= i < |s| => LowerChar(s[i]))
  }

  function LowerChar(c: char): char
  {
    if IsUpper(c) then (c as int - 'A' as int + 'a' as int) as char else c
  }

  /** Python's ordering of strings: character by character, a proper prefix first. */
  predicate LexLe(a: string, b: string)
    decreases |a|
  {
    |a| == 0 || (|b| > 0 && (a[0] < b[0] || (a[0] == b[0] && LexLe(a[1..], b[1..]))))
  }

  lemma {:induction false} LexTotal(a: string, b: string)
    ensures LexLe(a, b) || LexLe(b, a)
    decreases |a|
  {
    if |a| > 0 && |b| > 0 && a[0] == b[0] {
      LexTotal(a[1..], b[1..]);
    }
  }

  lemma {:induction false} LexTransitive(a: string, b: string, c: string)
    requires LexLe(a, b) && LexLe(b, c)
    ensures LexLe(a, c)
    decreases |a|
  {
    if |a| > 0 && a[0] == b[0] && b[0] == c[0] {
      LexTransitive(a[1..], b[1..], c[1..]);
    }
  }

  lemma {:induction false} LexAntisymmetric(a: string, b: string)
    requires LexLe(a, b) && LexLe(b, a)
    ensures a == b
    decreases |a|
  {
    if |a| > 0 {
      LexAntisymmetric(a[1..], b[1..]);
      assert a == [a[0]] + a[1..];
      assert b == [b[0]] + b[1..];
    }
  }

  /** Every string is ordered before itself. */
  lemma {:induction false} LexReflexive(a: string)
    ensures LexLe(a, a)
    decreases |a|
  {
    if |a| > 0 {
      LexReflexive(a[1..]);
    }
  }

  /** Behind equally long heads the heads decide, unless they are equal. */
  lemma {:induction false} LexConcat(x: string, y: string, x': string, y': string)
    requires |x| == |x'|
    ensures LexLe(x + y, x' + y') <==> if x == x' then LexLe(y, y') else LexLe(x, x')
    decreases |x|
  {
    if |x| == 0 {
      assert x + y == y && x' + y' == y';
    } else {
      assert (x + y)[1..] == x[1..] + y && (x' + y')[1..] == x'[1..] + y';
      LexConcat(x[1..], y, x'[1..], y');
      if x[0] == x'[0] && x[1..] == x'[1..] {
        assert x == [x[0]] + x[1..] && x' == [x'[0]] + x'[1..];
      }
    }
  }
}

=== FILE: version_key.dfy ===
/**
 * The version a kernel directory or configuration file name carries, and the
 * sort key built from it (upkern/sources.py `kernel_index`, and the tuple form
 * of upkern/kernel/sources.py `_keyify`).
 *
 * Both read the name with the pattern
 *   .*?(\d+)\.(\d+)(?:\.(\d+))?-[^-]*(?:-r(\d+))?
 * anchored at the start only.  The matcher below follows the order in which
 * Python's backtracking engine tries the alternatives: the lazy prefix is
 * extended one character at a time (never across a newline) until the rest
 * matches; every digit run is maximal, because a shorter run would be followed
 * by a digit where the pattern needs `.` or `-`.
 */
module VersionKey {
  import opened Results
  import opened Text
  import opened Numbers

  /** Major, minor, patch and revision numbers; an absent component is 0. */
  datatype Version = Version(major: nat, minor: nat, patch: nat, revision: nat)

  const Zero := Version(0, 0, 0, 0)

  /** Length of the run of digits at the start of `t`. */
  function Digits(t: string): (n: nat)
    ensures n <= |t| && AllDigits(t[..n])
    ensures n < |t| ==> !IsDigit(t[n])
  {
    if |t| > 0 && IsDigit(t[0]) then
      var n := 1 + Digits(t[1..]);
      assert t[..n] == [t[0]] + t[1..][..n - 1];
      n
    else 0
  }

  /** Length of the run of characters other than `-` at the start of `t` (`[^-]*`). */
  function DashFree(t: string): (n: nat)
    ensures n <= |t| && Lacks(t[..n], '-')
    ensures n < |t| ==> t[n] == '-'
  {
    if |t| > 0 && t[0] != '-' then
      var n := 1 + DashFree(t[1..]);
      assert t[..n] == [t[0]] + t[1..][..n - 1];
      n
    else 0
  }

  /** The optional `-r<digits>` group after the `[^-]*` run at the start of `t`. */
  function Revision(t: string): nat
  {
    var e := DashFree(t);
    if e + 2 < |t| && t[e + 1] == 'r' && IsDigit(t[e + 2]) then
      var u := t[e + 2..];
      DigitsValue(u[..Digits(u)])
    else 0
  }

  /** The pattern after `major.minor`: an optional `.patch`, then `-` and the revision group. */
  function AfterMinor(major: nat, minor: nat, t: string): Option<Version>
    requires |t| > 0 && !IsDigit(t[0])
  {
    if t[0] == '.' && |t| > 1 && IsDigit(t[1]) then
      var u := t[1..];
      var n := Digits(u);
      if n < |u| && u[n] == '-' then
        Some(Version(major, minor, DigitsValue(u[..n]), Revision(u[n + 1..])))
      else None
    else if t[0] == '-' then
      Some(Version(major, minor, 0, Revision(t[1..])))
    else None
  }

  /** The match of the pattern after the lazy prefix, on the text that follows it. */
  function MatchHere(t: string): Option<Version>
  {
    var n1 := Digits(t);
    if n1 == 0 || n1 == |t| || t[n1] != '.' then None
    else
      var u := t[n1 + 1..];
      var n2 := Digits(u);
      if n2 == 0 || n2 == |u| then None
      else AfterMinor(DigitsValue(t[..n1]), DigitsValue(u[..n2]), u[n2..])
  }

  /** The lazy prefix: the first start position from `p` up to `limit` where the rest matches. */
  function FirstMatch(s: string, p: nat, limit: nat): (r: Option<Version>)
    requires p <= limit <= |s|
    ensures r.None? ==> forall k :: p <= k <= limit ==> MatchHere(s[k..]).None?
    ensures r.Some? ==> exists k :: p <= k <= limit && MatchHere(s[k..]) == r
    decreases limit - p
  {
    var m := MatchHere(s[p..]);
    if m.Some? || p == limit then m else FirstMatch(s, p + 1, limit)
  }

  /** `re.match` of the version pattern: `None` when the name does not match. */
  function ParseVersion(s: string): Option<Version>
  {
    FirstMatch(s, 0, IndexFrom(s, '\n', 0))
  }

  /** `'{:03d}'.format(n)`: the numeral of `n`, zero-padded to three digits. */
  function Pad3(n: nat): (r: string)
    ensures AllDigits(r) && DigitsValue(r) == n
    ensures n < 1000 ==> |r| == 3
  {
    var d := NatToString(n);
    if |d| >= 3 then d
    else
      var z := seq(3 - |d|, _ => '0');
      LeadingZeros(z, d);
      z + d
  }

  lemma {:induction false} PowMonotone(a: nat, b: nat)
    requires a <= b
    ensures Pow10(a) <= Pow10(b)
    decreases b
  {
    if a < b {
      PowMonotone(a, b - 1);
    }
  }

  /** The integer the four padded components spell out. */
  function IndexOf(v: Version): nat
  {
    var a, b, c, d := Pad3(v.major), Pad3(v.minor), Pad3(v.patch), Pad3(v.revision);
    DigitsValueConcat(a, b);
    DigitsValueConcat(a + b, c);
    DigitsValueConcat(a + b + c, d);
    DigitsValue(a + b + c + d)
  }

  /** `kernel_index`: a name that does not match counts as version 0.0.0-r0. */
  function KernelIndex(s: string): nat
  {
    IndexOf(ParseVersion(s).GetOr(Zero))
  }

  /** The version a name is read as; a name the pattern rejects reads as 0.0.0-r0. */
  function Reading(s: string): Version
  {
    ParseVersion(s).GetOr(Zero)
  }

  /** `'{:03d}{:03d}{:03d}.{:03d}'.format(...)` of a version. */
  function KeyText(v: Version): string
  {
    Pad3(v.major) + (Pad3(v.minor) + (Pad3(v.patch) + ("." + Pad3(v.revision))))
  }

  /** `_keyify` of upkern/kernel/sources.py: the padded components as a string. */
  function Keyify(s: string): string
  {
    KeyText(Reading(s))
  }

  /** Version order: major, then minor, then patch, then revision. */
  predicate VersionLe(a: Version, b: Version)
  {
    a.major < b.major || (a.major == b.major &&
    (a.minor < b.minor || (a.minor == b.minor &&
    (a.patch < b.patch || (a.patch == b.patch && a.revision <= b.revision)))))
  }

  /** Every component after the major one fits in three digits. */
  predicate Bounded(v: Version)
  {
    v.minor < 1000 && v.patch < 1000 && v.revision < 1000
  }

  /** With three-digit components the key is the weighted sum of the components. */
  lemma IndexFormula(v: Version)
    requires Bounded(v)
    ensures IndexOf(v) == v.major * 1000000000 + v.minor * 1000000 + v.patch * 1000 + v.revision
  {
    var a, b, c, d := Pad3(v.major), Pad3(v.minor), Pad3(v.patch), Pad3(v.revision);
    assert Pow10(3) == 1000;
    DigitsValueConcat(a, b);
    DigitsValueConcat(a + b, c);
    DigitsValueConcat(a + b + c, d);
  }

  /**
   * The key grows with the version: for versions whose minor, patch and
   * revision numbers stay below 1000, comparing keys is comparing versions.
   */
  lemma IndexOrder(a: Version, b: Version)
    requires Bounded(a) && Bounded(b)
    ensures VersionLe(a, b) <==> IndexOf(a) <= IndexOf(b)
    ensures IndexOf(a) == IndexOf(b) <==> a == b
  {
    IndexLe(a, b);
    IndexEq(a, b);
  }

  lemma IndexLe(a: Version, b: Version)
    requires Bounded(a) && Bounded(b)
    ensures VersionLe(a, b) <==> IndexOf(a) <= IndexOf(b)
  {
    IndexFormula(a);
    IndexFormula(b);
  }

  /** Equal keys: each version is at most the other, so they are the same. */
  lemma IndexEq(a: Version, b: Version)
    requires Bounded(a) && Bounded(b)
    ensures IndexOf(a) == IndexOf(b) <==> a == b
  {
    IndexLe(a, b);
    IndexLe(b, a);
    if IndexOf(a) == IndexOf(b) {
      VersionLeAntisymmetric(a, b);
    }
  }

  lemma VersionLeAntisymmetric(a: Version, b: Version)
    requires VersionLe(a, b) && VersionLe(b, a)
    ensures a == b
  {
  }

  /** `kernel_index` orders names by the versions they are read as, while components fit. */
  lemma KernelIndexOrdersVersions(s: string, t: string)
    requires Bounded(Reading(s)) && Bounded(Reading(t))
    ensures VersionLe(Reading(s), Reading(t)) <==> KernelIndex(s) <= KernelIndex(t)
  {
    IndexOrder(Reading(s), Reading(t));
  }

  /** A four-digit revision outweighs a newer patch level: the key's limit. */
  lemma IndexOrderNeedsBound()
    ensures VersionLe(Version(3, 0, 0, 1000), Version(3, 0, 1, 0))
    ensures IndexOf(Version(3, 0, 0, 1000)) > IndexOf(Version(3, 0, 1, 0))
  {
    var a, b, c, d := Pad3(3), Pad3(0), Pad3(0), Pad3(1000);
    assert Pow10(3) == 1000 && Pow10(4) == 10000;
    assert |d| == 4 by {
      assert NatToString(1000) == NatToString(100) + [DigitChar(0)];
      assert NatToString(100) == NatToString(10) + [DigitChar(0)];
    }
    DigitsValueConcat(a, b);
    DigitsValueConcat(a + b, c);
    DigitsValueConcat(a + b + c, d);
    IndexFormula(Version(3, 0, 1, 0));
  }

  /** Every component fits in three digits. */
  predicate Fits(v: Version)
  {
    v.major < 1000 && Bounded(v)
  }

  /** A three-digit block decides unless equal, then what follows it does. */
  lemma BlockOrder(n: nat, m: nat, y: string, y': string)
    requires n < 1000 && m < 1000
    ensures LexLe(Pad3(n) + y, Pad3(m) + y') <==> n < m || (n == m && LexLe(y, y'))
  {
    LexConcat(Pad3(n), y, Pad3(m), y');
    DigitsLexOrder(Pad3(n), Pad3(m));
  }

  /** The string key orders versions whose components fit the way versions are ordered. */
  lemma KeyLe(a: Version, b: Version)
    requires Fits(a) && Fits(b)
    ensures LexLe(KeyText(a), KeyText(b)) <==> VersionLe(a, b)
  {
    var ra, rb := Pad3(a.revision), Pad3(b.revision);
    assert ra + "" == ra && rb + "" == rb;
    LexReflexive("");
    BlockOrder(a.revision, b.revision, "", "");
    LexConcat(".", ra, ".", rb);
    BlockOrder(a.patch, b.patch, "." + ra, "." + rb);
    BlockOrder(a.minor, b.minor, Pad3(a.patch) + ("." + ra), Pad3(b.patch) + ("." + rb));
    BlockOrder(a.major, b.major, Pad3(a.minor) + (Pad3(a.patch) + ("." + ra)),
               Pad3(b.minor) + (Pad3(b.patch) + ("." + rb)));
  }

  /**
   * The string key orders names the way their versions are ordered, and
   * distinct versions have distinct keys, while every component fits in
   * three digits.
   */
  lemma KeyOrder(a: Version, b: Version)
    requires Fits(a) && Fits(b)
    ensures LexLe(KeyText(a), KeyText(b)) <==> VersionLe(a, b)
    ensures KeyText(a) == KeyText(b) <==> a == b
  {
    KeyLe(a, b);
    KeyLe(b, a);
    LexReflexive(KeyText(a));
  }

  lemma SmallNumerals()
    ensures NatToString(0) == "0" && NatToString(1) == "1" && NatToString(10) == "10"
    ensures NatToString(100) == "100"
  {
  }

  lemma FourDigitNumerals()
    ensures NatToString(1000) == "1000" && NatToString(1001) == "1001"
  {
    SmallNumerals();
    assert NatToString(1000) == NatToString(100) + [DigitChar(0)];
    assert NatToString(1001) == NatToString(100) + [DigitChar(1)];
  }

  lemma PaddedNumerals()
    ensures Pad3(0) == "000" && Pad3(1) == "001" && Pad3(100) == "100"
    ensures Pad3(1000) == "1000" && Pad3(1001) == "1001"
  {
    SmallNumerals();
    FourDigitNumerals();
  }

  /**
   * Once a component needs four digits the blocks run together: 1.100.1000
   * and 1.1001.0 share the key `0011001000.000`.
   */
  lemma KeyTextNeedsBound()
    ensures KeyText(Version(1, 100, 1000, 0)) == KeyText(Version(1, 1001, 0, 0))
  {
    RunTogether(1, 100, 1000, 0, 1001);
  }

  lemma RunTogether(one: nat, hundred: nat, thousand: nat, zero: nat, thousand1: nat)
    requires one == 1 && hundred == 100 && thousand == 1000 && zero == 0 && thousand1 == 1001
    ensures KeyText(Version(one, hundred, thousand, zero)) == KeyText(Version(one, thousand1, zero, zero))
  {
    PaddedNumerals();
    BlocksRegroup(Pad3(one), "." + Pad3(zero));
  }

  lemma BlocksRegroup(h: string, t: string)
    ensures h + ("100" + ("1000" + t)) == h + ("1001" + ("000" + t))
  {
    assert "100" + "1000" == "1001" + "000";
    assert "100" + ("1000" + t) == ("100" + "1000") + t;
    assert "1001" + ("000" + t) == ("1001" + "000") + t;
  }

  predicate Numeral(d: string) { |d| > 0 && AllDigits(d) }

  /**
   * The shape of the names the tools handle: a prefix, `major.minor[.patch]`,
   * `-flavor` and an optional `-r<revision>`.
   */
  function KernelName(prefix: string, major: string, minor: string, patch: Option<string>,
                      flavor: string, revision: Option<string>): string
  {
    prefix + NameBody(major, minor, patch, flavor, revision)
  }

  /** The name from its major number on. */
  function NameBody(major: string, minor: string, patch: Option<string>,
                    flavor: string, revision: Option<string>): string
  {
    major + ("." + (minor + AfterMinorText(patch, flavor, revision)))
  }

  function AfterMinorText(patch: Option<string>, flavor: string, revision: Option<string>): string
  {
    if patch.Some? then "." + (patch.value + ("-" + FlavorText(flavor, revision)))
    else "-" + FlavorText(flavor, revision)
  }

  function FlavorText(flavor: string, revision: Option<string>): string
  {
    flavor + (if revision.Some? then "-r" + revision.value else "")
  }

  /** A numeral followed by a non-digit `c`: the run is the numeral. */
  lemma {:induction false} ReadNumeral(d: string, c: char, rest: string)
    requires AllDigits(d) && !IsDigit(c)
    ensures Digits(d + ([c] + rest)) == |d|
    ensures (d + ([c] + rest))[..|d|] == d
    ensures (d + ([c] + rest))[|d|..] == [c] + rest
    decreases |d|
  {
    var t := d + ([c] + rest);
    if |d| > 0 {
      assert t[1..] == d[1..] + ([c] + rest);
      ReadNumeral(d[1..], c, rest);
    } else {
      assert t == [c] + rest;
    }
  }

  /** A numeral that ends the text: the run is all of it. */
  lemma {:induction false} ReadLastNumeral(d: string)
    requires AllDigits(d)
    ensures Digits(d) == |d|
    decreases |d|
  {
    if |d| > 0 {
      ReadLastNumeral(d[1..]);
    }
  }

  /** A dash-free stretch followed by `-` (or by nothing). */
  lemma {:induction false} ReadDashFree(f: string, tail: string)
    requires Lacks(f, '-') && (|tail| == 0 || tail[0] == '-')
    ensures DashFree(f + tail) == |f|
    ensures (f + tail)[|f|..] == tail
    decreases |f|
  {
    var t := f + tail;
    if |f| > 0 {
      assert t[1..] == f[1..] + tail;
      ReadDashFree(f[1..], tail);
    } else {
      assert t == tail;
    }
  }

  /** The revision group of `<flavor>[-r<revision>]`. */
  lemma RevisionOfFlavor(flavor: string, revision: Option<string>)
    requires Lacks(flavor, '-')
    requires revision.Some? ==> Numeral(revision.value)
    ensures Revision(FlavorText(flavor, revision))
         == if revision.Some? then DigitsValue(revision.value) else 0
  {
    var tail := if revision.Some? then "-r" + revision.value else "";
    var t := flavor + tail;
    ReadDashFree(flavor, tail);
    var e := |flavor|;
    if revision.Some? {
      var rv := revision.value;
      assert t[e..] == "-r" + rv;
      assert t[e + 1] == 'r' && t[e + 2] == rv[0];
      assert t[e + 2..] == rv;
      ReadLastNumeral(rv);
      assert rv[..|rv|] == rv;
    }
  }

  /** `major.minor` followed by the text `t` that starts with a non-digit. */
  lemma ReadMajorMinor(major: string, minor: string, t: string)
    requires Numeral(major) && Numeral(minor) && |t| > 0 && !IsDigit(t[0])
    ensures MatchHere(major + ("." + (minor + t))) == AfterMinor(DigitsValue(major), DigitsValue(minor), t)
  {
    var s := major + ("." + (minor + t));
    ReadNumeral(major, '.', minor + t);
    assert s[|major|] == '.';
    assert s[|major| + 1..] == minor + t;
    assert t == [t[0]] + t[1..];
    ReadNumeral(minor, t[0], t[1..]);
  }

  /** `.patch-` followed by the text `rest`. */
  lemma ReadPatch(major: nat, minor: nat, patch: string, rest: string)
    requires Numeral(patch)
    ensures AfterMinor(major, minor, "." + (patch + ("-" + rest)))
         == Some(Version(major, minor, DigitsValue(patch), Revision(rest)))
  {
    var t := "." + (patch + ("-" + rest));
    assert t[1..] == patch + ("-" + rest);
    assert t[1] == patch[0];
    ReadNumeral(patch, '-', rest);
    assert (patch + ("-" + rest))[|patch| + 1..] == rest;
  }

  /** `-` followed by the text `rest`, with no patch level. */
  lemma ReadNoPatch(major: nat, minor: nat, rest: string)
    ensures AfterMinor(major, minor, "-" + rest) == Some(Version(major, minor, 0, Revision(rest)))
  {
    assert ("-" + rest)[1..] == rest;
  }

  /** The lazy prefix cannot stop inside a stretch without digits. */
  lemma NoMatchInPrefix(prefix: string, t: string)
    requires forall i :: 0 <= i < |prefix| ==> !IsDigit(prefix[i]) && prefix[i] != '\n'
    ensures forall k :: 0 <= k < |prefix| ==> MatchHere((prefix + t)[k..]).None?
    ensures IndexFrom(prefix + t, '\n', 0) >= |prefix|
    ensures (prefix + t)[|prefix|..] == t
  {
    var s := prefix + t;
    forall k | 0 <= k < |prefix|
      ensures MatchHere(s[k..]).None?
    {
      assert s[k..][0] == prefix[k];
    }
    assert forall k :: 0 <= k < |prefix| ==> s[k] == prefix[k];
  }

  /** The text after the prefix of a well-shaped name is read as its components. */
  lemma MatchKernelName(major: string, minor: string, patch: Option<string>,
                        flavor: string, revision: Option<string>)
    requires Numeral(major) && Numeral(minor)
    requires patch.Some? ==> Numeral(patch.value)
    requires Lacks(flavor, '-')
    requires revision.Some? ==> Numeral(revision.value)
    ensures MatchHere(NameBody(major, minor, patch, flavor, revision))
         == Some(Version(DigitsValue(major), DigitsValue(minor),
                         if patch.Some? then DigitsValue(patch.value) else 0,
                         if revision.Some? then DigitsValue(revision.value) else 0))
  {
    var t := AfterMinorText(patch, flavor, revision);
    ReadMajorMinor(major, minor, t);
    RevisionOfFlavor(flavor, revision);
    if patch.Some? {
      ReadPatch(DigitsValue(major), DigitsValue(minor), patch.value, FlavorText(flavor, revision));
    } else {
      ReadNoPatch(DigitsValue(major), DigitsValue(minor), FlavorText(flavor, revision));
    }
  }

  /** Such a name is read as its components, missing ones as 0. */
  lemma ParseKernelName(prefix: string, major: string, minor: string, patch: Option<string>,
                        flavor: string, revision: Option<string>)
    requires forall i :: 0 <= i < |prefix| ==> !IsDigit(prefix[i]) && prefix[i] != '\n'
    requires Numeral(major) && Numeral(minor)
    requires patch.Some? ==> Numeral(patch.value)
    requires Lacks(flavor, '-')
    requires revision.Some? ==> Numeral(revision.value)
    ensures ParseVersion(KernelName(prefix, major, minor, patch, flavor, revision))
         == Some(Version(DigitsValue(major), DigitsValue(minor),
                         if patch.Some? then DigitsValue(patch.value) else 0,
                         if revision.Some? then DigitsValue(revision.value) else 0))
  {
    var s := KernelName(prefix, major, minor, patch, flavor, revision);
    var t := NameBody(major, minor, patch, flavor, revision);
    MatchKernelName(major, minor, patch, flavor, revision);
    NoMatchInPrefix(prefix, t);
    FirstMatchFinds(s, 0, IndexFrom(s, '\n', 0), |prefix|);
  }

  /** The lazy prefix stops at the first position where the rest matches. */
  lemma {:induction false} FirstMatchFinds(s: string, p: nat, limit: nat, k: nat)
    requires p <= k <= limit <= |s|
    requires MatchHere(s[k..]).Some?
    requires forall i :: p <= i < k ==> MatchHere(s[i..]).None?
    ensures FirstMatch(s, p, limit) == MatchHere(s[k..])
    decreases k - p
  {
    if p < k {
      FirstMatchStep(s, p, limit);
      FirstMatchFinds(s, p + 1, limit, k);
    } else {
      FirstMatchHere(s, p, limit);
    }
  }

  lemma FirstMatchStep(s: string, p: nat, limit: nat)
    requires p < limit <= |s| && MatchHere(s[p..]).None?
    ensures FirstMatch(s, p, limit) == FirstMatch(s, p + 1, limit)
  {
  }

  lemma FirstMatchHere(s: string, p: nat, limit: nat)
    requires p <= limit <= |s| && MatchHere(s[p..]).Some?
    ensures FirstMatch(s, p, limit) == MatchHere(s[p..])
  {
  }

  /** The key of such a name, written out. */
  lemma KernelIndexOfName(prefix: string, major: string, minor: string, patch: Option<string>,
                          flavor: string, revision: Option<string>)
    requires forall i :: 0 <= i < |prefix| ==> !IsDigit(prefix[i]) && prefix[i] != '\n'
    requires Numeral(major) && Numeral(minor)
    requires patch.Some? ==> Numeral(patch.value)
    requires Lacks(flavor, '-')
    requires revision.Some? ==> Numeral(revision.value)
    requires DigitsValue(minor) < 1000
    requires patch.Some? ==> DigitsValue(patch.value) < 1000
    requires revision.Some? ==> DigitsValue(revision.value) < 1000
    ensures KernelIndex(KernelName(prefix, major, minor, patch, flavor, revision))
         == DigitsValue(major) * 1000000000 + DigitsValue(minor) * 1000000
            + (if patch.Some? then DigitsValue(patch.value) else 0) * 1000
            + (if revision.Some? then DigitsValue(revision.value) else 0)
  {
    var v := Version(DigitsValue(major), DigitsValue(minor),
                     if patch.Some? then DigitsValue(patch.value) else 0,
                     if revision.Some? then DigitsValue(revision.value) else 0);
    ParseKernelName(prefix, major, minor, patch, flavor, revision);
    assert Reading(KernelName(prefix, major, minor, patch, flavor, revision)) == v;
    IndexFormula(v);
  }

  /** The first example of the `kernel_index` documentation. */
  lemma KernelIndexDocExample()
    ensures KernelIndex("linux-3.10.7-gentoo-r1") == 3010007001
  {
    assert KernelName("linux-", "3", "10", Some("7"), "gentoo", Some("1")) == "linux-3.10.7-gentoo-r1";
    assert DigitsValue("10") == 10;
    KernelIndexOfName("linux-", "3", "10", Some("7"), "gentoo", Some("1"));
  }

  /** A name without a revision has revision 0. */
  lemma KernelIndexNoRevision()
    ensures KernelIndex("linux-3.12.6-gentoo") == 3012006000
  {
    assert KernelName("linux-", "3", "12", Some("6"), "gentoo", None) == "linux-3.12.6-gentoo";
    assert DigitsValue("12") == 12;
    KernelIndexOfName("linux-", "3", "12", Some("6"), "gentoo", None);
  }

  /** A two-digit patch level after a one-digit minor number. */
  lemma KernelIndexTwoDigitPatch()
    ensures KernelIndex("linux-3.9.11-gentoo-r1") == 3009011001
  {
    assert KernelName("linux-", "3", "9", Some("11"), "gentoo", Some("1")) == "linux-3.9.11-gentoo-r1";
    assert DigitsValue("11") == 11;
    KernelIndexOfName("linux-", "3", "9", Some("11"), "gentoo", Some("1"));
  }

  /** A flavor other than gentoo. */
  lemma KernelIndexHardened()
    ensures KernelIndex("linux-3.11.7-hardened-r1") == 3011007001
  {
    assert KernelName("linux-", "3", "11", Some("7"), "hardened", Some("1")) == "linux-3.11.7-hardened-r1";
    assert DigitsValue("11") == 11;
    KernelIndexOfName("linux-", "3", "11", Some("7"), "hardened", Some("1"));
  }

  /** A name without any digit does not match, so it sorts as the oldest. */
  lemma NoDigitsNoVersion(s: string)
    requires forall i :: 0 <= i < |s| ==> !IsDigit(s[i])
    ensures ParseVersion(s).None? && KernelIndex(s) == 0
  {
    IndexFormula(Zero);
  }
}
